=== FILE: README.md ===
# XML Schema autocomplete, modelled in Dafny

MarkMpn.XmlSchemaAutoComplete offers completions for XML that is still being
typed. An `XmlSchemaSet` describes which documents are valid. Given the text
up to the caret, `Autocomplete.GetSuggestions` does three things:

1. It tokenizes the text with a lenient reader, `PartialXmlReader`. The reader
   never fails and records where the caret sits inside the last token.
2. It replays every token against the schema. This keeps a stack of open
   elements, each with per-particle counters for its content model.
3. It looks at the last token and the reader's final state and offers one of
   the following:
   - element names;
   - an end tag;
   - attribute names, including the synthesized `xmlns:xsi`, `xsi:nil` and
     `xsi:type`;
   - attribute values;
   - text values.

   It also reports how many typed characters the suggestion replaces.

This project models that pipeline as pure functions over immutable values.
The modules follow the source files:

| module | file | models |
|---|---|---|
| `Wrappers` | wrappers.dfy | `Option` and `Result` |
| `Strings` | strings.dfy | ordinal `StartsWith`, `Char.IsWhiteSpace`, `Trim` and the reader's scanning loops |
| `Nodes` | nodes.dfy | `PartialXmlNode.cs`: the four node kinds, the reader states and the attribute dictionary |
| `Reader` | reader.dfy | `PartialXmlReader.TryRead`, one token per call |
| `Schema` | schema.dfy | the parts of a compiled `XmlSchemaSet` that the engine reads |
| `Suggestions` | suggestions.dfy | `AutocompleteSuggestion.cs`: the five suggestion kinds and the annotation lookup |
| `Matching` | matching.dfy | `ElementState`, `MatchChoice`, the sequence scan with its counters, and the scan of allowed children |
| `Replay` | replay.dfy | the replay loop of `GetSuggestions` |
| `Completion` | completion.dfy | the completion step of `GetSuggestions` and `CompleteTextNode` |
| `Scenarios` | scenarios.dfy | whole `GetSuggestions` calls on families of inputs |

Modelling choices:

- **Token identity.** The source's test `node == firstElement` compares
  object references. Here a token is identified by its start offset.
- **Particle counters.** `ElementCount` is keyed by schema object in the
  source. Here it is keyed by the particle's index in its sequence.
- **Types.** A schema type is referenced by a `TypeId` into a map, so that
  recursive schemas and `BaseXmlSchemaType == type` can be expressed.
- **`WellFormed`.** This predicate stands for what schema compilation
  guarantees:
  - every element has a non-empty name;
  - every type reference resolves;
  - `1 <= maxOccurs` and `minOccurs <= maxOccurs`;
  - attribute uses are keyed by name.
- **Exceptions.** They are values of `Result`:
  - `AmbiguousDocumentation` is `SingleOrDefault` meeting more than one
    documentation item;
  - `NullReference` is a dereference of an empty stack's top; see Findings.
- **Corrected program.** `Completion.GetSuggestions` models the source with
  its defects corrected. The source can also end in ways that `GetSuggestions`
  never shows; each is modelled beside it or listed below:
  - a `NullReferenceException` in the attribute-name step
    (`Completion.AttributeCandidatesAsWritten`);
  - a `NullReferenceException` in the `xsi:type` value step
    (`Completion.TypeValuesAsWritten`);
  - an endless loop over an unbounded sequence
    (`Matching.RepeatLoopAsWritten`);
  - an `XmlException` from the shadow document for an attribute name that is
    not an XML name (under Left out).
- **Name order.** `CompareTo` is culture-sensitive. It is the caller-supplied
  `order` in `Config`; sortedness is proved for any total preorder.
- **Event handlers.** `AutocompleteValue` and `AutocompleteAttributeValue` are
  optional functions in `Config`. They receive the shadow element and the open
  ancestors, innermost first, and return the candidates they append.

Behaviour of the code kept as written:

- The final classification does not consult the replay's validity flag.
  An invalid replay that reaches the end of the text still offers
  completions.
- `xmlns:xsi` is offered when some global complex type has a non-null
  `BaseXmlSchemaType`. The comment above that test in `GetSuggestions`
  speaks of extension types, but in a compiled schema every complex type has
  a base (`xs:anyType` at least). So the model's condition is "some global
  named complex type exists" (`Schema.AnyComplexType`).
- A self-closing root element is never popped.
- A choice's `RepeatCount` is never incremented, so `StateOk` keeps it at 0.
- While a start tag is still being typed, a child whose name matches exactly
  is already pushed. A failed match only stops the scan.
- A space inside an attribute name moves the reader to `InStartElement`. From
  there no rule of the attribute loop fires, so the rest of the text belongs
  to that tag.

## Model

| member | source | states |
|---|---|---|
| Strings.IndexOfAny | MarkMpn.XmlSchemaAutoComplete/PartialXmlReader.cs:240-244 | the scan stops at the first character of the set at or after the start, or at the end of the text; nothing before it is in the set |
| Strings.Trim | MarkMpn.XmlSchemaAutoComplete/Autocomplete.cs:618 | `Trim` keeps the slice that starts after the leading white space; everything before and after that slice is white space, the slice neither starts nor ends with white space, and it is empty exactly when the input is all white space |
| Nodes.Find | MarkMpn.XmlSchemaAutoComplete/PartialXmlNode.cs:20 | dictionary lookup: absent exactly when no entry has the key; otherwise the value stored under it |
| Nodes.Put | MarkMpn.XmlSchemaAutoComplete/PartialXmlReader.cs:204-210 | `Attributes[name] = value` keeps keys unique, stores the value under the name and leaves every other key's value alone |
| Nodes.PutNames | MarkMpn.XmlSchemaAutoComplete/PartialXmlReader.cs:207 | an existing key keeps its place in the key order; a new key is appended last |
| Schema.DerivedTypes | MarkMpn.XmlSchemaAutoComplete/Autocomplete.cs:542-551 | a type is listed exactly when it is a global named complex type whose base is the given type |
| Suggestions.EffectiveAnnotation | MarkMpn.XmlSchemaAutoComplete/AutocompleteSuggestion.cs:18-24 | an element or attribute without its own annotation falls back to its type's annotation; facets and types use their own |
| Suggestions.FirstInnerText | MarkMpn.XmlSchemaAutoComplete/AutocompleteSuggestion.cs:32-33 | the inner text of the first markup element with the tag; none exactly when no markup element has that tag |
| Suggestions.DocOf | MarkMpn.XmlSchemaAutoComplete/AutocompleteSuggestion.cs:26-35 | fails exactly when there is more than one documentation item; with no item the documentation is empty; with exactly one, the title is the inner text of its first `h1` and the description that of its first `p`, each absent exactly when there is no such element |
| Suggestions.FirstInnerTextAfter | MarkMpn.XmlSchemaAutoComplete/AutocompleteSuggestion.cs:32-33 | an element with the tag that comes after no other element with that tag is the one whose inner text is taken, whatever follows it |
| Suggestions.DocTakesFirstHeading | MarkMpn.XmlSchemaAutoComplete/AutocompleteSuggestion.cs:26-35 | a single documentation item whose first `h1` holds a title yields that title, even when later `h1` elements follow |
| Suggestions.ElementSuggestionOf | MarkMpn.XmlSchemaAutoComplete/AutocompleteSuggestion.cs:47-56 | carries the element's name; self-closing exactly for a complex type with empty content; has attributes exactly for a complex type with attribute uses |
| Suggestions.EndElementSuggestionOf | MarkMpn.XmlSchemaAutoComplete/AutocompleteSuggestion.cs:71-74 | carries the element's name, without the slash, and the documentation the lookup gives the element (own annotation, else its type's); fails exactly when that lookup does |
| Suggestions.AttributeSuggestionOf | MarkMpn.XmlSchemaAutoComplete/AutocompleteSuggestion.cs:87-90 | carries the attribute's name and the documentation the lookup gives the attribute (own annotation, else its type's); fails exactly when that lookup does |
| Suggestions.AttributeValueOfFacet | MarkMpn.XmlSchemaAutoComplete/AutocompleteSuggestion.cs:101-104 | an attribute-value suggestion carrying the facet's value, unquoted, with the facet's own documentation; fails exactly when that documentation is ambiguous |
| Suggestions.AttributeValueOfType | MarkMpn.XmlSchemaAutoComplete/AutocompleteSuggestion.cs:106-109 | an attribute-value suggestion carrying the type's name, unquoted, with the type's own documentation; fails exactly when that documentation is ambiguous |
| Suggestions.ValueOfFacet | MarkMpn.XmlSchemaAutoComplete/AutocompleteSuggestion.cs:124-127 | a value suggestion carrying the facet's value and the facet's own documentation; fails exactly when that documentation is ambiguous |
| Reader.PiEnd | MarkMpn.XmlSchemaAutoComplete/PartialXmlReader.cs:48-56 | a processing instruction stops just past the first `?>`; when there is none it runs to the end of the text |
| Reader.ReadProcessingInstruction | MarkMpn.XmlSchemaAutoComplete/PartialXmlReader.cs:42-60 | `<?` yields a processing instruction; the reader stays in `InProcessingInstruction` exactly when no `?>` closes it |
| Reader.ReadEndTag | MarkMpn.XmlSchemaAutoComplete/PartialXmlReader.cs:62-95 | the end tag's name is the text up to the first space or `>`; the state is `InText` exactly when a `>` follows, and the tag is consumed past that first `>` |
| Reader.ScanStep | MarkMpn.XmlSchemaAutoComplete/PartialXmlReader.cs:151-210 | one character of the attribute loop keeps the loop invariant; leaving the loop happens only on `>`, and self-closing only after `/` |
| Reader.ScanStepRules | MarkMpn.XmlSchemaAutoComplete/PartialXmlReader.cs:151-210 | the full rule table: awaiting an attribute, `>` ends the tag (self-closing after `/`), a space or `/` is skipped and anything else starts a name; in a name, `>` ends the tag, a space abandons the name, `=` completes it; after `=` a quote opens the value; the same quote closes it and stores the text since the opening quote under the name; after an abandoned name no rule fires |
| Reader.ScanAttributes | MarkMpn.XmlSchemaAutoComplete/PartialXmlReader.cs:149-211 | the loop ends just past a `>` in `InText`, or at the end of the text in an attribute state, and self-closing only after `/>`; with `StoresKept` and `PairStored`, every completed `name="value"` pair is among its stores |
| Reader.StepKeepsStores | MarkMpn.XmlSchemaAutoComplete/PartialXmlReader.cs:204-209 | one character never takes back a store; the only store it can add is the value closed by its quote |
| Reader.StoresKept | MarkMpn.XmlSchemaAutoComplete/PartialXmlReader.cs:149-211 | whatever was stored before a position is still stored when the loop ends |
| Reader.SkipSpace | MarkMpn.XmlSchemaAutoComplete/PartialXmlReader.cs:161-162 | a space while awaiting an attribute is skipped |
| Reader.StartName | MarkMpn.XmlSchemaAutoComplete/PartialXmlReader.cs:167-172 | any other character while awaiting an attribute starts its name |
| Reader.ExtendName | MarkMpn.XmlSchemaAutoComplete/PartialXmlReader.cs:174-194 | a character other than `>`, space or `=` extends the attribute name |
| Reader.EndName | MarkMpn.XmlSchemaAutoComplete/PartialXmlReader.cs:189-194 | `=` ends the attribute name and records it |
| Reader.OpenValue | MarkMpn.XmlSchemaAutoComplete/PartialXmlReader.cs:196-202 | a quote after `=` opens the value just past it |
| Reader.SkipValueChar | MarkMpn.XmlSchemaAutoComplete/PartialXmlReader.cs:204-210 | inside a value, any character but its own quote is skipped |
| Reader.CloseValue | MarkMpn.XmlSchemaAutoComplete/PartialXmlReader.cs:204-209 | the closing quote stores the text since the opening quote under the recorded name and returns to awaiting an attribute |
| Reader.ScanThroughName | MarkMpn.XmlSchemaAutoComplete/PartialXmlReader.cs:174-194 | a run of characters without space, `=` or `>` stays inside the name |
| Reader.ScanThroughValue | MarkMpn.XmlSchemaAutoComplete/PartialXmlReader.cs:204-210 | a run of characters without the value's quote stays inside the value |
| Reader.NameStarted | MarkMpn.XmlSchemaAutoComplete/PartialXmlReader.cs:161-172 | a space and a name character start a name at that character |
| Reader.NameTyped | MarkMpn.XmlSchemaAutoComplete/PartialXmlReader.cs:161-194 | ` x` leaves the loop inside the name `x` |
| Reader.NameCompleted | MarkMpn.XmlSchemaAutoComplete/PartialXmlReader.cs:161-194 | ` x=` records the name `x` |
| Reader.NameOpened | MarkMpn.XmlSchemaAutoComplete/PartialXmlReader.cs:161-202 | ` x="` records `x` and opens its value just past the quote |
| Reader.ValueClosed | MarkMpn.XmlSchemaAutoComplete/PartialXmlReader.cs:204-209 | a value `v` and its closing quote store `v` under the recorded name |
| Reader.PairStored | MarkMpn.XmlSchemaAutoComplete/PartialXmlReader.cs:149-211 | a complete ` x="v"` stores `v` under `x` and the loop carries on awaiting the next attribute, whatever follows |
| Reader.CloseTag | MarkMpn.XmlSchemaAutoComplete/PartialXmlReader.cs:151-159 | `>` while awaiting an attribute ends the tag, self-closing exactly after `/` |
| Reader.OneAttributeScan | MarkMpn.XmlSchemaAutoComplete/PartialXmlReader.cs:149-211 | the loop over ` x="v">` stores exactly `x` with `v` and closes the tag, not self-closing |
| Reader.ReadStartTag | MarkMpn.XmlSchemaAutoComplete/PartialXmlReader.cs:97-143 | the name is the text after `<` up to the first space or `>`, less a `/` right before that `>`, or the rest of the text; with no space before the `>`, the tag has no attributes, is self-closing exactly after `/` and is consumed through the `>`; after a space the attribute loop runs from it and its stores fill the bag |
| Reader.AttributeStartTag | MarkMpn.XmlSchemaAutoComplete/PartialXmlReader.cs:106-116 | a name followed by a space: the token is what the attribute loop from that space and the final bookkeeping make of it |
| Reader.OneAttributeTag | MarkMpn.XmlSchemaAutoComplete/PartialXmlReader.cs:97-232 | `<a x="v">` is read as the element `a` with the single attribute `x` holding `v`, consumed entirely and not self-closing |
| Reader.FinishStartTag | MarkMpn.XmlSchemaAutoComplete/PartialXmlReader.cs:213-232 | the current attribute is set exactly in the three attribute states, and names an attribute that is stored as `null` after `=` and with its partial value inside quotes |
| Reader.TypedValue | MarkMpn.XmlSchemaAutoComplete/Autocomplete.cs:491 | inside a value, `element.Attributes[element.CurrentAttribute]` is present and non-null, shorter than the text, and preceded in the text by a quote character, which line 562 reads as the quote |
| Reader.Assign | MarkMpn.XmlSchemaAutoComplete/PartialXmlReader.cs:207 | the bag filled by the loop's stores has unique keys and holds the last store under its name |
| Reader.AssignedKeysOk | MarkMpn.XmlSchemaAutoComplete/PartialXmlReader.cs:189-207 | every key of the filled bag is a name the loop can scan |
| Reader.AssignFindsLast | MarkMpn.XmlSchemaAutoComplete/PartialXmlReader.cs:207 | the bag holds under a name the value of the last store with that name |
| Reader.AssignFindsNone | MarkMpn.XmlSchemaAutoComplete/PartialXmlReader.cs:207 | a name is a key of the bag exactly when some store names it |
| Reader.FinishedBag | MarkMpn.XmlSchemaAutoComplete/PartialXmlReader.cs:213-232 | the finished tag's bag is the one the stores fill; a value or `=` open at the end of the text changes only the entry of the current name |
| Reader.EndInValue | MarkMpn.XmlSchemaAutoComplete/PartialXmlReader.cs:214-219 | text ending inside a value stores exactly the text after its opening quote under the current name and makes that name current; every other key keeps its value |
| Reader.EndInEquals | MarkMpn.XmlSchemaAutoComplete/PartialXmlReader.cs:221-225 | text ending after `=` stores the attribute as `null` and makes it current; every other key keeps its value |
| Reader.EndInName | MarkMpn.XmlSchemaAutoComplete/PartialXmlReader.cs:227-230 | text ending inside a name makes exactly the text since the name's first character current, and stores nothing |
| Reader.ReadText | MarkMpn.XmlSchemaAutoComplete/PartialXmlReader.cs:236-248 | text is the non-empty slice up to the next `<` or the end of the text, and leaves the state unchanged |
| Reader.TryRead | MarkMpn.XmlSchemaAutoComplete/PartialXmlReader.cs:20-249 | nothing is read exactly at the end of the text; otherwise at least one character is consumed and the end is never passed; a `<` is read as markup (`ReadMarkup`) and anything else as text; a tag that leaves the reader outside `InText` ends the text |
| Reader.ReadMarkup | MarkMpn.XmlSchemaAutoComplete/PartialXmlReader.cs:28-97 | `<?` is a processing instruction, `</` an end tag, a lone trailing `<` an empty-named start tag in `InStartElement`, and any other `<x` a start tag |
| Matching.MatchChoice | MarkMpn.XmlSchemaAutoComplete/Autocomplete.cs:589-606 | the first element alternative named exactly as the child, searching only up to the first non-element item; no match exactly when no leading alternative has the name |
| Matching.MatchParticle | MarkMpn.XmlSchemaAutoComplete/Autocomplete.cs:280-288 | an element particle matches exactly when its declaration has the name, and yields that declaration; a choice matches as `MatchChoice` does; any other particle never matches |
| Matching.ScanPass | MarkMpn.XmlSchemaAutoComplete/Autocomplete.cs:274-311 | one pass stops at the first particle that matches; a mandatory particle was skipped exactly when one passed over has a count below its `minOccurs` |
| Matching.NothingAheadIsFull | MarkMpn.XmlSchemaAutoComplete/Autocomplete.cs:292-301 | every particle from the scan position on can still match once more |
| Matching.Advance | MarkMpn.XmlSchemaAutoComplete/Autocomplete.cs:290-301 | a match raises that particle's count by one and leaves the other counts alone; the scan moves past the particle exactly when it is full; the counter invariant is kept |
| Matching.Restart | MarkMpn.XmlSchemaAutoComplete/Autocomplete.cs:318-320 | a restart adds one repetition, rewinds to the first particle and clears every counter |
| Matching.RestartKeepsCounts | MarkMpn.XmlSchemaAutoComplete/Autocomplete.cs:318-320 | the counter invariant holds after a restart |
| Matching.RepeatLoop | MarkMpn.XmlSchemaAutoComplete/Autocomplete.cs:270-325 | the repeat count stays within the sequence's `maxOccurs`; a found child has the typed name and the repetition is below the bound; while typing, a miss changes nothing; a finished miss reaches a bounded `maxOccurs`, and in an unbounded sequence is invalid; a restart from the first particle is invalid, so a valid replay restarts at most once |
| Matching.RepeatLoopMiss | MarkMpn.XmlSchemaAutoComplete/Autocomplete.cs:274-311 | when the loop finds nothing, no particle from the scan position on has the name, and once it could restart, no particle at all has it |
| Matching.RepeatLoopAsWritten | MarkMpn.XmlSchemaAutoComplete/Autocomplete.cs:270-325 | the loop with the source's only exits, given some evaluations of its condition; a child it finds has the typed name |
| Matching.UnboundedMissHangs | MarkMpn.XmlSchemaAutoComplete/Autocomplete.cs:270-325 | in an unbounded sequence none of whose particles has the name of a finished start tag, the source's loop runs out of any fuel |
| Matching.RepeatLoopAgrees | MarkMpn.XmlSchemaAutoComplete/Autocomplete.cs:270-325 | for a bounded sequence, a tag still being typed, or a child that matches, the source's loop with enough fuel gives exactly the corrected loop's result |
| Matching.MatchSequence | MarkMpn.XmlSchemaAutoComplete/Autocomplete.cs:266-329 | reaching the sequence's `maxOccurs` is invalid, and so is a finished start tag that no particle matches, bounded or not; a miss while typing changes nothing |
| Matching.LeadingElements | MarkMpn.XmlSchemaAutoComplete/Autocomplete.cs:386-393 | the choice's element alternatives, in order, stopping at the first item that is not an element |
| Matching.ScanStop | MarkMpn.XmlSchemaAutoComplete/Autocomplete.cs:382-408 | the scan stops before the first particle that is neither an element nor a choice, or just after the first element still below its `minOccurs` |
| Matching.Candidates | MarkMpn.XmlSchemaAutoComplete/Autocomplete.cs:380-408 | a declaration is offered exactly when it has the typed prefix and some particle before the scan stop offers it |
| Matching.FilterByPrefix | MarkMpn.XmlSchemaAutoComplete/Autocomplete.cs:365-367 | keeps exactly the declarations whose names start with the typed prefix |
| Matching.FilterByPrefixAppend | MarkMpn.XmlSchemaAutoComplete/Autocomplete.cs:391-398 | prefix filtering keeps the order of concatenated lists |
| Matching.CandidatesInOrder | MarkMpn.XmlSchemaAutoComplete/Autocomplete.cs:380-408 | the offered children come in schema order: exactly what the particles up to the scan stop offer, filtered by the typed prefix |
| Replay.FindGlobal | MarkMpn.XmlSchemaAutoComplete/Autocomplete.cs:225-235 | the first global element with exactly that name; none exactly when no global element has it |
| Replay.OpenRoot | MarkMpn.XmlSchemaAutoComplete/Autocomplete.cs:220-239 | a known root is pushed as a fresh state; an unknown root leaves the stack empty and makes the replay invalid |
| Replay.CloseElement | MarkMpn.XmlSchemaAutoComplete/Autocomplete.cs:240-257 | the replay gives up exactly on an empty stack, or on a mismatched end tag that is already closed; a matching end tag pops; a mismatch still being typed only invalidates |
| Replay.NewStateOk | MarkMpn.XmlSchemaAutoComplete/Autocomplete.cs:232 | a freshly pushed element state satisfies the replay invariant |
| Replay.MatchChild | MarkMpn.XmlSchemaAutoComplete/Autocomplete.cs:266-345 | the parent keeps its invariant; a matched child has the typed name and a declaration; a finished tag that matches nothing is invalid; a miss while typing leaves the parent unchanged |
| Replay.FoundInSequence | MarkMpn.XmlSchemaAutoComplete/Autocomplete.cs:280-288 | what a sequence match pushes is a declared particle of that sequence |
| Replay.OpenChild | MarkMpn.XmlSchemaAutoComplete/Autocomplete.cs:258-353 | gives up exactly when nothing is open or the innermost type has no sequence or choice; a valid finished tag grows the stack by one, or by none when self-closing, and the new top is the child, fresh |
| Replay.Apply | MarkMpn.XmlSchemaAutoComplete/Autocomplete.cs:204-354 | processing instructions and white-space text change nothing; any other token after the replay became invalid gives up; the first element token is remembered and opens the root |
| Replay.Fold | MarkMpn.XmlSchemaAutoComplete/Autocomplete.cs:204-354 | the loop keeps the stack invariant; the last token is missing exactly for an empty text; the first element, once seen, never changes |
| Replay.ReplayText | MarkMpn.XmlSchemaAutoComplete/Autocomplete.cs:193-354 | the whole replay keeps the stack invariant and has a last token exactly when the text is non-empty |
| Completion.Filter | MarkMpn.XmlSchemaAutoComplete/Autocomplete.cs:484-486 | `Where`: an element is kept exactly when it is in the list and satisfies the predicate; every kept element satisfies it, the result is no longer than the input, and a list whose every element satisfies it is kept whole |
| Completion.MapAll | MarkMpn.XmlSchemaAutoComplete/Autocomplete.cs:368-369 | `Select(...).ToArray()` over a constructor that may throw: fails exactly when some element's constructor fails, with that constructor's error; otherwise one result per element, with `f(xs[i]) == Success(r[i])` |
| Completion.Insert | MarkMpn.XmlSchemaAutoComplete/Autocomplete.cs:461 | one insertion step of the sort: the result is the list with the new use added, as a multiset, and one longer |
| Completion.Uses | MarkMpn.XmlSchemaAutoComplete/Autocomplete.cs:451-455 | `complex.AttributeUses`: the attribute uses of the element's type when it is complex, none for a simple type |
| Completion.Enumerations | MarkMpn.XmlSchemaAutoComplete/Autocomplete.cs:512-513 | `Facets.OfType<XmlSchemaEnumerationFacet>()`: a facet is kept exactly when it is in the list and is an enumeration facet; a list of enumeration facets only is kept whole |
| Completion.FilterAppend | MarkMpn.XmlSchemaAutoComplete/Autocomplete.cs:484-486 | `Where` keeps the order of concatenated lists |
| Completion.SortByName | MarkMpn.XmlSchemaAutoComplete/Autocomplete.cs:461 | the sorted attribute uses are a permutation of the uses |
| Completion.InsertSorted | MarkMpn.XmlSchemaAutoComplete/Autocomplete.cs:461 | inserting into a sorted list keeps it sorted under a total preorder |
| Completion.SortByNameSorted | MarkMpn.XmlSchemaAutoComplete/Autocomplete.cs:461 | the sorted attribute uses are ordered by name under any total preorder |
| Completion.Ancestors | MarkMpn.XmlSchemaAutoComplete/Autocomplete.cs:522-529 | the handlers see every open element's type and name, innermost first |
| Completion.ChildOffer | MarkMpn.XmlSchemaAutoComplete/Autocomplete.cs:374-436 | a sequence offers exactly the particles from the scan position up to the scan stop, filtered by the typed prefix; a choice its leading element alternatives so filtered; other content and simple types nothing; a sequence can close when nothing is typed and every remaining particle has reached its `minOccurs`; a choice once it has repeated `minOccurs` times; anything else when nothing is typed |
| Completion.ChildSuggestions | MarkMpn.XmlSchemaAutoComplete/Autocomplete.cs:372-443 | one suggestion per offered child, in order, each exactly what `ElementSuggestionOf` builds for it (documentation, SelfClosing and HasAttributes included), then, exactly when the innermost element can close, its `EndElementSuggestionOf` with the slash set; it fails exactly when one of those constructors does |
| Completion.RootSuggestions | MarkMpn.XmlSchemaAutoComplete/Autocomplete.cs:362-370 | one suggestion per global element with the typed prefix, in schema order, each exactly what `ElementSuggestionOf` builds for that global; it fails exactly when one of those does; every such global is offered |
| Completion.ElementSuggestions | MarkMpn.XmlSchemaAutoComplete/Autocomplete.cs:364-368 | one suggestion per declaration, in order, each exactly what `ElementSuggestionOf` builds; the list fails, with ambiguous documentation, exactly when one of them does |
| Completion.StartTagSuggestions | MarkMpn.XmlSchemaAutoComplete/Autocomplete.cs:358-444 | at the root, the root suggestions; below it, exactly the `ChildSuggestions` of the innermost open element, so element names with the typed prefix plus possibly its end tag; nothing when nothing is open |
| Completion.DeclaredAttributes | MarkMpn.XmlSchemaAutoComplete/Autocomplete.cs:451-462 | one suggestion per attribute use of the innermost type, in sorted order, each exactly what `AttributeSuggestionOf` builds for that use; it fails exactly when one of those does |
| Completion.AttributeSuggestions | MarkMpn.XmlSchemaAutoComplete/Autocomplete.cs:453-458 | one suggestion per attribute use, in order, each exactly what `AttributeSuggestionOf` builds; the list fails exactly when one of them does |
| Completion.DeclaredAttributesComplete | MarkMpn.XmlSchemaAutoComplete/Autocomplete.cs:454-458 | every declared attribute use is offered |
| Completion.DeclaredAttributesSorted | MarkMpn.XmlSchemaAutoComplete/Autocomplete.cs:460-461 | the declared attributes come ordered by name under any total preorder |
| Completion.Specials | MarkMpn.XmlSchemaAutoComplete/Autocomplete.cs:464-482 | `xmlns:xsi` only at the root, with `UsesXsi` set and a complex type present; `xsi:nil` exactly for a nillable element; `xsi:type` exactly when a global complex type derives from the element's type; always in that order |
| Completion.AttributeCandidatesAsWritten | MarkMpn.XmlSchemaAutoComplete/Autocomplete.cs:467-476 | with nothing open, the source's attribute step dereferences the missing element |
| Completion.AttributeCandidates | MarkMpn.XmlSchemaAutoComplete/Autocomplete.cs:449-482 | the synthesized attributes come first, then the declared ones sorted by name; with nothing open, at most `xmlns:xsi` |
| Completion.AttributeNames | MarkMpn.XmlSchemaAutoComplete/Autocomplete.cs:484-486 | keeps exactly the attribute candidates with the typed prefix that are not already on the element |
| Completion.AttributeNamesInOrder | MarkMpn.XmlSchemaAutoComplete/Autocomplete.cs:484-486 | after filtering, the synthesized attributes still come before the declared ones |
| Completion.FindAttribute | MarkMpn.XmlSchemaAutoComplete/Autocomplete.cs:498-501 | the attribute use with that name; none exactly when no use has it |
| Completion.TypeOwnValues | MarkMpn.XmlSchemaAutoComplete/Autocomplete.cs:503-517 | a boolean attribute offers `false, true`; a restriction offers, in order, exactly what `AttributeValueOfFacet` builds for each enumeration facet, and fails exactly when one of those does; anything else offers nothing |
| Completion.FacetAttributeValues | MarkMpn.XmlSchemaAutoComplete/Autocomplete.cs:512-515 | one attribute value per enumeration facet, in order, each exactly what `AttributeValueOfFacet` builds; the list fails exactly when one of them does |
| Completion.DeclaredValues | MarkMpn.XmlSchemaAutoComplete/Autocomplete.cs:495-533 | nothing without an open complex-typed element or a declared attribute of that name; for a declared attribute, its type's own values followed by the values the handler adds |
| Completion.HandlerValues | MarkMpn.XmlSchemaAutoComplete/Autocomplete.cs:519-531 | exactly the values the attribute-value handler returns for the open element and its ancestors, in order, unquoted; nothing without a handler |
| Completion.TypeValuesAsWritten | MarkMpn.XmlSchemaAutoComplete/Autocomplete.cs:540-551 | with nothing open and a complex type in the schema, the source dereferences the missing element |
| Completion.TypeValues | MarkMpn.XmlSchemaAutoComplete/Autocomplete.cs:540-551 | for each global complex type derived from the innermost element's type, in order, exactly what `AttributeValueOfType` builds (its name and documentation); it fails exactly when one of those does; none when nothing is open |
| Completion.TypeNameValues | MarkMpn.XmlSchemaAutoComplete/Autocomplete.cs:544-550 | one attribute value per type, in order, each exactly what `AttributeValueOfType` builds and so naming that type; the list fails exactly when one of them does |
| Completion.ReservedValues | MarkMpn.XmlSchemaAutoComplete/Autocomplete.cs:535-557 | `xmlns:xsi` offers the XML Schema instance namespace, `xsi:type` the derived type names, `xsi:nil` `true, false`; other attributes nothing |
| Completion.QuoteAll | MarkMpn.XmlSchemaAutoComplete/Autocomplete.cs:559-563 | every value gets the same quoting flag and quote character |
| Completion.AttributeValues | MarkMpn.XmlSchemaAutoComplete/Autocomplete.cs:493-567 | it fails exactly when the declared or the reserved values fail, with that failure; otherwise it is the declared then the reserved values, quoted, keeping exactly those whose value has the typed prefix; so every value offered is a quoted candidate with the typed prefix, quoted exactly when no quote was typed and otherwise reusing the typed quote |
| Completion.ValuePrefixed | MarkMpn.XmlSchemaAutoComplete/Autocomplete.cs:565-567 | the filter keeps a suggestion exactly when it is an attribute value starting with the typed text |
| Completion.QuoteAllAppend | MarkMpn.XmlSchemaAutoComplete/Autocomplete.cs:559-563 | setting the quoting of every suggestion keeps the order of a concatenation |
| Completion.AttributeValuesInOrder | MarkMpn.XmlSchemaAutoComplete/Autocomplete.cs:493-567 | the matching declared values come first, in their order, then the matching reserved values |
| Completion.AttributeValuesComplete | MarkMpn.XmlSchemaAutoComplete/Autocomplete.cs:559-567 | every candidate value with the typed prefix is offered |
| Completion.BooleanValues | MarkMpn.XmlSchemaAutoComplete/Autocomplete.cs:615-621 | offers exactly those of `false` and `true` that start with the key |
| Completion.PrefixedFacets | MarkMpn.XmlSchemaAutoComplete/Autocomplete.cs:623-631 | a facet is chosen exactly when it is an enumeration facet whose value starts with the key |
| Completion.PrefixedFacetsAppend | MarkMpn.XmlSchemaAutoComplete/Autocomplete.cs:623-631 | choosing facets keeps the order of a concatenation |
| Completion.FacetValues | MarkMpn.XmlSchemaAutoComplete/Autocomplete.cs:623-631 | one suggestion per enumeration facet whose value starts with the key, in the facets' order, each exactly what `ValueOfFacet` builds for it; it fails exactly when one of those does; every such facet is offered |
| Completion.FacetSuggestions | MarkMpn.XmlSchemaAutoComplete/Autocomplete.cs:628-630 | one value suggestion per enumeration facet, in order, each exactly what `ValueOfFacet` builds; the list fails exactly when one of them does |
| Completion.HookValues | MarkMpn.XmlSchemaAutoComplete/Autocomplete.cs:635-649 | every value the handler adds is offered, in order, unfiltered |
| Completion.CompleteText | MarkMpn.XmlSchemaAutoComplete/Autocomplete.cs:608-652 | nothing with nothing open; for a boolean type exactly the booleans with the trimmed prefix; for a restriction with facets exactly the facet values with that prefix, in order; for any other type, complex or simple, the handler's values, unfiltered |
| Completion.AttributeNameCompletion | MarkMpn.XmlSchemaAutoComplete/Autocomplete.cs:445-487 | offers exactly the attribute candidates with the typed prefix that are not yet present, in candidate order, replacing the attribute name typed so far |
| Completion.AttributeValueCompletion | MarkMpn.XmlSchemaAutoComplete/Autocomplete.cs:488-568 | after `=`, exactly the attribute values for the current attribute with no prefix, quoted with `"`, replacing nothing; inside a value, exactly those starting with the typed value, reusing its quote and replacing it |
| Completion.ValuesAfterEquals | MarkMpn.XmlSchemaAutoComplete/Autocomplete.cs:559-567 | right after `=`: exactly the attribute values with no prefix, each quoted with `"`, replacing nothing |
| Completion.ValuesInQuote | MarkMpn.XmlSchemaAutoComplete/Autocomplete.cs:559-567 | inside a value: exactly the attribute values starting with the typed value, each carrying the given quote without quotes of its own, and replacing the typed value; fails exactly when the candidate values fail |
| Completion.TextCompletion | MarkMpn.XmlSchemaAutoComplete/Autocomplete.cs:574-578 | exactly the text values for the open element, with the given replaced length |
| Completion.StartTagCompletion | MarkMpn.XmlSchemaAutoComplete/Autocomplete.cs:358-360 | exactly the start-tag suggestions for the typed name, replacing it |
| Completion.ElementCompletion | MarkMpn.XmlSchemaAutoComplete/Autocomplete.cs:356-573 | after a start tag, the reader's state decides: in the name, the start-tag completion; in an attribute name, or after a trailing space, the attribute-name completion; after `=` or in a value, the attribute-value completion; after `>`, the text completion replacing nothing; nothing after an attribute value not followed by white space, nor in the other states |
| Completion.Complete | MarkMpn.XmlSchemaAutoComplete/Autocomplete.cs:356-586 | a processing instruction offers nothing; text offers the text completion replacing the text; an end tag offers exactly the innermost element's end tag, without the slash and replacing nothing, when the typed name is its prefix, and nothing otherwise; a start tag is completed by its reader state |
| Completion.GetSuggestions | MarkMpn.XmlSchemaAutoComplete/Autocomplete.cs:193-587 | the source with its defects corrected: an empty text or a replay that gives up offers nothing; the only failure left is ambiguous documentation; the replaced length fits in the text |
| Scenarios.ReadOpenTag | MarkMpn.XmlSchemaAutoComplete/PartialXmlReader.cs:97-139 | `<p` is read as one unfinished start tag named `p` |
| Scenarios.RootNameCompletion | MarkMpn.XmlSchemaAutocomplete.Tests/Tests.cs:12-22 | `<p` offers exactly the root suggestions for `p`, replacing `p` |
| Scenarios.UnknownRootAwaitingAttribute | MarkMpn.XmlSchemaAutoComplete/Autocomplete.cs:220-238 | `<p ` with an unknown `p` ends with an empty stack, an invalid replay, and the reader awaiting an attribute |
| Scenarios.UnknownRootAttributesAsWritten | MarkMpn.XmlSchemaAutoComplete/Autocomplete.cs:467-476 | on `<p ` with an unknown `p` the source's attribute step dereferences the missing element |
| Scenarios.UnknownRootAttributes | MarkMpn.XmlSchemaAutoComplete/Autocomplete.cs:445-487 | with the guard, `<p ` with an unknown `p` offers `xmlns:xsi` exactly when `UsesXsi` is set and a complex type exists, and nothing else |
| Scenarios.ScanTypeHead | MarkMpn.XmlSchemaAutoComplete/PartialXmlReader.cs:161-172 | ` xsi:` moves the attribute loop into the name |
| Scenarios.ScanTypeRest | MarkMpn.XmlSchemaAutoComplete/PartialXmlReader.cs:174-194 | `type` stays in the name |
| Scenarios.ScanTypeValue | MarkMpn.XmlSchemaAutoComplete/PartialXmlReader.cs:189-202 | `="` records the name `xsi:type` and opens an empty value at the end of the text |
| Scenarios.ScanTypeAttribute | MarkMpn.XmlSchemaAutoComplete/PartialXmlReader.cs:149-211 | the attribute loop over ` xsi:type="` ends inside the empty value of `xsi:type` |
| Scenarios.ReadTypeAttributeTag | MarkMpn.XmlSchemaAutoComplete/PartialXmlReader.cs:97-232 | `<p xsi:type="` is read as a start tag named `p` whose current attribute `xsi:type` holds an empty value |
| Scenarios.UnknownRootTypeValue | MarkMpn.XmlSchemaAutoComplete/Autocomplete.cs:204-239 | `<p xsi:type="` with an unknown `p` ends with an empty stack, inside the `xsi:type` value |
| Scenarios.UnknownRootTypeValuesAsWritten | MarkMpn.XmlSchemaAutoComplete/Autocomplete.cs:540-551 | on that input, with a complex type in the schema, the source's `xsi:type` step dereferences the missing element |
| Scenarios.UnknownRootTypeValues | MarkMpn.XmlSchemaAutoComplete/Autocomplete.cs:488-568 | with the guard, `<p xsi:type="` with an unknown `p` offers nothing, replacing nothing |
| Scenarios.RootOpened | MarkMpn.XmlSchemaAutoComplete/Autocomplete.cs:232 | the state pushed for a root keeps the replay invariant and starts with no counts at the first particle |
| Scenarios.ReadRootTag | MarkMpn.XmlSchemaAutoComplete/PartialXmlReader.cs:117-143 | `<r>` is read as a closed start tag named `r`, without attributes, leaving the reader in text |
| Scenarios.ReplayRootThenOpen | MarkMpn.XmlSchemaAutoComplete/Autocomplete.cs:258-316 | after `<r><` the root is open with fresh counters, and the empty child tag is the last token, still in `InStartElement` |
| Scenarios.InStartTag | MarkMpn.XmlSchemaAutoComplete/Autocomplete.cs:356-360 | with the caret in a start tag's name, the completion lists element names |
| Scenarios.EmptyChildName | MarkMpn.XmlSchemaAutoComplete/Autocomplete.cs:372-443 | an empty child tag name below one open element offers what that element offers, replacing nothing |
| Scenarios.ChildListAfterRoot | MarkMpn.XmlSchemaAutocomplete.Tests/Tests.cs:24-35 | `<r><` offers exactly the root's possible children, and its end tag when it may close, replacing nothing |
| Scenarios.ChildListAfterOpen | MarkMpn.XmlSchemaAutoComplete/Autocomplete.cs:372-443 | whenever the reader stops in an empty child tag below one open element, the completion is exactly that element's child list, replacing nothing |

## Left out

- I/O and the editor integration are left out, because they are not part of the engine. This covers the Scintilla helper projects and the test application.
- MarkMpn.XmlSerializerAutoComplete, the serializer-based engine, is not part of this model.
- Schema compilation and the `Autocomplete<T>` constructor are left out, because building an `XmlSchemaSet` belongs to the .NET runtime. The compiled schema is the `Schema` value; `WellFormed` states what compilation guarantees.
- The shadow `XmlDocument` is only represented by its name and attributes (`ShadowElement`), because the engine itself never reads it back; the handlers receive the modelled value. This covers `CreateElement`, `AppendChild` and `SetAttribute`.
- The `XmlException` that `CreateElement` and `SetAttribute` raise for a name that is not an XML name is left out, because name validation belongs to the .NET runtime. The reader stores any run of characters up to `=` as an attribute name, so `<MyDoc a"b="1" ` reaches `SetAttribute` with the name `a"b` and the source throws; `GetSuggestions` offers completions there instead. Element names come from the schema and are valid.
- Culture-sensitive string comparison is left out, because it lives in the .NET runtime. `CompareTo` is the abstract `order` parameter.
- `StartsWith` is modelled as an ordinal prefix test. The .NET default is culture-sensitive, but the two agree on the ASCII names schemas use.
- Elements whose type is `xs:anyType` itself are left out. For them the source's `BaseXmlSchemaType == currentElement.Type` test would also match complex types that do not extend anything explicitly.
- The event handlers are modelled as appending candidates only, because the model's handlers return a list and cannot see or remove earlier suggestions.
- Completion.SortByName: models `List.Sort` as a stable insertion sort. For names that the order ranks equal, `List.Sort` is unstable and may arrange them differently; sortedness and permutation are what is proved.
- `maxOccurs="unbounded"` is `decimal.MaxValue` in the source and `Unbounded` here; the decimal comparison with the `int` repeat count is modelled as `Bound.Below`.
- An element or choice particle's `maxOccurs="unbounded"` (`decimal.MaxValue` in the source) is a finite `nat` here. A schema stands for an unbounded particle with a bound larger than any occurrence count the replay reaches; the source compares that count, an `int`, with the decimal, and an `int` never reaches `decimal.MaxValue`.
- RepeatLoopAsWritten: a bounded `maxOccurs` above 2^31 - 1 is modelled without the wrap-around of the 32-bit `RepeatCount`; with that wrap the source loops forever there too, as for an unbounded sequence.

## Findings

| source | as written | input that shows it | evidently intended | confidence | as-written member | corrected member |
|---|---|---|---|---|---|---|
| MarkMpn.XmlSchemaAutoComplete/Autocomplete.cs:467-476 | the attribute-name step peeks the stack without checking the result, then reads `currentElement.Type` or `currentElement.IsNillable` | `<p ` where no global element is named `p`: the root is not found, the stack is empty, and a `NullReferenceException` escapes `GetSuggestions` | with nothing open only `xmlns:xsi` can apply, so offer it or nothing | not executed | Completion.AttributeCandidatesAsWritten, Scenarios.UnknownRootAttributesAsWritten | Completion.AttributeCandidates, Scenarios.UnknownRootAttributes |
| MarkMpn.XmlSchemaAutoComplete/Autocomplete.cs:540-551 | the `xsi:type` value step compares every global complex type's base with `currentElement.Type`, also when nothing is open | `<p xsi:type="` where no global element is named `p`, against a schema that has a named complex type: a `NullReferenceException` escapes | with nothing open there is no type to derive from, so offer no type names | not executed | Completion.TypeValuesAsWritten, Scenarios.UnknownRootTypeValuesAsWritten | Completion.TypeValues, Scenarios.UnknownRootTypeValues |
| MarkMpn.XmlSchemaAutoComplete/Autocomplete.cs:270-325 | the repetition loop over a sequence exits only on a match, on a tag still being typed, or when the `int` `RepeatCount` reaches `maxOccurs`; an unbounded `maxOccurs` is `decimal.MaxValue`, which the count never reaches, and a failed pass restarts the sequence unconditionally | `<r><x>` (or `<r><x `) where `r` has `<xs:sequence maxOccurs="unbounded">` and no particle is named `x`: every pass fails, the sequence restarts forever and `GetSuggestions` never returns | a pass from the first particle that finds nothing will find nothing again, so stop there and treat the child as not allowed | not executed | Matching.RepeatLoopAsWritten, Matching.UnboundedMissHangs | Matching.RepeatLoop, Matching.RepeatLoopAgrees |

=== FILE: completion.dfy ===
/** The completion step of `Autocomplete.GetSuggestions` (the part of it after the
    replay loop, in MarkMpn.XmlSchemaAutoComplete/Autocomplete.cs) and
    `CompleteTextNode`: what is offered at the end of the text, given the replay
    and the last token read. */
module Completion {
  import opened Wrappers
  import opened Strings
  import opened Nodes
  import opened Reader
  import opened Schema
  import opened Suggestions
  import opened Matching
  import opened Replay

  /** An open element as the callbacks see it: its type and its name. */
  datatype Ancestor = Ancestor(typeId: TypeId, name: string)

  /** A value a callback adds: the text and its documentation. */
  datatype Candidate = Candidate(value: string, doc: Doc)

  /** What the caller configures: the schema, the `UsesXsi` switch, the order
      `CompareTo` puts names in (`order(x, y)` when x sorts no later than y),
      and the two optional event handlers, which append candidates given the
      shadow element and its open ancestors (innermost first). */
  datatype Config = Config(
    schema: Schema,
    usesXsi: bool,
    order: (string, string) -> bool,
    valueHook: Option<(ShadowElement, seq<Ancestor>) -> seq<Candidate>>,
    attributeValueHook: Option<(ShadowElement, seq<Ancestor>, AttributeDecl) -> seq<Candidate>>)

  /** The suggestions and the number of characters before the caret they replace. */
  datatype Completion = Completion(suggestions: seq<Suggestion>, length: nat)

  const NoCompletion := Completion([], 0)

  // ---------------------------------------------------------------------------
  // Sequence helpers

  /** `Where`: the elements satisfying `p`, in order. */
  function Filter<T(!new)>(xs: seq<T>, p: T -> bool): (r: seq<T>)
    ensures |r| <= |xs|
    ensures forall x :: x in r <==> x in xs && p(x)
    ensures forall i :: 0 <= i < |r| ==> p(r[i])
    ensures (forall i :: 0 <= i < |xs| ==> p(xs[i])) ==> r == xs
  {
    if |xs| == 0 then []
    else
      var rest := Filter(xs[1..], p);
      assert forall x :: x in xs <==> x == xs[0] || x in xs[1..];
      if p(xs[0]) then [xs[0]] + rest else rest
  }

  /** Filtering keeps the order of a concatenation. */
  lemma {:induction false} FilterAppend<T(!new)>(xs: seq<T>, ys: seq<T>, p: T -> bool)
    ensures Filter(xs + ys, p) == Filter(xs, p) + Filter(ys, p)
  {
    if |xs| > 0 {
      assert (xs + ys)[1..] == xs[1..] + ys;
      FilterAppend(xs[1..], ys, p);
    } else {
      assert xs + ys == ys;
    }
  }

  /** `Select` with a constructor that may throw: the first failure, or all
      results in order. */
  function MapAll<T>(xs: seq<T>, f: T --> Result<Suggestion, Failure>): (r: Result<seq<Suggestion>, Failure>)
    requires forall x :: x in xs ==> f.requires(x)
    ensures r.Failure? <==> exists i :: 0 <= i < |xs| && f(xs[i]).Failure?
    ensures r.Failure? ==> exists i :: 0 <= i < |xs| && f(xs[i]) == Failure(r.error)
    ensures r.Success? ==> |r.value| == |xs| && forall i :: 0 <= i < |xs| ==> f(xs[i]) == Success(r.value[i])
  {
    if |xs| == 0 then Success([])
    else
      var head :- f(xs[0]);
      var rest :- MapAll(xs[1..], f);
      assert forall i :: 1 <= i < |xs| ==> xs[i] == xs[1..][i - 1];
      Success([head] + rest)
  }

  /** `x.Name.CompareTo(y.Name) <= 0` orders every pair and is transitive. */
  ghost predicate TotalPreorder(le: (string, string) -> bool) {
    && (forall a, b :: le(a, b) || le(b, a))
    && (forall a, b, c :: le(a, b) && le(b, c) ==> le(a, c))
  }

  predicate SortedByName(xs: seq<AttributeDecl>, le: (string, string) -> bool) {
    forall i, j :: 0 <= i < j < |xs| ==> le(xs[i].name, xs[j].name)
  }

  /** One step of the insertion sort standing for `List.Sort`: `x` goes
      before the first use it does not follow. */
  function Insert(x: AttributeDecl, xs: seq<AttributeDecl>, le: (string, string) -> bool): (r: seq<AttributeDecl>)
    ensures multiset(r) == multiset(xs) + multiset{x}
    ensures |r| == |xs| + 1
  {
    if |xs| == 0 then [x]
    else if le(x.name, xs[0].name) then [x] + xs
    else
      assert xs == [xs[0]] + xs[1..];
      [xs[0]] + Insert(x, xs[1..], le)
  }

  /** `List.Sort` by name: a permutation of the attribute uses. */
  function SortByName(xs: seq<AttributeDecl>, le: (string, string) -> bool): (r: seq<AttributeDecl>)
    ensures multiset(r) == multiset(xs)
    ensures |r| == |xs|
  {
    if |xs| == 0 then []
    else
      assert xs == [xs[0]] + xs[1..];
      Insert(xs[0], SortByName(xs[1..], le), le)
  }

  lemma {:induction false} InsertSorted(x: AttributeDecl, xs: seq<AttributeDecl>, le: (string, string) -> bool)
    requires TotalPreorder(le) && SortedByName(xs, le)
    ensures SortedByName(Insert(x, xs, le), le)
  {
    if |xs| == 0 {
    } else if le(x.name, xs[0].name) {
      var res := [x] + xs;
      forall i, j | 0 <= i < j < |res| ensures le(res[i].name, res[j].name) {
        if i == 0 && j > 1 {
          assert le(xs[0].name, xs[j - 1].name);
        }
      }
    } else {
      var rest := xs[1..];
      assert SortedByName(rest, le) by {
        forall i, j | 0 <= i < j < |rest| ensures le(rest[i].name, rest[j].name) {
          assert rest[i] == xs[i + 1] && rest[j] == xs[j + 1];
        }
      }
      InsertSorted(x, rest, le);
      var r := Insert(x, rest, le);
      var res := [xs[0]] + r;
      assert le(xs[0].name, x.name);
      forall i, j | 0 <= i < j < |res| ensures le(res[i].name, res[j].name) {
        if i == 0 {
          var y := r[j - 1];
          assert y in multiset(r);
          if y != x {
            assert y in multiset(rest);
            var k :| 0 <= k < |rest| && rest[k] == y;
            assert xs[k + 1] == y;
          }
        } else {
          assert res[i] == r[i - 1] && res[j] == r[j - 1];
        }
      }
    }
  }

  /** The sorted attribute uses are ordered by name under any total preorder. */
  lemma {:induction false} SortByNameSorted(xs: seq<AttributeDecl>, le: (string, string) -> bool)
    requires TotalPreorder(le)
    ensures SortedByName(SortByName(xs, le), le)
  {
    if |xs| > 0 {
      SortByNameSorted(xs[1..], le);
      InsertSorted(xs[0], SortByName(xs[1..], le), le);
    }
  }

  /** The open elements as the callbacks receive them, innermost first. */
  function Ancestors(stack: seq<ElementState>): (r: seq<Ancestor>)
    ensures |r| == |stack|
    ensures forall i :: 0 <= i < |stack| ==>
              r[i] == Ancestor(stack[|stack| - 1 - i].decl.typeId, stack[|stack| - 1 - i].decl.name)
  {
    if |stack| == 0 then []
    else [Ancestor(Top(stack).decl.typeId, Top(stack).decl.name)] + Ancestors(Pop(stack))
  }

  // ---------------------------------------------------------------------------
  // Element names (the start-tag branch of `GetSuggestions`)

  lemma OfferedDeclared(s: Schema, p: Particle)
    requires ParticleOk(s, p)
    ensures forall d :: d in Offered(p) ==> DeclOk(s, d)
  {
    match p
    case ElementParticle(e) =>
    case ChoiceParticle(c) =>
      assert ChoiceOk(s, c);
      var ds := LeadingElements(c.items);
      forall d | d in ds ensures DeclOk(s, d) {
        var j :| 0 <= j < |ds| && ds[j] == d;
        assert c.items[j] == Alternative(d);
      }
    case OtherParticle(_, _) =>
  }

  lemma CandidatesDeclared(s: Schema, items: seq<Particle>, counts: map<nat, nat>, typed: string, i: nat)
    requires ParticlesOk(s, items) && i <= |items|
    ensures forall d :: d in Candidates(items, counts, typed, i) ==> d.typeId in s.types
  {
    forall d | d in Candidates(items, counts, typed, i) ensures d.typeId in s.types {
      var j :| i <= j < ScanStop(items, counts, i) && d in Offered(items[j]);
      OfferedDeclared(s, items[j]);
    }
  }

  lemma LeadingDeclared(s: Schema, c: ChoiceGroup, typed: string)
    requires ChoiceOk(s, c)
    ensures forall d :: d in FilterByPrefix(LeadingElements(c.items), typed) ==> d.typeId in s.types
  {
    OfferedDeclared(s, ChoiceParticle(c));
  }

  /** The child elements an open element offers for the typed prefix, and
      whether its end tag may be offered. A sequence offers what `Candidates`
      finds from its next particle and can close when nothing was typed and
      every remaining particle has reached its `minOccurs`; a choice offers its
      leading element alternatives and can close once it has repeated
      `minOccurs` times, typed name or not; anything else offers nothing and can
      close when nothing was typed. */
  datatype Offer = Offer(children: seq<ElementDecl>, canClose: bool)

  function ChildOffer(s: Schema, st: ElementState, typed: string): (r: Offer)
    requires WellFormed(s) && StateOk(s, st)
    ensures forall d :: d in r.children ==> d.typeId in s.types && StartsWith(d.name, typed)
    ensures var t := s.types[st.decl.typeId];
            r.canClose <==>
              if t.ComplexType? && t.content.ChoiceContent? then st.repeat >= t.content.choice.minOccurs
              else if t.ComplexType? && t.content.SequenceContent? then
                typed == "" && forall j :: st.next <= j < |t.content.items| ==>
                                 Count(st.counts, j) >= t.content.items[j].MinOccurs()
              else typed == ""
    ensures !s.types[st.decl.typeId].ComplexType? ==> r.children == []
    ensures var t := s.types[st.decl.typeId];
            t.ComplexType? && t.content.SequenceContent? ==>
              var items := t.content.items;
              r.children == FilterByPrefix(OfferedRange(items, st.next, ScanStop(items, st.counts, st.next)), typed)
    ensures var t := s.types[st.decl.typeId];
            t.ComplexType? && t.content.ChoiceContent? ==>
              r.children == FilterByPrefix(LeadingElements(t.content.choice.items), typed)
    ensures var t := s.types[st.decl.typeId];
            t.ComplexType? && t.content.OtherContent? ==> r.children == []
  {
    var t := s.types[st.decl.typeId];
    assert TypeOk(s, t);
    if !t.ComplexType? then Offer([], typed == "")
    else
      match t.content
      case SequenceContent(items, _) =>
        CandidatesDeclared(s, items, st.counts, typed, st.next);
        CandidatesInOrder(items, st.counts, typed, st.next);
        Offer(Candidates(items, st.counts, typed, st.next),
              typed == "" && forall j :: st.next <= j < |items| ==> Count(st.counts, j) >= items[j].MinOccurs())
      case ChoiceContent(c) =>
        LeadingDeclared(s, c, typed);
        Offer(FilterByPrefix(LeadingElements(c.items), typed), st.repeat >= c.minOccurs)
      case OtherContent => Offer([], typed == "")
  }

  /** Below the root: the offered children as element suggestions, then the
      innermost element's end tag (with its slash) when it can close. */
  function ChildSuggestions(s: Schema, st: ElementState, typed: string): (r: Result<seq<Suggestion>, Failure>)
    requires WellFormed(s) && StateOk(s, st)
    ensures r.Success? ==>
              var o := ChildOffer(s, st, typed);
              && |r.value| == |o.children| + (if o.canClose then 1 else 0)
              && (forall i :: 0 <= i < |o.children| ==>
                    r.value[i].ElementSuggestion? && r.value[i].name == o.children[i].name)
              && (o.canClose ==>
                    r.value[|r.value| - 1] == EndElementSuggestion(r.value[|r.value| - 1].doc, st.decl.name, true))
    ensures r.Failure? ==> r.error == AmbiguousDocumentation
    ensures var o := ChildOffer(s, st, typed);
            r.Failure? <==>
              (exists i :: 0 <= i < |o.children| && ElementSuggestionOf(s, o.children[i]).Failure?)
              || (o.canClose && EndElementSuggestionOf(s, st.decl).Failure?)
    ensures r.Success? ==>
              var o := ChildOffer(s, st, typed);
              && (forall i :: 0 <= i < |o.children| ==> ElementSuggestionOf(s, o.children[i]) == Success(r.value[i]))
              && (o.canClose ==>
                    EndElementSuggestionOf(s, st.decl).Success?
                    && r.value[|r.value| - 1] == EndElementSuggestionOf(s, st.decl).value.(includeSlash := true))
  {
    var o := ChildOffer(s, st, typed);
    var elements :- ElementSuggestions(s, o.children);
    if o.canClose then
      var e :- EndElementSuggestionOf(s, st.decl);
      Success(elements + [e.(includeSlash := true)])
    else Success(elements)
  }

  /** At the root: the global elements whose names start with the typed
      prefix, in schema order; every such global is offered. */
  function RootSuggestions(s: Schema, typed: string): (r: Result<seq<Suggestion>, Failure>)
    requires WellFormed(s)
    ensures r.Failure? ==> r.error == AmbiguousDocumentation
    ensures r.Success? ==>
              |r.value| == |FilterByPrefix(s.globals, typed)|
              && forall i :: 0 <= i < |r.value| ==>
                   r.value[i].ElementSuggestion? && r.value[i].name == FilterByPrefix(s.globals, typed)[i].name
    ensures r.Success? ==>
              forall d :: d in s.globals && StartsWith(d.name, typed) ==>
                exists i :: 0 <= i < |r.value| && r.value[i].name == d.name
    ensures var globals := FilterByPrefix(s.globals, typed);
            && (r.Failure? <==> exists i :: 0 <= i < |globals| && ElementSuggestionOf(s, globals[i]).Failure?)
            && (r.Success? ==> forall i :: 0 <= i < |globals| ==> ElementSuggestionOf(s, globals[i]) == Success(r.value[i]))
  {
    var globals := FilterByPrefix(s.globals, typed);
    var r := ElementSuggestions(s, globals);
    if r.Success? then NamesCovered(globals, r.value); r else r
  }

  /** One element suggestion per declaration, in order;
      the first whose documentation is ambiguous fails the whole list. */
  function ElementSuggestions(s: Schema, xs: seq<ElementDecl>): (r: Result<seq<Suggestion>, Failure>)
    requires forall d :: d in xs ==> d.typeId in s.types
    ensures r.Failure? <==> exists i :: 0 <= i < |xs| && ElementSuggestionOf(s, xs[i]).Failure?
    ensures r.Failure? ==> r.error == AmbiguousDocumentation
    ensures r.Success? ==>
              |r.value| == |xs|
              && forall i :: 0 <= i < |xs| ==>
                   && ElementSuggestionOf(s, xs[i]) == Success(r.value[i])
                   && r.value[i].ElementSuggestion? && r.value[i].name == xs[i].name
  {
    var build := (d: ElementDecl) requires d.typeId in s.types => ElementSuggestionOf(s, d);
    assert forall i :: 0 <= i < |xs| ==> build(xs[i]) == ElementSuggestionOf(s, xs[i]);
    var m := MapAll(xs, build);
    assert m.Failure? ==> exists i :: 0 <= i < |xs| && ElementSuggestionOf(s, xs[i]).Failure? by {
      if m.Failure? {
        var i :| 0 <= i < |xs| && build(xs[i]).Failure?;
        assert ElementSuggestionOf(s, xs[i]).Failure?;
      }
    }
    m
  }

  /** A list of suggestions that names the elements one for one names each of them. */
  lemma NamesCovered(ds: seq<ElementDecl>, r: seq<Suggestion>)
    requires |r| == |ds| && forall i :: 0 <= i < |ds| ==> r[i].ElementSuggestion? && r[i].name == ds[i].name
    ensures forall d :: d in ds ==> exists i :: 0 <= i < |r| && r[i].name == d.name
  {
    forall d | d in ds ensures exists i :: 0 <= i < |r| && r[i].name == d.name {
      var i :| 0 <= i < |ds| && ds[i] == d;
      assert r[i].name == d.name;
    }
  }

  /** In the start-tag state: the root element offers the global
      elements with the typed prefix; below it the innermost open element offers
      its children; with nothing open there is nothing to offer. */
  function StartTagSuggestions(s: Schema, rep: Replay, isRoot: bool, typed: string): (r: Result<seq<Suggestion>, Failure>)
    requires WellFormed(s) && StackOk(s, rep.stack)
    ensures r.Failure? ==> r.error == AmbiguousDocumentation
    ensures r.Success? ==> forall sg :: sg in r.value && sg.ElementSuggestion? ==> StartsWith(sg.name, typed)
    ensures isRoot ==> r == RootSuggestions(s, typed)
    ensures r.Success? && !isRoot && |rep.stack| > 0 ==>
              forall sg :: sg in r.value ==>
                sg.ElementSuggestion? || (sg.EndElementSuggestion? && sg.includeSlash && sg.name == Top(rep.stack).decl.name)
    ensures !isRoot && |rep.stack| == 0 ==> r == Success([])
    ensures !isRoot && |rep.stack| > 0 ==> StateOk(s, Top(rep.stack)) && r == ChildSuggestions(s, Top(rep.stack), typed)
  {
    if isRoot then RootSuggestions(s, typed)
    else if |rep.stack| == 0 then Success([])
    else
      assert StateOk(s, Top(rep.stack));
      ChildSuggestions(s, Top(rep.stack), typed)
  }

  // ---------------------------------------------------------------------------
  // Attribute names (the attribute-name branch of `GetSuggestions`)

  const XmlnsXsi := AttributeSuggestion(
    Doc(Some("XML Schema Instance"), Some("Includes the XML Schema Instance namespace"), None), "xmlns:xsi")
  const XsiNil := AttributeSuggestion(
    Doc(Some("Nil"), Some("Indicates that this element has no value"), None), "xsi:nil")
  const XsiType := AttributeSuggestion(
    Doc(Some("Type"), Some("Indicates the derived type to use for this element"), None), "xsi:type")

  /** The position of a synthesized attribute in the fixed order. */
  function SpecialRank(sg: Suggestion): nat {
    if sg == XmlnsXsi then 0 else if sg == XsiNil then 1 else 2
  }

  /** The attribute uses of an element's type: none unless it is complex. */
  function Uses(s: Schema, st: ElementState): (r: seq<AttributeDecl>)
    requires DeclOk(s, st.decl)
    ensures s.types[st.decl.typeId].ComplexType? ==> r == s.types[st.decl.typeId].attributeUses
    ensures !s.types[st.decl.typeId].ComplexType? ==> r == []
  {
    var t := s.types[st.decl.typeId];
    if t.ComplexType? then t.attributeUses else []
  }

  /** The declared attribute uses of the innermost element's type as
      suggestions, sorted by name. */
  function DeclaredAttributes(cfg: Config, st: ElementState): (r: Result<seq<Suggestion>, Failure>)
    requires DeclOk(cfg.schema, st.decl)
    ensures r.Failure? ==> r.error == AmbiguousDocumentation
    ensures r.Success? ==>
              var sorted := SortByName(Uses(cfg.schema, st), cfg.order);
              |r.value| == |sorted|
              && forall i :: 0 <= i < |sorted| ==> r.value[i].AttributeSuggestion? && r.value[i].name == sorted[i].name
    ensures var sorted := SortByName(Uses(cfg.schema, st), cfg.order);
            && (r.Failure? <==> exists i :: 0 <= i < |sorted| && AttributeSuggestionOf(cfg.schema, sorted[i]).Failure?)
            && (r.Success? ==>
                  forall i :: 0 <= i < |sorted| ==> AttributeSuggestionOf(cfg.schema, sorted[i]) == Success(r.value[i]))
  {
    AttributeSuggestions(cfg.schema, SortByName(Uses(cfg.schema, st), cfg.order))
  }

  /** One attribute suggestion per declaration, in order;
      the first whose documentation is ambiguous fails the whole list. */
  function AttributeSuggestions(s: Schema, xs: seq<AttributeDecl>): (r: Result<seq<Suggestion>, Failure>)
    ensures r.Failure? <==> exists i :: 0 <= i < |xs| && AttributeSuggestionOf(s, xs[i]).Failure?
    ensures r.Failure? ==> r.error == AmbiguousDocumentation
    ensures r.Success? ==>
              |r.value| == |xs|
              && forall i :: 0 <= i < |xs| ==>
                   && AttributeSuggestionOf(s, xs[i]) == Success(r.value[i])
                   && r.value[i].AttributeSuggestion? && r.value[i].name == xs[i].name
  {
    var build := (a: AttributeDecl) => AttributeSuggestionOf(s, a);
    assert forall i :: 0 <= i < |xs| ==> build(xs[i]) == AttributeSuggestionOf(s, xs[i]);
    var m := MapAll(xs, build);
    assert m.Failure? ==> exists i :: 0 <= i < |xs| && AttributeSuggestionOf(s, xs[i]).Failure? by {
      if m.Failure? {
        var i :| 0 <= i < |xs| && build(xs[i]).Failure?;
        assert AttributeSuggestionOf(s, xs[i]).Failure?;
      }
    }
    m
  }

  /** Every declared attribute use is offered. */
  lemma DeclaredAttributesComplete(cfg: Config, st: ElementState, a: AttributeDecl)
    requires DeclOk(cfg.schema, st.decl) && DeclaredAttributes(cfg, st).Success?
    requires a in Uses(cfg.schema, st)
    ensures exists sg :: sg in DeclaredAttributes(cfg, st).value && sg == AttributeSuggestion(sg.doc, a.name)
  {
    var sorted := SortByName(Uses(cfg.schema, st), cfg.order);
    assert a in multiset(sorted);
    var i :| 0 <= i < |sorted| && sorted[i] == a;
    var sg := DeclaredAttributes(cfg, st).value[i];
    assert sg == AttributeSuggestion(sg.doc, a.name);
  }

  /** Under a total preorder the declared attributes come sorted by name. */
  lemma DeclaredAttributesSorted(cfg: Config, st: ElementState)
    requires DeclOk(cfg.schema, st.decl) && DeclaredAttributes(cfg, st).Success?
    requires TotalPreorder(cfg.order)
    ensures var r := DeclaredAttributes(cfg, st).value;
            forall i, j :: 0 <= i < j < |r| ==> cfg.order(r[i].name, r[j].name)
  {
    SortByNameSorted(Uses(cfg.schema, st), cfg.order);
  }

  /** The synthesized attributes: `xmlns:xsi` on the root when `UsesXsi` is set
      and the schema has complex types, `xsi:nil` for a nillable element,
      `xsi:type` when a global complex type derives from the element's type; in
      that order. The element-dependent two need an open element. */
  function Specials(cfg: Config, st: Option<ElementState>, isRoot: bool): (r: seq<Suggestion>)
    requires WellFormed(cfg.schema) && (st.Some? ==> StateOk(cfg.schema, st.value))
    ensures XmlnsXsi in r <==> cfg.usesXsi && isRoot && AnyComplexType(cfg.schema)
    ensures XsiNil in r <==> st.Some? && st.value.decl.nillable
    ensures XsiType in r <==> st.Some? && |DerivedTypes(cfg.schema, st.value.decl.typeId)| > 0
    ensures forall sg :: sg in r ==> sg in [XmlnsXsi, XsiNil, XsiType]
    ensures forall i, j :: 0 <= i < j < |r| ==> SpecialRank(r[i]) < SpecialRank(r[j])
  {
    var withType := if st.Some? && |DerivedTypes(cfg.schema, st.value.decl.typeId)| > 0 then [XsiType] else [];
    var withNil := if st.Some? && st.value.decl.nillable then [XsiNil] + withType else withType;
    if cfg.usesXsi && isRoot && AnyComplexType(cfg.schema) then [XmlnsXsi] + withNil else withNil
  }

  /** The attribute candidates before filtering, as the source computes them:
      with no open element the nillable test dereferences a missing element. */
  function AttributeCandidatesAsWritten(cfg: Config, stack: seq<ElementState>, isRoot: bool): (r: Result<seq<Suggestion>, Failure>)
    requires WellFormed(cfg.schema) && StackOk(cfg.schema, stack)
    ensures |stack| == 0 ==> r == Failure(NullReference)
    ensures |stack| > 0 ==> r == AttributeCandidates(cfg, stack, isRoot)
  {
    if |stack| == 0 then Failure(NullReference)
    else AttributeCandidates(cfg, stack, isRoot)
  }

  /** The attribute candidates before filtering: the synthesized attributes,
      then the declared ones sorted by name. With no open element only
      `xmlns:xsi` can be offered. */
  function AttributeCandidates(cfg: Config, stack: seq<ElementState>, isRoot: bool): (r: Result<seq<Suggestion>, Failure>)
    requires WellFormed(cfg.schema) && StackOk(cfg.schema, stack)
    ensures r.Failure? ==> r.error == AmbiguousDocumentation
    ensures r.Success? ==> forall sg :: sg in r.value ==> sg.AttributeSuggestion?
    ensures |stack| == 0 ==> r == Success(Specials(cfg, None, isRoot)) && |r.value| <= 1
    ensures r.Success? && |stack| > 0 ==>
              var specials := Specials(cfg, Some(Top(stack)), isRoot);
              && specials <= r.value
              && DeclaredAttributes(cfg, Top(stack)) == Success(r.value[|specials|..])
  {
    if |stack| == 0 then
      Success(Specials(cfg, None, isRoot))
    else
      var st := Top(stack);
      assert StateOk(cfg.schema, st);
      var declared :- DeclaredAttributes(cfg, st);
      var specials := Specials(cfg, Some(st), isRoot);
      assert (specials + declared)[|specials|..] == declared;
      Success(specials + declared)
  }

  /** The candidates the user can still add: named with the typed prefix and
      not already present on the element. */
  function AttributeNames(candidates: seq<Suggestion>, typed: string, present: seq<Attribute>): (r: seq<Suggestion>)
    ensures forall sg :: sg in r <==>
              sg in candidates && sg.AttributeSuggestion? && StartsWith(sg.name, typed) && !ContainsKey(present, sg.name)
  {
    Filter(candidates, (sg: Suggestion) => sg.AttributeSuggestion? && StartsWith(sg.name, typed) && !ContainsKey(present, sg.name))
  }

  /** The filter keeps the fixed order: the synthesized attributes still come
      before the declared ones. */
  lemma AttributeNamesInOrder(specials: seq<Suggestion>, declared: seq<Suggestion>, typed: string, present: seq<Attribute>)
    ensures AttributeNames(specials + declared, typed, present)
         == AttributeNames(specials, typed, present) + AttributeNames(declared, typed, present)
  {
    FilterAppend(specials, declared,
                 (sg: Suggestion) => sg.AttributeSuggestion? && StartsWith(sg.name, typed) && !ContainsKey(present, sg.name));
  }

  // ---------------------------------------------------------------------------
  // Attribute values (the attribute-value branch of `GetSuggestions`)

  const XsiNamespace := "http://www.w3.org/2001/XMLSchema-instance"

  function PlainValue(v: string): Suggestion {
    AttributeValueSuggestion(NoDoc, v, false, '\0')
  }

  /** The attribute use named `name` (`SingleOrDefault`; names are unique). */
  function FindAttribute(attrs: seq<AttributeDecl>, name: string): (r: Option<AttributeDecl>)
    ensures r.Some? ==> r.value in attrs && r.value.name == name
    ensures r.None? <==> forall a :: a in attrs ==> a.name != name
  {
    if |attrs| == 0 then None
    else if attrs[0].name == name then Some(attrs[0])
    else
      var r := FindAttribute(attrs[1..], name);
      assert forall a :: a in attrs <==> a == attrs[0] || a in attrs[1..];
      r
  }

  /** The enumeration facets of a restriction, in order. */
  function Enumerations(facets: seq<Facet>): (r: seq<Facet>)
    ensures forall f :: f in r <==> f in facets && f.EnumerationFacet?
    ensures (forall i :: 0 <= i < |facets| ==> facets[i].EnumerationFacet?) ==> r == facets
  {
    Filter(facets, (f: Facet) => f.EnumerationFacet?)
  }

  /** The values an attribute's own type offers: `false, true` for a boolean,
      the enumeration facets of a restriction, nothing otherwise. */
  function TypeOwnValues(s: Schema, a: AttributeDecl): (r: Result<seq<Suggestion>, Failure>)
    ensures r.Failure? ==> r.error == AmbiguousDocumentation
    ensures r.Success? ==> forall sg :: sg in r.value ==> sg.AttributeValueSuggestion?
    ensures a.attributeType.isBoolean ==> r == Success([PlainValue("false"), PlainValue("true")])
    ensures !a.attributeType.isBoolean && a.attributeType.restriction.None? ==> r == Success([])
    ensures r.Success? && !a.attributeType.isBoolean && a.attributeType.restriction.Some? ==>
              var enums := Enumerations(a.attributeType.restriction.value);
              |r.value| == |enums| && forall i :: 0 <= i < |enums| ==> r.value[i].value == enums[i].value
    ensures !a.attributeType.isBoolean && a.attributeType.restriction.Some? ==>
              var enums := Enumerations(a.attributeType.restriction.value);
              && (r.Failure? <==>
                    exists i :: 0 <= i < |enums| && AttributeValueOfFacet(s, enums[i].value, enums[i].annotation).Failure?)
              && (r.Success? ==>
                    forall i :: 0 <= i < |enums| ==>
                      AttributeValueOfFacet(s, enums[i].value, enums[i].annotation) == Success(r.value[i]))
  {
    if a.attributeType.isBoolean then Success([PlainValue("false"), PlainValue("true")])
    else
      match a.attributeType.restriction
      case Some(facets) =>
        FacetAttributeValues(s, Enumerations(facets))
      case None => Success([])
  }

  /** One attribute value per enumeration facet, in order;
      the first facet whose documentation is ambiguous fails the whole list. */
  function FacetAttributeValues(s: Schema, xs: seq<Facet>): (r: Result<seq<Suggestion>, Failure>)
    requires forall f :: f in xs ==> f.EnumerationFacet?
    ensures r.Failure? <==> exists i :: 0 <= i < |xs| && AttributeValueOfFacet(s, xs[i].value, xs[i].annotation).Failure?
    ensures r.Failure? ==> r.error == AmbiguousDocumentation
    ensures r.Success? ==>
              |r.value| == |xs|
              && forall i :: 0 <= i < |xs| ==>
                   && AttributeValueOfFacet(s, xs[i].value, xs[i].annotation) == Success(r.value[i])
                   && r.value[i].AttributeValueSuggestion? && r.value[i].value == xs[i].value
  {
    var build := (f: Facet) requires f.EnumerationFacet? => AttributeValueOfFacet(s, f.value, f.annotation);
    assert forall i :: 0 <= i < |xs| ==> build(xs[i]) == AttributeValueOfFacet(s, xs[i].value, xs[i].annotation);
    var m := MapAll(xs, build);
    assert m.Failure? ==> exists i :: 0 <= i < |xs| && AttributeValueOfFacet(s, xs[i].value, xs[i].annotation).Failure? by {
      if m.Failure? {
        var i :| 0 <= i < |xs| && build(xs[i]).Failure?;
        assert AttributeValueOfFacet(s, xs[i].value, xs[i].annotation).Failure?;
      }
    }
    m
  }

  /** The values the schema and the attribute-value handler offer for the
      attribute being typed on the innermost element, before the reserved names. */
  function DeclaredValues(cfg: Config, stack: seq<ElementState>, attribute: string): (r: Result<seq<Suggestion>, Failure>)
    requires WellFormed(cfg.schema) && StackOk(cfg.schema, stack)
    ensures r.Failure? ==> r.error == AmbiguousDocumentation
    ensures r.Success? ==> forall sg :: sg in r.value ==> sg.AttributeValueSuggestion?
    ensures (|stack| == 0 || !cfg.schema.types[Top(stack).decl.typeId].ComplexType?) ==> r == Success([])
    ensures |stack| > 0 && cfg.schema.types[Top(stack).decl.typeId].ComplexType?
              && FindAttribute(cfg.schema.types[Top(stack).decl.typeId].attributeUses, attribute).None? ==>
              r == Success([])
    ensures |stack| > 0 && cfg.schema.types[Top(stack).decl.typeId].ComplexType? ==>
              var a := FindAttribute(cfg.schema.types[Top(stack).decl.typeId].attributeUses, attribute);
              a.Some? ==>
                var own := TypeOwnValues(cfg.schema, a.value);
                && (own.Failure? ==> r == Failure(own.error))
                && (own.Success? ==> r == Success(own.value + HandlerValues(cfg, stack, a.value)))
  {
    if |stack| == 0 then Success([])
    else
      var st := Top(stack);
      assert StateOk(cfg.schema, st);
      var t := cfg.schema.types[st.decl.typeId];
      if !t.ComplexType? then Success([])
      else
        match FindAttribute(t.attributeUses, attribute)
        case None => Success([])
        case Some(a) =>
          var own :- TypeOwnValues(cfg.schema, a);
          Success(own + HandlerValues(cfg, stack, a))
  }

  /** What the attribute-value handler adds for the use `a` on the innermost
      element, as unquoted value suggestions; nothing without a handler. */
  function HandlerValues(cfg: Config, stack: seq<ElementState>, a: AttributeDecl): (r: seq<Suggestion>)
    requires |stack| > 0
    ensures cfg.attributeValueHook.None? ==> r == []
    ensures cfg.attributeValueHook.Some? ==>
              var added := cfg.attributeValueHook.value(Top(stack).shadow, Ancestors(stack), a);
              |r| == |added|
              && forall i :: 0 <= i < |added| ==> r[i] == AttributeValueSuggestion(added[i].doc, added[i].value, false, '\0')
  {
    match cfg.attributeValueHook
    case None => []
    case Some(hook) =>
      var added := hook(Top(stack).shadow, Ancestors(stack), a);
      seq(|added|, i requires 0 <= i < |added| => AttributeValueSuggestion(added[i].doc, added[i].value, false, '\0'))
  }

  /** The `xsi:type` values as the source computes them: with no open element,
      the comparison with its type dereferences a missing element as soon as
      the schema has a complex type. */
  function TypeValuesAsWritten(s: Schema, stack: seq<ElementState>): (r: Result<seq<Suggestion>, Failure>)
    requires WellFormed(s) && StackOk(s, stack)
    ensures |stack| == 0 && AnyComplexType(s) ==> r == Failure(NullReference)
    ensures |stack| > 0 || !AnyComplexType(s) ==> r == TypeValues(s, stack)
  {
    if |stack| == 0 then
      if AnyComplexType(s) then Failure(NullReference) else Success([])
    else TypeValues(s, stack)
  }

  /** The `xsi:type` values: the names of the global complex types derived from
      the innermost element's type; none without an open element. */
  function TypeValues(s: Schema, stack: seq<ElementState>): (r: Result<seq<Suggestion>, Failure>)
    requires WellFormed(s) && StackOk(s, stack)
    ensures r.Failure? ==> r.error == AmbiguousDocumentation
    ensures |stack| == 0 ==> r == Success([])
    ensures r.Success? && |stack| > 0 ==>
              var derived := DerivedTypes(s, Top(stack).decl.typeId);
              |r.value| == |derived|
              && forall i :: 0 <= i < |derived| ==>
                   r.value[i].AttributeValueSuggestion? && r.value[i].value == s.types[derived[i]].Name()
    ensures |stack| > 0 ==>
              var derived := DerivedTypes(s, Top(stack).decl.typeId);
              && (r.Failure? <==> exists i :: 0 <= i < |derived| && AttributeValueOfType(s, s.types[derived[i]]).Failure?)
              && (r.Success? ==>
                    forall i :: 0 <= i < |derived| ==> AttributeValueOfType(s, s.types[derived[i]]) == Success(r.value[i]))
  {
    if |stack| == 0 then Success([])
    else
      assert StateOk(s, Top(stack));
      var derived := DerivedTypes(s, Top(stack).decl.typeId);
      TypeNameValues(s, derived)
  }

  /** One attribute value per type, naming it, in order;
      the first type whose documentation is ambiguous fails the whole list. */
  function TypeNameValues(s: Schema, xs: seq<TypeId>): (r: Result<seq<Suggestion>, Failure>)
    requires forall id :: id in xs ==> id in s.types
    ensures r.Failure? <==> exists i :: 0 <= i < |xs| && AttributeValueOfType(s, s.types[xs[i]]).Failure?
    ensures r.Failure? ==> r.error == AmbiguousDocumentation
    ensures r.Success? ==>
              |r.value| == |xs|
              && forall i :: 0 <= i < |xs| ==>
                   && AttributeValueOfType(s, s.types[xs[i]]) == Success(r.value[i])
                   && r.value[i].AttributeValueSuggestion?
                   && r.value[i].value == s.types[xs[i]].Name()
  {
    var build := (id: TypeId) requires id in s.types => AttributeValueOfType(s, s.types[id]);
    assert forall i :: 0 <= i < |xs| ==> build(xs[i]) == AttributeValueOfType(s, s.types[xs[i]]);
    var m := MapAll(xs, build);
    assert m.Failure? ==> exists i :: 0 <= i < |xs| && AttributeValueOfType(s, s.types[xs[i]]).Failure? by {
      if m.Failure? {
        var i :| 0 <= i < |xs| && build(xs[i]).Failure?;
        assert AttributeValueOfType(s, s.types[xs[i]]).Failure?;
      }
    }
    m
  }

  /** The values reserved attribute names always offer. */
  function ReservedValues(s: Schema, stack: seq<ElementState>, attribute: string): (r: Result<seq<Suggestion>, Failure>)
    requires WellFormed(s) && StackOk(s, stack)
    ensures r.Failure? ==> r.error == AmbiguousDocumentation
    ensures r.Success? ==> forall sg :: sg in r.value ==> sg.AttributeValueSuggestion?
    ensures attribute == "xmlns:xsi" ==> r == Success([PlainValue(XsiNamespace)])
    ensures attribute == "xsi:nil" ==> r == Success([PlainValue("true"), PlainValue("false")])
    ensures attribute == "xsi:type" ==> r == TypeValues(s, stack)
    ensures attribute !in {"xmlns:xsi", "xsi:type", "xsi:nil"} ==> r == Success([])
  {
    if attribute == "xmlns:xsi" then Success([PlainValue(XsiNamespace)])
    else if attribute == "xsi:type" then TypeValues(s, stack)
    else if attribute == "xsi:nil" then Success([PlainValue("true"), PlainValue("false")])
    else Success([])
  }

  /** Sets how a value is inserted: quoted with `"` when no quote has been
      typed yet, otherwise reusing the quote already typed. */
  function Quoted(sg: Suggestion, includeQuotes: bool, quote: char): Suggestion {
    if sg.AttributeValueSuggestion? then sg.(includeQuotes := includeQuotes, quoteChar := quote) else sg
  }

  function QuoteAll(xs: seq<Suggestion>, includeQuotes: bool, quote: char): (r: seq<Suggestion>)
    ensures |r| == |xs| && forall i :: 0 <= i < |xs| ==> r[i] == Quoted(xs[i], includeQuotes, quote)
    ensures forall sg :: sg in r && sg.AttributeValueSuggestion? ==> sg.includeQuotes == includeQuotes && sg.quoteChar == quote
  {
    if |xs| == 0 then []
    else [Quoted(xs[0], includeQuotes, quote)] + QuoteAll(xs[1..], includeQuotes, quote)
  }

  /** The candidate values, quoted, filtered by the typed value;
      `quote` is the quote already typed, if any. */
  function AttributeValues(cfg: Config, stack: seq<ElementState>, attribute: string, typed: Option<string>, quote: Option<char>): (r: Result<seq<Suggestion>, Failure>)
    requires WellFormed(cfg.schema) && StackOk(cfg.schema, stack)
    ensures r.Failure? ==> r.error == AmbiguousDocumentation
    ensures r.Success? ==> forall sg :: sg in r.value ==>
              && sg.AttributeValueSuggestion?
              && StartsWith(sg.value, typed.GetOr(""))
              && (sg.includeQuotes <==> quote.None?)
              && sg.quoteChar == quote.GetOr('"')
    ensures var declared := DeclaredValues(cfg, stack, attribute);
            var reserved := ReservedValues(cfg.schema, stack, attribute);
            && (r.Failure? <==> declared.Failure? || reserved.Failure?)
            && (declared.Failure? ==> r == Failure(declared.error))
            && (declared.Success? && reserved.Failure? ==> r == Failure(reserved.error))
            && (r.Success? ==>
                  forall sg :: sg in r.value ==> sg in QuoteAll(declared.value + reserved.value, quote.None?, quote.GetOr('"')))
            && (declared.Success? && reserved.Success? ==>
                  r == Success(Filter(QuoteAll(declared.value + reserved.value, quote.None?, quote.GetOr('"')),
                                      ValuePrefixed(typed.GetOr("")))))
  {
    var declared :- DeclaredValues(cfg, stack, attribute);
    var reserved :- ReservedValues(cfg.schema, stack, attribute);
    var quoted := QuoteAll(declared + reserved, quote.None?, quote.GetOr('"'));
    Success(Filter(quoted, ValuePrefixed(typed.GetOr(""))))
  }

  /** The test `StartsWith` applies to each candidate value. */
  function ValuePrefixed(typed: string): (p: Suggestion -> bool)
    ensures forall sg :: p(sg) <==> sg.AttributeValueSuggestion? && StartsWith(sg.value, typed)
  {
    (sg: Suggestion) => sg.AttributeValueSuggestion? && StartsWith(sg.value, typed)
  }

  /** Quoting keeps the order of a concatenation. */
  lemma QuoteAllAppend(xs: seq<Suggestion>, ys: seq<Suggestion>, includeQuotes: bool, quote: char)
    ensures QuoteAll(xs + ys, includeQuotes, quote) == QuoteAll(xs, includeQuotes, quote) + QuoteAll(ys, includeQuotes, quote)
  {
    var l, a, b := QuoteAll(xs + ys, includeQuotes, quote), QuoteAll(xs, includeQuotes, quote), QuoteAll(ys, includeQuotes, quote);
    assert forall i :: 0 <= i < |xs| ==> (xs + ys)[i] == xs[i];
    assert forall i :: |xs| <= i < |xs| + |ys| ==> (xs + ys)[i] == ys[i - |xs|];
    assert forall i :: 0 <= i < |l| ==> l[i] == (a + b)[i];
  }

  /** The declared values that match come first, then the reserved ones, each in
      its own order. */
  lemma AttributeValuesInOrder(cfg: Config, stack: seq<ElementState>, attribute: string, typed: Option<string>, quote: Option<char>)
    requires WellFormed(cfg.schema) && StackOk(cfg.schema, stack)
    requires DeclaredValues(cfg, stack, attribute).Success? && ReservedValues(cfg.schema, stack, attribute).Success?
    ensures var p := ValuePrefixed(typed.GetOr(""));
            AttributeValues(cfg, stack, attribute, typed, quote)
              == Success(Filter(QuoteAll(DeclaredValues(cfg, stack, attribute).value, quote.None?, quote.GetOr('"')), p)
                         + Filter(QuoteAll(ReservedValues(cfg.schema, stack, attribute).value, quote.None?, quote.GetOr('"')), p))
  {
    var declared := DeclaredValues(cfg, stack, attribute).value;
    var reserved := ReservedValues(cfg.schema, stack, attribute).value;
    QuoteAllAppend(declared, reserved, quote.None?, quote.GetOr('"'));
    FilterAppend(QuoteAll(declared, quote.None?, quote.GetOr('"')), QuoteAll(reserved, quote.None?, quote.GetOr('"')),
                 ValuePrefixed(typed.GetOr("")));
  }

  /** Every candidate value with the typed prefix is offered, with its quoting set. */
  lemma AttributeValuesComplete(cfg: Config, stack: seq<ElementState>, attribute: string, typed: Option<string>, quote: Option<char>, sg: Suggestion)
    requires WellFormed(cfg.schema) && StackOk(cfg.schema, stack)
    requires AttributeValues(cfg, stack, attribute, typed, quote).Success?
    requires sg in DeclaredValues(cfg, stack, attribute).value + ReservedValues(cfg.schema, stack, attribute).value
    requires StartsWith(sg.value, typed.GetOr(""))
    ensures Quoted(sg, quote.None?, quote.GetOr('"')) in AttributeValues(cfg, stack, attribute, typed, quote).value
  {
    var all := DeclaredValues(cfg, stack, attribute).value + ReservedValues(cfg.schema, stack, attribute).value;
    var i :| 0 <= i < |all| && all[i] == sg;
    var quoted := QuoteAll(all, quote.None?, quote.GetOr('"'));
    assert quoted[i] == Quoted(sg, quote.None?, quote.GetOr('"'));
  }

  // ---------------------------------------------------------------------------
  // Text content (`CompleteTextNode`)

  /** The boolean values `false, true` that start with `key`, in that order. */
  function BooleanValues(key: string): (r: seq<Suggestion>)
    ensures forall sg :: sg in r ==> sg.ValueSuggestion? && sg.doc == NoDoc
    ensures forall v :: ValueSuggestion(NoDoc, v) in r <==> (v == "false" || v == "true") && StartsWith(v, key)
  {
    (if StartsWith("false", key) then [ValueSuggestion(NoDoc, "false")] else [])
    + (if StartsWith("true", key) then [ValueSuggestion(NoDoc, "true")] else [])
  }

  /** The enumeration facets whose values start with `key`, in order. */
  function PrefixedFacets(facets: seq<Facet>, key: string): (r: seq<Facet>)
    ensures forall f :: f in r <==> f in facets && f.EnumerationFacet? && StartsWith(f.value, key)
  {
    if |facets| == 0 then []
    else
      var rest := PrefixedFacets(facets[1..], key);
      assert forall f :: f in facets <==> f == facets[0] || f in facets[1..];
      if facets[0].EnumerationFacet? && StartsWith(facets[0].value, key) then [facets[0]] + rest else rest
  }

  /** Choosing the facets keeps the order of a concatenation. */
  lemma {:induction false} PrefixedFacetsAppend(xs: seq<Facet>, ys: seq<Facet>, key: string)
    ensures PrefixedFacets(xs + ys, key) == PrefixedFacets(xs, key) + PrefixedFacets(ys, key)
  {
    if |xs| > 0 {
      assert (xs + ys)[1..] == xs[1..] + ys;
      PrefixedFacetsAppend(xs[1..], ys, key);
    } else {
      assert xs + ys == ys;
    }
  }

  /** The enumeration facets whose values start with `key`, as value
      suggestions: one for each such facet, in the facets' order. */
  function FacetValues(s: Schema, facets: seq<Facet>, key: string): (r: Result<seq<Suggestion>, Failure>)
    ensures r.Failure? ==> r.error == AmbiguousDocumentation
    ensures r.Success? ==>
              var chosen := PrefixedFacets(facets, key);
              |r.value| == |chosen|
              && forall i :: 0 <= i < |chosen| ==> r.value[i].ValueSuggestion? && r.value[i].value == chosen[i].value
    ensures r.Success? ==> forall f :: f in facets && f.EnumerationFacet? && StartsWith(f.value, key) ==>
              exists i :: 0 <= i < |r.value| && r.value[i].value == f.value
    ensures var chosen := PrefixedFacets(facets, key);
            && (r.Failure? <==>
                  exists i :: 0 <= i < |chosen| && ValueOfFacet(s, chosen[i].value, chosen[i].annotation).Failure?)
            && (r.Success? ==>
                  forall i :: 0 <= i < |chosen| ==> ValueOfFacet(s, chosen[i].value, chosen[i].annotation) == Success(r.value[i]))
  {
    var chosen := PrefixedFacets(facets, key);
    var r := FacetSuggestions(s, chosen);
    if r.Success? then ValuesCovered(chosen, r.value); r else r
  }

  /** One value suggestion per enumeration facet, in order;
      the first facet whose documentation is ambiguous fails the whole list. */
  function FacetSuggestions(s: Schema, xs: seq<Facet>): (r: Result<seq<Suggestion>, Failure>)
    requires forall f :: f in xs ==> f.EnumerationFacet?
    ensures r.Failure? <==> exists i :: 0 <= i < |xs| && ValueOfFacet(s, xs[i].value, xs[i].annotation).Failure?
    ensures r.Failure? ==> r.error == AmbiguousDocumentation
    ensures r.Success? ==>
              |r.value| == |xs|
              && forall i :: 0 <= i < |xs| ==>
                   && ValueOfFacet(s, xs[i].value, xs[i].annotation) == Success(r.value[i])
                   && r.value[i].ValueSuggestion? && r.value[i].value == xs[i].value
  {
    var build := (f: Facet) requires f.EnumerationFacet? => ValueOfFacet(s, f.value, f.annotation);
    assert forall i :: 0 <= i < |xs| ==> build(xs[i]) == ValueOfFacet(s, xs[i].value, xs[i].annotation);
    var m := MapAll(xs, build);
    assert m.Failure? ==> exists i :: 0 <= i < |xs| && ValueOfFacet(s, xs[i].value, xs[i].annotation).Failure? by {
      if m.Failure? {
        var i :| 0 <= i < |xs| && build(xs[i]).Failure?;
        assert ValueOfFacet(s, xs[i].value, xs[i].annotation).Failure?;
      }
    }
    m
  }

  lemma ValuesCovered(fs: seq<Facet>, r: seq<Suggestion>)
    requires forall f :: f in fs ==> f.EnumerationFacet?
    requires |r| == |fs| && forall i :: 0 <= i < |fs| ==> r[i].ValueSuggestion? && r[i].value == fs[i].value
    ensures forall f :: f in fs ==> exists i :: 0 <= i < |r| && r[i].value == f.value
  {
    forall f | f in fs ensures exists i :: 0 <= i < |r| && r[i].value == f.value {
      var i :| 0 <= i < |fs| && fs[i] == f;
      assert r[i].value == f.value;
    }
  }

  /** What the value handler adds, as value suggestions. */
  function HookValues(added: seq<Candidate>): (r: seq<Suggestion>)
    ensures |r| == |added|
    ensures forall i :: 0 <= i < |added| ==> r[i] == ValueSuggestion(added[i].doc, added[i].value)
  {
    seq(|added|, i requires 0 <= i < |added| => ValueSuggestion(added[i].doc, added[i].value))
  }

  /** Whether the innermost element has a simple type satisfying `p`. */
  predicate TopSimple(s: Schema, stack: seq<ElementState>, p: SimpleType -> bool)
    requires StackOk(s, stack)
  {
    |stack| > 0 && s.types[Top(stack).decl.typeId].SimpleTypeDef? && p(s.types[Top(stack).decl.typeId].simple)
  }

  /** `CompleteTextNode`: for a simple-typed element, `false, true` when it is
      boolean, or the enumeration facets when it has a non-empty restriction,
      filtered by the trimmed typed text; otherwise whatever the value handler
      adds, unfiltered; nothing with no open element. */
  function CompleteText(cfg: Config, stack: seq<ElementState>, typed: string): (r: Result<seq<Suggestion>, Failure>)
    requires WellFormed(cfg.schema) && StackOk(cfg.schema, stack)
    ensures r.Failure? ==> r.error == AmbiguousDocumentation
    ensures r.Success? ==> forall sg :: sg in r.value ==> sg.ValueSuggestion?
    ensures |stack| == 0 ==> r == Success([])
    ensures TopSimple(cfg.schema, stack, (t: SimpleType) => t.isBoolean) ==>
              r.Success? && forall v :: ValueSuggestion(NoDoc, v) in r.value <==>
                              (v == "false" || v == "true") && StartsWith(v, Trim(typed))
    ensures r.Success? && TopSimple(cfg.schema, stack, (t: SimpleType) =>
                                      !t.isBoolean && t.restriction.Some? && |t.restriction.value| > 0) ==>
              forall sg :: sg in r.value ==>
                StartsWith(sg.value, Trim(typed))
                && exists f :: f in cfg.schema.types[Top(stack).decl.typeId].simple.restriction.value
                                && f.EnumerationFacet? && f.value == sg.value
    ensures TopSimple(cfg.schema, stack, (t: SimpleType) =>
                      !t.isBoolean && t.restriction.Some? && |t.restriction.value| > 0) ==>
              r == FacetValues(cfg.schema, cfg.schema.types[Top(stack).decl.typeId].simple.restriction.value, Trim(typed))
    ensures |stack| > 0 && cfg.schema.types[Top(stack).decl.typeId].ComplexType? ==>
              r == Success(if cfg.valueHook.Some? then HookValues(cfg.valueHook.value(Top(stack).shadow, Ancestors(stack))) else [])
    ensures |stack| > 0 && !TopSimple(cfg.schema, stack, (t: SimpleType) => t.isBoolean)
              && !TopSimple(cfg.schema, stack, (t: SimpleType) => !t.isBoolean && t.restriction.Some? && |t.restriction.value| > 0) ==>
              r == Success(if cfg.valueHook.Some? then HookValues(cfg.valueHook.value(Top(stack).shadow, Ancestors(stack))) else [])
  {
    if |stack| == 0 then Success([])
    else
      var st := Top(stack);
      assert StateOk(cfg.schema, st);
      var t := cfg.schema.types[st.decl.typeId];
      if t.SimpleTypeDef? && t.simple.isBoolean then Success(BooleanValues(Trim(typed)))
      else if t.SimpleTypeDef? && t.simple.restriction.Some? && |t.simple.restriction.value| > 0 then
        FacetValues(cfg.schema, t.simple.restriction.value, Trim(typed))
      else if cfg.valueHook.Some? then Success(HookValues(cfg.valueHook.value(st.shadow, Ancestors(stack))))
      else Success([])
  }

  // ---------------------------------------------------------------------------
  // The whole call

  /** The attributes the user can still add, and the length of
      the attribute name typed so far. */
  function AttributeNameCompletion(cfg: Config, rep: Replay, isRoot: bool, element: Node): (r: Result<Completion, Failure>)
    requires WellFormed(cfg.schema) && StackOk(cfg.schema, rep.stack) && element.Element?
    ensures r.Failure? ==> r.error == AmbiguousDocumentation
    ensures r.Success? ==>
              && r.value.length == |element.currentAttribute.GetOr("")|
              && forall sg :: sg in r.value.suggestions ==>
                   && sg.AttributeSuggestion?
                   && StartsWith(sg.name, element.currentAttribute.GetOr(""))
                   && !ContainsKey(element.attributes, sg.name)
    ensures var candidates := AttributeCandidates(cfg, rep.stack, isRoot);
            && (candidates.Failure? ==> r == Failure(candidates.error))
            && (candidates.Success? ==>
                  var typed := element.currentAttribute.GetOr("");
                  r == Success(Completion(AttributeNames(candidates.value, typed, element.attributes), |typed|)))
  {
    var candidates :- AttributeCandidates(cfg, rep.stack, isRoot);
    var typed := element.currentAttribute.GetOr("");
    Success(Completion(AttributeNames(candidates, typed, element.attributes), |typed|))
  }

  /** The values for the attribute being typed; the length is
      that of the value typed so far, and only once its quote is open. */
  function AttributeValueCompletion(cfg: Config, text: string, rep: Replay, element: Node, state: ReaderState): (r: Result<Completion, Failure>)
    requires WellFormed(cfg.schema) && StackOk(cfg.schema, rep.stack)
    requires (state == InAttributeEquals || state == InAttributeValue) && Settled(text, element, state)
    ensures r.Failure? ==> r.error == AmbiguousDocumentation
    ensures r.Success? ==> r.value.length < |text|
    ensures r.Success? ==> forall sg :: sg in r.value.suggestions ==>
              && sg.AttributeValueSuggestion?
              && (sg.includeQuotes <==> state == InAttributeEquals)
              && (state == InAttributeValue ==> IsQuote(sg.quoteChar))
              && (state == InAttributeEquals ==> sg.quoteChar == '"')
    ensures state == InAttributeEquals ==>
              var values := AttributeValues(cfg, rep.stack, element.currentAttribute.value, None, None);
              && (values.Failure? ==> r == Failure(values.error))
              && (values.Success? ==> r == Success(Completion(values.value, 0)))
    ensures state == InAttributeValue ==>
              var typed := TypedValue(text, element);
              var quote := text[|text| - |typed| - 1];
              var values := AttributeValues(cfg, rep.stack, element.currentAttribute.value, Some(typed), Some(quote));
              && (values.Failure? ==> r == Failure(values.error))
              && (values.Success? ==> r == Success(Completion(values.value, |typed|)))
  {
    if state == InAttributeEquals then ValuesAfterEquals(cfg, text, rep, element)
    else
      var typed := TypedValue(text, element);
      ValuesInQuote(cfg, text, rep, element.currentAttribute.value, typed, text[|text| - |typed| - 1])
  }

  /** Right after `=`: every value, quotes included, replacing nothing. */
  function ValuesAfterEquals(cfg: Config, text: string, rep: Replay, element: Node): (r: Result<Completion, Failure>)
    requires WellFormed(cfg.schema) && StackOk(cfg.schema, rep.stack)
    requires Settled(text, element, InAttributeEquals)
    ensures r.Failure? ==> r.error == AmbiguousDocumentation
    ensures r.Success? ==> r.value.length < |text|
    ensures r.Success? ==> forall sg :: sg in r.value.suggestions ==>
              sg.AttributeValueSuggestion? && sg.includeQuotes && sg.quoteChar == '"'
    ensures var values := AttributeValues(cfg, rep.stack, element.currentAttribute.value, None, None);
            && (values.Failure? ==> r == Failure(values.error))
            && (values.Success? ==> r == Success(Completion(values.value, 0)))
  {
    var sgs :- AttributeValues(cfg, rep.stack, element.currentAttribute.value, None, None);
    Success(Completion(sgs, 0))
  }

  /** Inside an open quote: the values starting with what is typed, with the
      quote typed before them, replacing what is typed. */
  function ValuesInQuote(cfg: Config, text: string, rep: Replay, attribute: string, typed: string, quote: char): (r: Result<Completion, Failure>)
    requires WellFormed(cfg.schema) && StackOk(cfg.schema, rep.stack)
    requires |typed| < |text|
    ensures r.Failure? ==> r.error == AmbiguousDocumentation
    ensures r.Success? ==> r.value.length < |text|
    ensures r.Success? ==> forall sg :: sg in r.value.suggestions ==>
              sg.AttributeValueSuggestion? && !sg.includeQuotes && sg.quoteChar == quote
    ensures var values := AttributeValues(cfg, rep.stack, attribute, Some(typed), Some(quote));
            && (values.Failure? ==> r == Failure(values.error))
            && (values.Success? ==> r == Success(Completion(values.value, |typed|)))
  {
    var sgs :- AttributeValues(cfg, rep.stack, attribute, Some(typed), Some(quote));
    Success(Completion(sgs, |typed|))
  }

  /** Completion inside text content (or right after a start tag), replacing
      `length` characters. */
  function TextCompletion(cfg: Config, stack: seq<ElementState>, typed: string, length: nat): (r: Result<Completion, Failure>)
    requires WellFormed(cfg.schema) && StackOk(cfg.schema, stack)
    ensures r.Failure? ==> r.error == AmbiguousDocumentation
    ensures r.Success? ==> r.value.length == length && forall sg :: sg in r.value.suggestions ==> sg.ValueSuggestion?
    ensures var values := CompleteText(cfg, stack, typed);
            && (values.Failure? ==> r == Failure(values.error))
            && (values.Success? ==> r == Success(Completion(values.value, length)))
  {
    var sgs :- CompleteText(cfg, stack, typed);
    Success(Completion(sgs, length))
  }

  /** Element names, replacing the name typed so far. */
  function StartTagCompletion(cfg: Config, rep: Replay, isRoot: bool, name: string): (r: Result<Completion, Failure>)
    requires WellFormed(cfg.schema) && StackOk(cfg.schema, rep.stack)
    ensures r.Failure? ==> r.error == AmbiguousDocumentation
    ensures r.Success? ==>
              r.value.length == |name|
              && forall sg :: sg in r.value.suggestions && sg.ElementSuggestion? ==> StartsWith(sg.name, name)
    ensures var names := StartTagSuggestions(cfg.schema, rep, isRoot, name);
            && (names.Failure? ==> r == Failure(names.error))
            && (names.Success? ==> r == Success(Completion(names.value, |name|)))
  {
    var sgs :- StartTagSuggestions(cfg.schema, rep, isRoot, name);
    Success(Completion(sgs, |name|))
  }

  /** Completion after a start tag, by the reader's final state. */
  function ElementCompletion(cfg: Config, text: string, rep: Replay, last: Token, state: ReaderState): (r: Result<Completion, Failure>)
    requires WellFormed(cfg.schema) && StackOk(cfg.schema, rep.stack)
    requires last.node.Element? && Settled(text, last.node, state)
    ensures r.Failure? ==> r.error == AmbiguousDocumentation
    ensures r.Success? ==> r.value.length <= |text|
    ensures r.Success? && state == InStartElement ==>
              r.value.length == |last.node.name|
              && forall sg :: sg in r.value.suggestions && sg.ElementSuggestion? ==> StartsWith(sg.name, last.node.name)
    ensures r.Success? && state == InAttributeName ==>
              forall sg :: sg in r.value.suggestions ==>
                sg.AttributeSuggestion? && !ContainsKey(last.node.attributes, sg.name)
    ensures state == AwaitingAttribute && !IsWhiteSpace(text[|text| - 1]) ==> r == Success(NoCompletion)
    ensures r.Success? && state in {InAttributeEquals, InAttributeValue} ==>
              forall sg :: sg in r.value.suggestions ==> sg.AttributeValueSuggestion?
    ensures r.Success? && state == InText ==>
              r.value.length == 0 && forall sg :: sg in r.value.suggestions ==> sg.ValueSuggestion?
    ensures state in {BOF, InProcessingInstruction, InEndElement} ==> r == Success(NoCompletion)
    ensures state == InStartElement ==> r == StartTagCompletion(cfg, rep, rep.first == Some(last.start), last.node.name)
    ensures state == InAttributeName || (state == AwaitingAttribute && IsWhiteSpace(text[|text| - 1])) ==>
              r == AttributeNameCompletion(cfg, rep, rep.first == Some(last.start), last.node)
    ensures state in {InAttributeEquals, InAttributeValue} ==> r == AttributeValueCompletion(cfg, text, rep, last.node, state)
    ensures state == InText ==> r == TextCompletion(cfg, rep.stack, "", 0)
  {
    var isRoot := rep.first == Some(last.start);
    if state == InStartElement then StartTagCompletion(cfg, rep, isRoot, last.node.name)
    else if (state == AwaitingAttribute && IsWhiteSpace(text[|text| - 1])) || state == InAttributeName then
      AttributeNameCompletion(cfg, rep, isRoot, last.node)
    else if state == InAttributeEquals || state == InAttributeValue then
      AttributeValueCompletion(cfg, text, rep, last.node, state)
    else if state == InText then TextCompletion(cfg, rep.stack, "", 0)
    else Success(NoCompletion)
  }

  /** What the last token and the reader's final state ask for. */
  function Complete(cfg: Config, text: string, rep: Replay, last: Token, state: ReaderState): (r: Result<Completion, Failure>)
    requires WellFormed(cfg.schema) && StackOk(cfg.schema, rep.stack)
    requires LastOk(text, Some(last), state)
    ensures r.Failure? ==> r.error == AmbiguousDocumentation
    ensures r.Success? ==> r.value.length <= |text|
    ensures last.node.ProcessingInstruction? ==> r == Success(NoCompletion)
    ensures r.Success? && last.node.Text? ==>
              r.value.length == |last.node.text| && forall sg :: sg in r.value.suggestions ==> sg.ValueSuggestion?
    ensures r.Success? && last.node.EndElement? ==>
              r.value.length == 0 && |r.value.suggestions| <= 1
              && forall sg :: sg in r.value.suggestions ==>
                   sg.EndElementSuggestion? && !sg.includeSlash && StartsWith(sg.name, last.node.name)
    ensures last.node.EndElement? && |rep.stack| > 0 && StartsWith(Top(rep.stack).decl.name, last.node.name) ==>
              var top := Top(rep.stack).decl;
              top.typeId in cfg.schema.types
              && var e := EndElementSuggestionOf(cfg.schema, top);
                 && (e.Failure? ==> r == Failure(e.error))
                 && (e.Success? ==> r == Success(Completion([e.value], 0)))
    ensures last.node.EndElement? && !(|rep.stack| > 0 && StartsWith(Top(rep.stack).decl.name, last.node.name)) ==>
              r == Success(NoCompletion)
    ensures last.node.Text? ==> r == TextCompletion(cfg, rep.stack, last.node.text, |last.node.text|)
    ensures last.node.Element? ==> r == ElementCompletion(cfg, text, rep, last, state)
  {
    match last.node
    case ProcessingInstruction => Success(NoCompletion)
    case Text(t) => TextCompletion(cfg, rep.stack, t, |t|)
    case EndElement(n) =>
      if |rep.stack| > 0 && StartsWith(Top(rep.stack).decl.name, n) then
        assert StateOk(cfg.schema, Top(rep.stack));
        var e :- EndElementSuggestionOf(cfg.schema, Top(rep.stack).decl);
        Success(Completion([e], 0))
      else Success(NoCompletion)
    case Element(_, _, _, _) => ElementCompletion(cfg, text, rep, last, state)
  }

  /** `Autocomplete.GetSuggestions(text, out length)`: replay the text, then
      complete at its end. A replay that gives up, or an empty text, offers
      nothing. This is the program with its defects corrected: the two null
      dereferences (`AttributeCandidatesAsWritten`, `TypeValuesAsWritten`) and
      the endless repetition loop (`Matching.RepeatLoopAsWritten`) are modelled
      beside it, and the shadow document's rejection of a start tag whose
      attribute name is not an XML name is not modelled. The only failure left
      is an annotation with more than one documentation item. */
  function GetSuggestions(cfg: Config, text: string): (r: Result<Completion, Failure>)
    requires WellFormed(cfg.schema)
    ensures r.Failure? ==> r.error == AmbiguousDocumentation
    ensures r.Success? ==> r.value.length <= |text|
    ensures |text| == 0 ==> r == Success(NoCompletion)
    ensures ReplayText(cfg.schema, text).Aborted? ==> r == Success(NoCompletion)
  {
    match ReplayText(cfg.schema, text)
    case Aborted => Success(NoCompletion)
    case Finished(rep, last, state) =>
      match last
      case None => Success(NoCompletion)
      case Some(token) => Complete(cfg, text, rep, token, state)
  }
}

=== FILE: matching.dfy ===
/** Content-model matching of MarkMpn.XmlSchemaAutoComplete/Autocomplete.cs: the
    per-element replay state (`ElementState`), `MatchChoice`, the forward scan of
    a sequence with its per-particle counters and its repeat loop, and the scan
    that lists the children allowed next. Particles are identified by their
    index in the sequence. */
module Matching {
  import opened Wrappers
  import opened Strings
  import opened Nodes
  import opened Schema

  /** The element built for the callbacks: the typed name and attributes. */
  datatype ShadowElement = ShadowElement(name: string, attributes: seq<Attribute>)

  /** One open element: its declaration, how often each particle of its
      sequence has matched, where the next child is looked for, how often the
      sequence has restarted, and its shadow element. */
  datatype ElementState = ElementState(
    decl: ElementDecl,
    counts: map<nat, nat>,
    next: nat,
    repeat: nat,
    shadow: ShadowElement)

  /** `ElementCount.TryGetValue(particle, out count)`: 0 when absent. */
  function Count(counts: map<nat, nat>, i: nat): nat {
    if i in counts then counts[i] else 0
  }

  /** A freshly pushed element: no counts, scanning from the first particle. */
  function NewState(d: ElementDecl, name: string, attributes: seq<Attribute>): ElementState {
    ElementState(d, map[], 0, 0, ShadowElement(name, attributes))
  }

  // ---------------------------------------------------------------------------
  // Choices

  /** Item `k` of a choice is an element alternative, and so are all before it. */
  predicate LeadingAlternative(items: seq<ChoiceItem>, k: int) {
    0 <= k < |items| && forall j :: 0 <= j <= k ==> items[j].Alternative?
  }

  /** `MatchChoice`: the first alternative whose name equals `name`, giving up at
      the first alternative that is not an element. */
  function MatchChoice(items: seq<ChoiceItem>, name: string): (r: Option<ElementDecl>)
    ensures r.Some? ==> r.value.name == name && Alternative(r.value) in items
    ensures r.Some? ==>
              exists k :: 0 <= k < |items| && items[k] == Alternative(r.value)
                && forall j :: 0 <= j < k ==> items[j].Alternative? && items[j].element.name != name
    ensures r.None? <==> forall k :: LeadingAlternative(items, k) ==> items[k].element.name != name
  {
    if |items| == 0 then None
    else if !items[0].Alternative? then None
    else if items[0].element.name == name then Some(items[0].element)
    else
      var r := MatchChoice(items[1..], name);
      if r.Some? then
        var k :| 0 <= k < |items[1..]| && items[1..][k] == Alternative(r.value)
                 && forall j :: 0 <= j < k ==> items[1..][j].Alternative? && items[1..][j].element.name != name;
        assert items[k + 1] == Alternative(r.value);
        r
      else
        assert forall k :: 1 <= k && LeadingAlternative(items, k) ==> LeadingAlternative(items[1..], k - 1);
        r
  }

  /** The element a particle of a sequence matches `name` with, if any: a choice
      through `MatchChoice`, an element by exact name, anything else never. */
  function MatchParticle(p: Particle, name: string): (r: Option<ElementDecl>)
    ensures r.Some? ==> r.value.name == name
    ensures p.ElementParticle? ==> (r.Some? <==> p.element.name == name) && (r.Some? ==> r.value == p.element)
    ensures p.ChoiceParticle? ==> r == MatchChoice(p.choice.items, name)
    ensures p.OtherParticle? ==> r.None?
  {
    match p
    case ElementParticle(e) => if e.name == name then Some(e) else None
    case ChoiceParticle(c) => MatchChoice(c.items, name)
    case OtherParticle(_, _) => None
  }

  // ---------------------------------------------------------------------------
  // Sequences

  /** One pass of the `for` loop over a sequence's particles: the first
      particle at or after `i` that matches, and whether a particle whose
      `minOccurs` exceeds its count was passed over on the way. */
  datatype Pass = Pass(found: Option<(nat, ElementDecl)>, skipped: bool)

  /** Where a pass stopped: at the match, or at the end of the sequence. */
  function PassEnd(items: seq<Particle>, p: Pass): nat {
    if p.found.Some? then p.found.value.0 else |items|
  }

  function ScanPass(items: seq<Particle>, counts: map<nat, nat>, name: string, i: nat): (r: Pass)
    requires i <= |items|
    ensures i <= PassEnd(items, r) <= |items|
    ensures r.found.Some? ==> r.found.value.0 < |items| && MatchParticle(items[r.found.value.0], name) == Some(r.found.value.1)
    ensures forall j :: i <= j < PassEnd(items, r) ==> MatchParticle(items[j], name).None?
    ensures r.skipped <==> exists j :: i <= j < PassEnd(items, r) && items[j].MinOccurs() > Count(counts, j)
    decreases |items| - i
  {
    if i == |items| then Pass(None, false)
    else
      var m := MatchParticle(items[i], name);
      if m.Some? then Pass(Some((i, m.value)), false)
      else
        var rest := ScanPass(items, counts, name, i + 1);
        Pass(rest.found, rest.skipped || items[i].MinOccurs() > Count(counts, i))
  }

  /** The counters keep their invariant: no particle has matched more than its
      `maxOccurs`; none after `next` has matched in this repetition; and the one
      at `next` can still match. */
  predicate CountsInv(items: seq<Particle>, st: ElementState) {
    && st.next <= |items|
    && (forall j :: 0 <= j < |items| ==> Count(st.counts, j) <= items[j].MaxOccurs())
    && (forall j :: st.next < j < |items| ==> Count(st.counts, j) == 0)
    && (st.next < |items| ==> Count(st.counts, st.next) < items[st.next].MaxOccurs())
  }

  predicate ParticlesOk(s: Schema, items: seq<Particle>) {
    forall j :: 0 <= j < |items| ==> ParticleOk(s, items[j])
  }

  /** Every particle from `next` on can still match. */
  lemma NothingAheadIsFull(s: Schema, items: seq<Particle>, st: ElementState)
    requires ParticlesOk(s, items) && CountsInv(items, st)
    ensures forall j :: st.next <= j < |items| ==> Count(st.counts, j) < items[j].MaxOccurs()
  {
    forall j | st.next <= j < |items| ensures Count(st.counts, j) < items[j].MaxOccurs() {
      if j > st.next {
        ParticleCanMatch(s, items[j]);
      }
    }
  }

  /** A match at `k`: that particle's count goes up by one and
      the scan resumes at `k`, or past it once the count reaches `maxOccurs`. */
  function Advance(s: Schema, items: seq<Particle>, st: ElementState, k: nat): (r: ElementState)
    requires ParticlesOk(s, items) && CountsInv(items, st) && st.next <= k < |items|
    ensures Count(r.counts, k) == Count(st.counts, k) + 1
    ensures forall j :: j != k ==> Count(r.counts, j) == Count(st.counts, j)
    ensures r.next == if Count(r.counts, k) == items[k].MaxOccurs() then k + 1 else k
    ensures r.repeat == st.repeat && r.decl == st.decl && r.shadow == st.shadow
    ensures CountsInv(items, r)
  {
    NothingAheadIsFull(s, items, st);
    var c := Count(st.counts, k) + 1;
    st.(counts := st.counts[k := c], next := if c == items[k].MaxOccurs() then k + 1 else k)
  }

  /** A restart of the sequence once the scan ran off its end: one more repetition, scanning
      from the first particle with all counters cleared. */
  function Restart(st: ElementState): (r: ElementState)
    ensures r.repeat == st.repeat + 1 && r.next == 0
    ensures forall j :: Count(r.counts, j) == 0
    ensures r.decl == st.decl && r.shadow == st.shadow
  {
    st.(repeat := st.repeat + 1, next := 0, counts := map[])
  }

  /** A compiled particle can match at least once. */
  lemma ParticleCanMatch(s: Schema, p: Particle)
    requires ParticleOk(s, p)
    ensures 1 <= p.MaxOccurs() && p.MinOccurs() <= p.MaxOccurs()
  {
    match p
    case ElementParticle(e) => assert DeclOk(s, e);
    case ChoiceParticle(c) => assert ChoiceOk(s, c);
    case OtherParticle(_, _) =>
  }

  lemma RestartKeepsCounts(s: Schema, items: seq<Particle>, st: ElementState)
    requires ParticlesOk(s, items)
    ensures CountsInv(items, Restart(st))
  {
    if 0 < |items| {
      ParticleCanMatch(s, items[0]);
    }
  }

  /** The outcome of matching a child against a sequence: the updated state of
      the parent, the matched declaration, and whether the replay became invalid. */
  datatype SeqMatch = SeqMatch(state: ElementState, found: Option<ElementDecl>, invalid: bool)

  /** How many more restarts the loop may make: up to the bound for a bounded
      sequence; for an unbounded one, one restart unless the pass already
      begins at the first particle. */
  function Budget(max: Bound, st: ElementState): nat {
    match max
    case Bounded(n) => if st.repeat < n then n - st.repeat else 0
    case Unbounded => if st.next == 0 then 0 else 1
  }

  /** The `while` loop of `GetSuggestions` over a sequence: passes over the
      sequence until a particle matches or the sequence has repeated `maxOccurs`
      times. A failed pass while the start tag is still being typed stops
      without change; otherwise it restarts the sequence, and a restart of a
      pass that itself began at the first particle is invalid. So a replay that
      stays valid restarts at most once. An unbounded sequence gives up after a
      failed pass from the first particle: every later pass would be the same
      (the source loops forever there, `RepeatLoopAsWritten`). */
  function RepeatLoop(s: Schema, items: seq<Particle>, max: Bound, st: ElementState, name: string, typing: bool): (r: SeqMatch)
    requires ParticlesOk(s, items) && CountsInv(items, st)
    ensures CountsInv(items, r.state)
    ensures r.state.decl == st.decl && r.state.shadow == st.shadow
    ensures st.repeat <= r.state.repeat
    ensures max.Allows(st.repeat) ==> max.Allows(r.state.repeat)
    ensures r.found.Some? ==> r.found.value.name == name && max.Below(r.state.repeat)
    ensures r.found.None? && typing ==> r.state.repeat == st.repeat && r.state.next == st.next && r.state.counts == st.counts
    ensures r.found.None? && !typing && max.Bounded? && st.repeat <= max.n ==> r.state.repeat == max.n
    ensures r.found.None? && !typing && max.Unbounded? ==> r.invalid
    ensures st.next == 0 && r.state.repeat > st.repeat ==> r.invalid
    ensures !r.invalid ==> r.state.repeat <= st.repeat + 1
    ensures r.state.repeat > st.repeat && r.found.Some? ==>
              forall j :: 0 <= j < |items| && j != r.state.next && j + 1 != r.state.next ==> Count(r.state.counts, j) == 0
    decreases Budget(max, st)
  {
    if !max.Below(st.repeat) then SeqMatch(st, None, false)
    else
      var atStart := st.next == 0;
      var pass := ScanPass(items, st.counts, name, st.next);
      if pass.found.Some? then
        var k := pass.found.value.0;
        SeqMatch(Advance(s, items, st, k), Some(pass.found.value.1), pass.skipped)
      else if typing then SeqMatch(st, None, pass.skipped)
      else
        var st' := Restart(st);
        RestartKeepsCounts(s, items, st);
        if max.Unbounded? && atStart then SeqMatch(st', None, true)
        else
          var rest := RepeatLoop(s, items, max, st', name, typing);
          SeqMatch(rest.state, rest.found, pass.skipped || atStart || rest.invalid)
  }

  /** A child no particle matches: when the loop finds nothing, no particle
      from `next` on has the name, and once the loop could restart, no
      particle at all has it. */
  lemma {:induction false} RepeatLoopMiss(s: Schema, items: seq<Particle>, max: Bound, st: ElementState, name: string, typing: bool)
    requires ParticlesOk(s, items) && CountsInv(items, st)
    requires RepeatLoop(s, items, max, st, name, typing).found.None?
    ensures max.Below(st.repeat) ==> forall j :: st.next <= j < |items| ==> MatchParticle(items[j], name).None?
    ensures !typing && max.Below(st.repeat + 1) ==> forall j :: 0 <= j < |items| ==> MatchParticle(items[j], name).None?
    decreases Budget(max, st)
  {
    if max.Below(st.repeat) && !typing {
      var pass := ScanPass(items, st.counts, name, st.next);
      if st.next != 0 {
        RestartKeepsCounts(s, items, st);
        RepeatLoopMiss(s, items, max, Restart(st), name, typing);
      }
    }
  }

  /** The loop as the source writes it, given `fuel` evaluations of its
      condition: `None` when the fuel runs out first. The loop has no other
      exit than a match, a typed tag or the repeat count reaching `maxOccurs`,
      which an unbounded sequence never reaches. */
  function RepeatLoopAsWritten(s: Schema, items: seq<Particle>, max: Bound, st: ElementState, name: string, typing: bool, fuel: nat): (r: Option<SeqMatch>)
    requires ParticlesOk(s, items) && CountsInv(items, st)
    ensures r.Some? && r.value.found.Some? ==> r.value.found.value.name == name
    decreases fuel
  {
    if fuel == 0 then None
    else if !max.Below(st.repeat) then Some(SeqMatch(st, None, false))
    else
      var atStart := st.next == 0;
      var pass := ScanPass(items, st.counts, name, st.next);
      if pass.found.Some? then
        var k := pass.found.value.0;
        Some(SeqMatch(Advance(s, items, st, k), Some(pass.found.value.1), pass.skipped))
      else if typing then Some(SeqMatch(st, None, pass.skipped))
      else
        RestartKeepsCounts(s, items, st);
        match RepeatLoopAsWritten(s, items, max, Restart(st), name, typing, fuel - 1)
        case None => None
        case Some(rest) => Some(SeqMatch(rest.state, rest.found, pass.skipped || atStart || rest.invalid))
  }

  /** The hang: in an unbounded sequence none of whose particles has the name
      of a finished start tag, the source's loop never ends, however much fuel
      it is given. */
  lemma {:induction false} UnboundedMissHangs(s: Schema, items: seq<Particle>, st: ElementState, name: string, fuel: nat)
    requires ParticlesOk(s, items) && CountsInv(items, st)
    requires forall j :: 0 <= j < |items| ==> MatchParticle(items[j], name).None?
    ensures RepeatLoopAsWritten(s, items, Unbounded, st, name, false, fuel).None?
    decreases fuel
  {
    if fuel > 0 {
      var pass := ScanPass(items, st.counts, name, st.next);
      assert pass.found.None?;
      RestartKeepsCounts(s, items, st);
      UnboundedMissHangs(s, items, Restart(st), name, fuel - 1);
    }
  }

  /** Everywhere else the corrected loop is the source's: for a bounded
      sequence, for a start tag still being typed, and whenever a particle
      matches, enough fuel gives the same outcome. */
  lemma {:induction false} RepeatLoopAgrees(s: Schema, items: seq<Particle>, max: Bound, st: ElementState, name: string, typing: bool, fuel: nat)
    requires ParticlesOk(s, items) && CountsInv(items, st)
    requires max.Bounded? || typing || RepeatLoop(s, items, max, st, name, typing).found.Some?
    requires fuel > Budget(max, st)
    ensures RepeatLoopAsWritten(s, items, max, st, name, typing, fuel) == Some(RepeatLoop(s, items, max, st, name, typing))
    decreases Budget(max, st)
  {
    if max.Below(st.repeat) && !typing {
      var pass := ScanPass(items, st.counts, name, st.next);
      if pass.found.None? {
        RestartKeepsCounts(s, items, st);
        if !(max.Unbounded? && st.next == 0) {
          RepeatLoopAgrees(s, items, max, Restart(st), name, typing, fuel - 1);
        }
      }
    }
  }

  /** The repeat loop, then the check that the sequence has not reached its
      own `maxOccurs`. An element whose tag is complete and that no particle
      matches always makes the replay invalid. */
  function MatchSequence(s: Schema, items: seq<Particle>, max: Bound, st: ElementState, name: string, typing: bool): (r: SeqMatch)
    requires ParticlesOk(s, items) && CountsInv(items, st) && max.Allows(st.repeat)
    ensures CountsInv(items, r.state)
    ensures r.state.decl == st.decl && r.state.shadow == st.shadow
    ensures st.repeat <= r.state.repeat && max.Allows(r.state.repeat)
    ensures r.found.Some? ==> r.found.value.name == name
    ensures max.Reached(r.state.repeat) ==> r.invalid
    ensures r.found.None? && !typing ==> r.invalid
    ensures r.found.None? && typing ==> r.state.repeat == st.repeat && r.state.next == st.next && r.state.counts == st.counts
  {
    var m := RepeatLoop(s, items, max, st, name, typing);
    SeqMatch(m.state, m.found, m.invalid || max.Reached(m.state.repeat))
  }

  // ---------------------------------------------------------------------------
  // What may come next (the children offered after a start tag)

  /** The element alternatives of a choice up to its first non-element item. */
  function LeadingElements(items: seq<ChoiceItem>): (r: seq<ElementDecl>)
    ensures |r| <= |items|
    ensures forall j :: 0 <= j < |r| ==> items[j] == Alternative(r[j])
    ensures |r| < |items| ==> !items[|r|].Alternative?
  {
    if |items| == 0 || !items[0].Alternative? then []
    else [items[0].element] + LeadingElements(items[1..])
  }

  /** The elements a particle can offer as the next child. */
  function Offered(p: Particle): seq<ElementDecl> {
    match p
    case ElementParticle(e) => [e]
    case ChoiceParticle(c) => LeadingElements(c.items)
    case OtherParticle(_, _) => []
  }

  /** Where the scan of candidate children stops: before the first particle that
      is neither an element nor a choice, or just after the first element whose
      `minOccurs` exceeds its count. */
  function ScanStop(items: seq<Particle>, counts: map<nat, nat>, i: nat): (k: nat)
    requires i <= |items|
    ensures i <= k <= |items|
    ensures forall j :: i <= j < k ==> !items[j].OtherParticle?
    ensures forall j :: i <= j < k - 1 ==> !(items[j].ElementParticle? && items[j].element.minOccurs > Count(counts, j))
    ensures k < |items| ==>
              || items[k].OtherParticle?
              || (k > i && items[k - 1].ElementParticle? && items[k - 1].element.minOccurs > Count(counts, k - 1))
    decreases |items| - i
  {
    if i == |items| then i
    else if items[i].OtherParticle? then i
    else if items[i].ElementParticle? && items[i].element.minOccurs > Count(counts, i) then i + 1
    else ScanStop(items, counts, i + 1)
  }

  /** The candidate children from particle `i` on, in schema order, whose names
      start with the typed name. */
  function Candidates(items: seq<Particle>, counts: map<nat, nat>, typed: string, i: nat): (r: seq<ElementDecl>)
    requires i <= |items|
    ensures forall d :: d in r <==>
              StartsWith(d.name, typed) && exists j :: i <= j < ScanStop(items, counts, i) && d in Offered(items[j])
    decreases |items| - i
  {
    if i == |items| then []
    else
      match items[i]
      case OtherParticle(_, _) => []
      case ChoiceParticle(c) =>
        var here := FilterByPrefix(LeadingElements(c.items), typed);
        var rest := Candidates(items, counts, typed, i + 1);
        here + rest
      case ElementParticle(e) =>
        var here := if StartsWith(e.name, typed) then [e] else [];
        if e.minOccurs > Count(counts, i) then here
        else
          var rest := Candidates(items, counts, typed, i + 1);
          here + rest
  }

  /** The declarations whose names start with `typed`, in order. */
  function FilterByPrefix(ds: seq<ElementDecl>, typed: string): (r: seq<ElementDecl>)
    ensures forall d :: d in r <==> d in ds && StartsWith(d.name, typed)
    ensures |r| <= |ds|
  {
    if |ds| == 0 then []
    else
      var rest := FilterByPrefix(ds[1..], typed);
      assert forall d :: d in ds <==> d == ds[0] || d in ds[1..];
      if StartsWith(ds[0].name, typed) then [ds[0]] + rest else rest
  }

  /** The elements the particles `i` to `k` offer, in schema order. */
  function OfferedRange(items: seq<Particle>, i: nat, k: nat): seq<ElementDecl>
    requires i <= k <= |items|
    decreases k - i
  {
    if i == k then [] else Offered(items[i]) + OfferedRange(items, i + 1, k)
  }

  /** Filtering by prefix keeps the order of a concatenation. */
  lemma {:induction false} FilterByPrefixAppend(xs: seq<ElementDecl>, ys: seq<ElementDecl>, typed: string)
    ensures FilterByPrefix(xs + ys, typed) == FilterByPrefix(xs, typed) + FilterByPrefix(ys, typed)
  {
    if |xs| > 0 {
      assert (xs + ys)[1..] == xs[1..] + ys;
      FilterByPrefixAppend(xs[1..], ys, typed);
    } else {
      assert xs + ys == ys;
    }
  }

  /** The candidate children in order: everything the particles up to the
      stop offer, in schema order, filtered by the typed prefix. */
  lemma {:induction false} CandidatesInOrder(items: seq<Particle>, counts: map<nat, nat>, typed: string, i: nat)
    requires i <= |items|
    ensures Candidates(items, counts, typed, i)
         == FilterByPrefix(OfferedRange(items, i, ScanStop(items, counts, i)), typed)
    decreases |items| - i
  {
    if i < |items| {
      var k := ScanStop(items, counts, i);
      match items[i]
      case OtherParticle(_, _) =>
      case ChoiceParticle(c) =>
        CandidatesInOrder(items, counts, typed, i + 1);
        FilterByPrefixAppend(Offered(items[i]), OfferedRange(items, i + 1, k), typed);
      case ElementParticle(e) =>
        if e.minOccurs > Count(counts, i) {
          assert OfferedRange(items, i, k) == [e] + [];
        } else {
          CandidatesInOrder(items, counts, typed, i + 1);
          FilterByPrefixAppend(Offered(items[i]), OfferedRange(items, i + 1, k), typed);
        }
    }
  }
}

=== FILE: nodes.dfy ===
/** The tokenizer's vocabulary: the nine reader states and the four node kinds of
    MarkMpn.XmlSchemaAutoComplete/PartialXmlNode.cs, with the attribute bag of a
    partially typed start tag. */
module Nodes {
  import opened Wrappers

  /** Where the caret conceptually sits inside the last node read. */
  datatype ReaderState =
    | BOF
    | InProcessingInstruction
    | InStartElement
    | AwaitingAttribute
    | InEndElement
    | InAttributeName
    | InAttributeEquals
    | InAttributeValue
    | InText

  /** One entry of a start tag's attribute bag; `value` is `None` when `=` has been
      typed but no quote yet (the source stores `null`). */
  datatype Attribute = Attribute(name: string, value: Option<string>)

  /** The bag is keyed by name: no name occurs twice. */
  predicate UniqueNames(attrs: seq<Attribute>) {
    forall i, j :: 0 <= i < j < |attrs| ==> attrs[i].name != attrs[j].name
  }

  /** The attribute names in insertion order. */
  function Names(attrs: seq<Attribute>): (r: seq<string>)
    ensures |r| == |attrs|
    ensures forall i :: 0 <= i < |attrs| ==> r[i] == attrs[i].name
  {
    if |attrs| == 0 then [] else [attrs[0].name] + Names(attrs[1..])
  }

  /** `Attributes.TryGetValue(name)`: `None` when the key is absent, otherwise the
      (possibly null) value stored under it. */
  function Find(attrs: seq<Attribute>, name: string): (r: Option<Option<string>>)
    ensures r.None? <==> forall i :: 0 <= i < |attrs| ==> attrs[i].name != name
    ensures r.Some? ==> exists i :: 0 <= i < |attrs| && attrs[i] == Attribute(name, r.value)
  {
    if |attrs| == 0 then None
    else if attrs[0].name == name then Some(attrs[0].value)
    else
      var r := Find(attrs[1..], name);
      assert r.Some? ==> attrs[1..][0..] == attrs[1..];
      if r.Some? then
        var i :| 0 <= i < |attrs[1..]| && attrs[1..][i] == Attribute(name, r.value);
        assert attrs[i + 1] == Attribute(name, r.value);
        r
      else r
  }

  /** `Attributes.ContainsKey(name)`. */
  predicate ContainsKey(attrs: seq<Attribute>, name: string) {
    Find(attrs, name).Some?
  }

  /** `Attributes[name] = value`: overwrites the entry in place, or appends a new
      one (`PutNames`); every other key keeps its value and the bag stays keyed
      by name. */
  function Put(attrs: seq<Attribute>, name: string, value: Option<string>): (r: seq<Attribute>)
    requires UniqueNames(attrs)
    ensures UniqueNames(r)
    ensures Find(r, name) == Some(value)
    ensures forall n :: n != name ==> Find(r, n) == Find(attrs, n)
  {
    if |attrs| == 0 then [Attribute(name, value)]
    else if attrs[0].name == name then
      PutHere(attrs, name, value);
      [Attribute(name, value)] + attrs[1..]
    else
      var rest := Put(attrs[1..], name, value);
      PutLater(attrs, name, value, rest);
      [attrs[0]] + rest
  }

  lemma FindCons(a: Attribute, rest: seq<Attribute>, n: string)
    ensures Find([a] + rest, n) == if a.name == n then Some(a.value) else Find(rest, n)
  {
    assert ([a] + rest)[1..] == rest;
  }

  lemma NamesCons(a: Attribute, rest: seq<Attribute>)
    ensures Names([a] + rest) == [a.name] + Names(rest)
  {
    assert ([a] + rest)[1..] == rest;
  }

  /** The keys after `Put`, in order: the same keys when the name was present,
      otherwise the name appended last. */
  lemma {:induction false} PutNames(attrs: seq<Attribute>, name: string, value: Option<string>)
    requires UniqueNames(attrs)
    ensures Names(Put(attrs, name, value)) == if ContainsKey(attrs, name) then Names(attrs) else Names(attrs) + [name]
  {
    if |attrs| == 0 {
    } else if attrs[0].name == name {
      NamesCons(Attribute(name, value), attrs[1..]);
      NamesCons(attrs[0], attrs[1..]);
      assert attrs == [attrs[0]] + attrs[1..];
    } else {
      UniqueTail(attrs);
      assert UniqueNames(attrs[1..]) by {
        forall i, j | 0 <= i < j < |attrs[1..]| ensures attrs[1..][i].name != attrs[1..][j].name {
          assert attrs[1..][i] == attrs[i + 1] && attrs[1..][j] == attrs[j + 1];
        }
      }
      PutNames(attrs[1..], name, value);
      PutLaterNames(attrs, name, Put(attrs[1..], name, value));
    }
  }

  /** Overwriting the first entry. */
  lemma PutHere(attrs: seq<Attribute>, name: string, value: Option<string>)
    requires UniqueNames(attrs) && |attrs| > 0 && attrs[0].name == name
    ensures var r := [Attribute(name, value)] + attrs[1..];
            && UniqueNames(r)
            && Find(r, name) == Some(value)
            && (forall n :: n != name ==> Find(r, n) == Find(attrs, n))
  {
    var r := [Attribute(name, value)] + attrs[1..];
    assert attrs == [attrs[0]] + attrs[1..];
    FindCons(Attribute(name, value), attrs[1..], name);
    forall n | n != name ensures Find(r, n) == Find(attrs, n) {
      FindCons(Attribute(name, value), attrs[1..], n);
      FindCons(attrs[0], attrs[1..], n);
    }
  }

  /** Putting below a first entry with another name. */
  lemma PutLater(attrs: seq<Attribute>, name: string, value: Option<string>, rest: seq<Attribute>)
    requires UniqueNames(attrs) && |attrs| > 0 && attrs[0].name != name
    requires UniqueNames(rest) && Find(rest, name) == Some(value)
    requires forall n :: n != name ==> Find(rest, n) == Find(attrs[1..], n)
    ensures var put := [attrs[0]] + rest;
            && UniqueNames(put)
            && Find(put, name) == Some(value)
            && (forall n :: n != name ==> Find(put, n) == Find(attrs, n))
  {
    FindCons(attrs[0], rest, name);
    PutLaterFind(attrs, name, rest);
    UniqueTail(attrs);
    ConsUnique(attrs[0], rest);
  }

  lemma PutLaterFind(attrs: seq<Attribute>, name: string, rest: seq<Attribute>)
    requires |attrs| > 0 && attrs[0].name != name
    requires forall n :: n != name ==> Find(rest, n) == Find(attrs[1..], n)
    ensures forall n :: n != name ==> Find([attrs[0]] + rest, n) == Find(attrs, n)
  {
    forall n | n != name ensures Find([attrs[0]] + rest, n) == Find(attrs, n) {
      FindCons(attrs[0], rest, n);
    }
  }

  lemma PutLaterNames(attrs: seq<Attribute>, name: string, rest: seq<Attribute>)
    requires |attrs| > 0 && attrs[0].name != name
    requires Names(rest) == if ContainsKey(attrs[1..], name) then Names(attrs[1..]) else Names(attrs[1..]) + [name]
    ensures Names([attrs[0]] + rest) == if ContainsKey(attrs, name) then Names(attrs) else Names(attrs) + [name]
  {
    NamesCons(attrs[0], rest);
    assert ContainsKey(attrs, name) == ContainsKey(attrs[1..], name);
    assert Names(attrs) == [attrs[0].name] + Names(attrs[1..]);
  }

  /** The first entry's name occurs nowhere after it. */
  lemma UniqueTail(attrs: seq<Attribute>)
    requires UniqueNames(attrs) && |attrs| > 0
    ensures Find(attrs[1..], attrs[0].name).None?
  {
    forall i | 0 <= i < |attrs[1..]| ensures attrs[1..][i].name != attrs[0].name {
      assert attrs[1..][i] == attrs[i + 1];
    }
  }

  /** A new first entry whose name the rest lacks keeps the names unique. */
  lemma ConsUnique(a: Attribute, rest: seq<Attribute>)
    requires UniqueNames(rest) && Find(rest, a.name).None?
    ensures UniqueNames([a] + rest)
  {
    var r := [a] + rest;
    forall i, j | 0 <= i < j < |r| ensures r[i].name != r[j].name {
      if i == 0 {
        assert r[j] == rest[j - 1];
      } else {
        assert r[i] == rest[i - 1] && r[j] == rest[j - 1];
      }
    }
  }

  /** A node produced by one step of the tokenizer. */
  datatype Node =
    | ProcessingInstruction
    | Element(name: string, attributes: seq<Attribute>, currentAttribute: Option<string>, selfClosing: bool)
    | EndElement(name: string)
    | Text(text: string)
}

=== FILE: reader.dfy ===
/** The lenient tokenizer of MarkMpn.XmlSchemaAutoComplete/PartialXmlReader.cs:
    a single pass over the text that, step by step, yields a processing
    instruction, a start tag with its attributes, an end tag or a run of text.
    It never fails: whatever is typed, each step consumes at least one character,
    and the final state records where the caret sits inside the last token. */
module Reader {
  import opened Wrappers
  import opened Strings
  import opened Nodes

  /** One successful `TryRead`: the node, the new offset and the new state. */
  datatype Read = Read(node: Node, offset: nat, state: ReaderState)

  predicate IsQuote(c: char) {
    c == '"' || c == '\''
  }

  /** An attribute name the scanner can store: non-empty, not starting with `/`,
      and holding neither a space nor `>`. */
  predicate NameOk(n: string) {
    && |n| > 0
    && n[0] != '/'
    && forall j :: 0 <= j < |n| ==> n[j] != ' ' && n[j] != '>'
  }

  /** Every key of an attribute bag is a scannable name. */
  predicate KeysOk(attrs: seq<Attribute>) {
    && UniqueNames(attrs)
    && forall i :: 0 <= i < |attrs| ==> NameOk(attrs[i].name)
  }

  // ---------------------------------------------------------------------------
  // Processing instructions

  /** Scans for `?>` from `o` on, where the `>` may sit at `o` itself, so that the
      `?` of the opening `<?` may close it; returns the offset just past the `>`
      and whether one was found. */
  function PiEnd(text: string, o: nat): (r: (nat, bool))
    requires 1 <= o <= |text|
    ensures o <= r.0 <= |text|
    ensures r.1 ==> o < r.0 && text[r.0 - 2] == '?' && text[r.0 - 1] == '>'
    ensures !r.1 ==> r.0 == |text|
    ensures forall k :: o <= k < |text| && k < r.0 - 1 ==> !(text[k - 1] == '?' && text[k] == '>')
    ensures !r.1 ==> forall k :: o <= k < |text| ==> !(text[k - 1] == '?' && text[k] == '>')
    decreases |text| - o
  {
    if o == |text| then (o, false)
    else if text[o - 1] == '?' && text[o] == '>' then (o + 1, true)
    else PiEnd(text, o + 1)
  }

  /** `<?`: consumed past the first `?>`, or to the end of the text. */
  function ReadProcessingInstruction(text: string, offset: nat): (r: Read)
    requires offset + 1 < |text| && text[offset] == '<' && text[offset + 1] == '?'
    ensures r.node == ProcessingInstruction
    ensures offset + 2 <= r.offset <= |text|
    ensures r.state == InText || r.state == InProcessingInstruction
    ensures r.state == InText ==> text[r.offset - 2] == '?' && text[r.offset - 1] == '>'
    ensures r.state == InProcessingInstruction <==> (r.offset == |text| &&
              forall k :: offset + 2 <= k < |text| ==> !(text[k - 1] == '?' && text[k] == '>'))
  {
    var (e, closed) := PiEnd(text, offset + 2);
    Read(ProcessingInstruction, e, if closed then InText else InProcessingInstruction)
  }

  // ---------------------------------------------------------------------------
  // End tags

  /** `</`: the name runs to the first space or `>`, and the tag is consumed past
      the first `>`, or to the end of the text while the caret is still inside it. */
  function ReadEndTag(text: string, offset: nat): (r: Read)
    requires offset + 1 < |text| && text[offset] == '<' && text[offset + 1] == '/'
    ensures r.node.EndElement?
    ensures var name := r.node.name;
      && offset + 2 + |name| <= |text|
      && text[offset + 2..offset + 2 + |name|] == name
      && ' ' !in name && '>' !in name
      && (offset + 2 + |name| == |text| || text[offset + 2 + |name|] in {' ', '>'})
    ensures r.state == InText || r.state == InEndElement
    ensures r.state == InText <==> '>' in text[offset + 2..]
    ensures offset + 2 <= r.offset <= |text|
    ensures r.state == InText ==>
              offset + 2 < r.offset && text[r.offset - 1] == '>' && '>' !in text[offset + 2..r.offset - 1]
    ensures r.state == InEndElement ==> r.offset == |text|
  {
    var nameStart := offset + 2;
    var gt := IndexOfAny(text, nameStart, {'>'});
    var nameEnd := IndexOfAny(text, nameStart, {' ', '>'});
    var name := text[nameStart..nameEnd];
    assert forall c :: c in name ==> c != ' ' && c != '>' by {
      forall c | c in name ensures c != ' ' && c != '>' {
        var j :| 0 <= j < |name| && name[j] == c;
        assert text[nameStart + j] == c;
      }
    }
    if gt < |text| then
      assert '>' in text[nameStart..] by { assert text[nameStart..][gt - nameStart] == '>'; }
      assert '>' !in text[nameStart..gt] by {
        forall j | 0 <= j < gt - nameStart ensures text[nameStart..gt][j] != '>' {
          assert text[nameStart..gt][j] == text[nameStart + j];
        }
      }
      Read(EndElement(name), gt + 1, InText)
    else
      assert '>' !in text[nameStart..] by {
        forall j | 0 <= j < |text| - nameStart ensures text[nameStart..][j] != '>' {
          assert text[nameStart..][j] == text[nameStart + j];
        }
      }
      Read(EndElement(name), |text|, InEndElement)
  }

  // ---------------------------------------------------------------------------
  // Start tags and their attributes

  /** The locals of the attribute loop: the state, the last name completed by
      `=`, where the current name or value starts, the opening quote, the
      assignments `Attributes[name] = value` made so far, in order, and whether
      `/>` closed the tag. The loop never reads the bag it fills, so the bag is
      built from the assignments once the loop ends (`Assign`). */
  datatype Scan = Scan(state: ReaderState, name: string, start: nat, quote: char,
                       stores: seq<Attribute>, selfClosing: bool)

  /** Every stored name is a scannable name. */
  predicate Scannable(log: seq<Attribute>) {
    forall i :: 0 <= i < |log| ==> NameOk(log[i].name)
  }

  /** The bag the stores fill, one `Attributes[name] = value` after another:
      keys stay unique and the last store is what its name holds. */
  function Assign(log: seq<Attribute>): (r: seq<Attribute>)
    ensures UniqueNames(r)
    ensures |log| > 0 ==> Find(r, log[|log| - 1].name) == Some(log[|log| - 1].value)
  {
    if |log| == 0 then []
    else
      var a := log[|log| - 1];
      Put(Assign(log[..|log| - 1]), a.name, a.value)
  }

  /** Scannable stores fill a bag whose keys are all scannable. */
  lemma {:induction false} AssignedKeysOk(log: seq<Attribute>)
    requires Scannable(log)
    ensures KeysOk(Assign(log))
  {
    if |log| > 0 {
      AssignedKeysOk(log[..|log| - 1]);
      NamesOfPut(Assign(log[..|log| - 1]), log[|log| - 1].name, log[|log| - 1].value);
    }
  }

  /** The value the bag holds under a name is the one its last store gave it. */
  lemma {:induction false} AssignFindsLast(log: seq<Attribute>, i: nat)
    requires i < |log|
    requires forall j :: i < j < |log| ==> log[j].name != log[i].name
    ensures Find(Assign(log), log[i].name) == Some(log[i].value)
  {
    if i < |log| - 1 {
      var pre := log[..|log| - 1];
      forall j | i < j < |pre| ensures pre[j].name != pre[i].name {
        assert pre[j] == log[j] && pre[i] == log[i];
      }
      AssignFindsLast(pre, i);
      assert pre[i] == log[i];
    }
  }

  /** A name is a key of the bag exactly when some store names it. */
  lemma {:induction false} AssignFindsNone(log: seq<Attribute>, n: string)
    ensures Find(Assign(log), n).None? <==> forall j :: 0 <= j < |log| ==> log[j].name != n
  {
    if |log| > 0 {
      var pre := log[..|log| - 1];
      var last := log[|log| - 1];
      AssignFindsNone(pre, n);
      NoneDropLast(log, pre, n);
      assert Assign(log) == Put(Assign(pre), last.name, last.value);
      if last.name != n {
        assert Find(Assign(log), n) == Find(Assign(pre), n);
      }
    }
  }

  /** No store names `n` exactly when neither the earlier stores nor the last do. */
  lemma NoneDropLast(log: seq<Attribute>, pre: seq<Attribute>, n: string)
    requires |log| > 0 && pre == log[..|log| - 1]
    ensures (forall j :: 0 <= j < |log| ==> log[j].name != n)
            <==> (forall j :: 0 <= j < |pre| ==> pre[j].name != n) && log[|log| - 1].name != n
  {
    assert forall j :: 0 <= j < |pre| ==> pre[j] == log[j];
  }

  /** What holds of the loop's locals after the characters before `o` are scanned. */
  predicate ScanOk(text: string, o: nat, s: Scan) {
    && o <= |text|
    && (s.state.AwaitingAttribute? || s.state.InAttributeName? || s.state.InAttributeEquals?
        || s.state.InAttributeValue? || s.state.InStartElement?)
    && !s.selfClosing
    && Scannable(s.stores)
    && (s.state == InAttributeName ==> s.start < o && NameOk(text[s.start..o]))
    && (s.state.InAttributeEquals? || s.state.InAttributeValue? ==> NameOk(s.name))
    && (s.state == InAttributeValue ==>
          && 1 <= s.start <= o
          && text[s.start - 1] == s.quote
          && IsQuote(s.quote)
          && forall j :: s.start <= j < o ==> text[j] != s.quote)
  }

  /** What one character does to the attribute loop: carry on with new locals,
      or leave the loop (the source's `break`) just past a `>`. */
  datatype Step = Next(scan: Scan) | Break(scan: Scan)

  /** One pass of the attribute loop's body, on the
      character at `o`. Only the rule of the current state can fire: `>` outside
      a name or value ends the tag (after `/`, self-closing); a name runs to `=`;
      a quote opens the value and only the same quote closes it, storing the
      value under the name. `>` inside a name ends the tag and drops the name; a
      space inside a name moves to `InStartElement`, where no rule fires. */
  function ScanStep(text: string, o: nat, s: Scan): (r: Step)
    requires 1 <= o < |text| && ScanOk(text, o, s)
    ensures r.Next? ==> ScanOk(text, o + 1, r.scan)
    ensures r.Break? ==> r.scan.state == InText && text[o] == '>' && Scannable(r.scan.stores)
    ensures r.Break? && r.scan.selfClosing ==> text[o - 1] == '/'
  {
    var c := text[o];
    match s.state
    case AwaitingAttribute =>
      if c == '>' then Break(s.(state := InText, selfClosing := s.selfClosing || text[o - 1] == '/'))
      else if c == ' ' || c == '/' then Next(s)
      else
        assert text[o..o + 1] == [c];
        Next(s.(start := o, state := InAttributeName))
    case InAttributeName =>
      if c == '>' then Break(s.(state := InText))
      else if c == ' ' then Next(s.(state := InStartElement))
      else if c == '=' then Next(s.(name := text[s.start..o], state := InAttributeEquals))
      else
        assert text[s.start..o + 1] == text[s.start..o] + [c];
        Next(s)
    case InAttributeEquals =>
      if IsQuote(c) then Next(s.(start := o + 1, quote := c, state := InAttributeValue))
      else Next(s)
    case InAttributeValue =>
      if c == s.quote then
        Next(s.(stores := s.stores + [Attribute(s.name, Some(text[s.start..o]))], state := AwaitingAttribute))
      else Next(s)
    case _ => Next(s)
  }

  /** The rules of the attribute loop, state by state. */
  lemma ScanStepRules(text: string, o: nat, s: Scan)
    requires 1 <= o < |text| && ScanOk(text, o, s)
    // Waiting for a name: `>` ends the tag, self-closing after `/`; a space or
    // `/` is skipped; anything else starts a name.
    ensures s.state == AwaitingAttribute && text[o] == '>' ==>
              ScanStep(text, o, s) == Break(s.(state := InText, selfClosing := text[o - 1] == '/'))
    ensures s.state == AwaitingAttribute && (text[o] == ' ' || text[o] == '/') ==>
              ScanStep(text, o, s) == Next(s)
    ensures s.state == AwaitingAttribute && text[o] != '>' && text[o] != ' ' && text[o] != '/' ==>
              ScanStep(text, o, s) == Next(s.(start := o, state := InAttributeName))
    // Inside a name: `>` ends the tag and drops the name; a space abandons it;
    // `=` completes it; anything else extends it.
    ensures s.state == InAttributeName && text[o] == '>' ==>
              ScanStep(text, o, s) == Break(s.(state := InText))
    ensures s.state == InAttributeName && text[o] == ' ' ==>
              ScanStep(text, o, s) == Next(s.(state := InStartElement))
    ensures s.state == InAttributeName && text[o] == '=' ==>
              ScanStep(text, o, s) == Next(s.(name := text[s.start..o], state := InAttributeEquals))
    ensures s.state == InAttributeName && text[o] != '>' && text[o] != ' ' && text[o] != '=' ==>
              ScanStep(text, o, s) == Next(s)
    // After `=`: a quote opens the value; anything else is skipped.
    ensures s.state == InAttributeEquals && IsQuote(text[o]) ==>
              ScanStep(text, o, s) == Next(s.(start := o + 1, quote := text[o], state := InAttributeValue))
    ensures s.state == InAttributeEquals && !IsQuote(text[o]) ==>
              ScanStep(text, o, s) == Next(s)
    // Inside a value: the same quote closes it and assigns it to the name;
    // anything else is skipped.
    ensures s.state == InAttributeValue && text[o] == s.quote ==>
              ScanStep(text, o, s)
                == Next(s.(stores := s.stores + [Attribute(s.name, Some(text[s.start..o]))], state := AwaitingAttribute))
    ensures s.state == InAttributeValue && text[o] != s.quote ==>
              ScanStep(text, o, s) == Next(s)
    // After a space inside a name no rule fires.
    ensures s.state == InStartElement ==> ScanStep(text, o, s) == Next(s)
  {
  }

  /** The attribute loop, one character per call:
      it stops just past a closing `>` in `InText`, or at the end of the text. */
  function ScanAttributes(text: string, o: nat, s: Scan): (r: (nat, Scan))
    requires 1 <= o <= |text| && ScanOk(text, o, s)
    ensures o <= r.0 <= |text|
    ensures r.1.state != InText ==> r.0 == |text| && ScanOk(text, |text|, r.1)
    ensures r.1.state == InText ==> o < r.0 && text[r.0 - 1] == '>' && Scannable(r.1.stores)
    ensures r.1.selfClosing ==> r.1.state == InText && 1 < r.0 && text[r.0 - 2] == '/'
    decreases |text| - o
  {
    if o == |text| then (o, s)
    else
      match ScanStep(text, o, s)
      case Break(s') => (o + 1, s')
      case Next(s') => ScanAttributes(text, o + 1, s')
  }

  /** One step never takes back a store: the stores stay, and at most one is added. */
  lemma StepKeepsStores(text: string, o: nat, s: Scan)
    requires 1 <= o < |text| && ScanOk(text, o, s)
    ensures var r := ScanStep(text, o, s).scan;
            r.stores == s.stores || r.stores == s.stores + [Attribute(s.name, Some(text[s.start..o]))]
  {
  }

  /** Every value stored while the loop runs is still among the stores when it
      ends: the loop's stores only grow. */
  lemma {:induction false} StoresKept(text: string, o: nat, s: Scan)
    requires 1 <= o <= |text| && ScanOk(text, o, s)
    ensures s.stores <= ScanAttributes(text, o, s).1.stores
    decreases |text| - o
  {
    if o < |text| {
      StepKeepsStores(text, o, s);
      match ScanStep(text, o, s)
      case Break(_) =>
      case Next(s') =>
        StoresKept(text, o + 1, s');
    }
  }

  /** The loop after a step that does not leave it. */
  lemma AfterNext(text: string, o: nat, s: Scan)
    requires 1 <= o < |text| && ScanOk(text, o, s) && ScanStep(text, o, s).Next?
    ensures ScanOk(text, o + 1, ScanStep(text, o, s).scan)
    ensures ScanAttributes(text, o, s) == ScanAttributes(text, o + 1, ScanStep(text, o, s).scan)
  {
  }

  /** A space while waiting for an attribute is skipped. */
  lemma SkipSpace(text: string, o: nat, s: Scan)
    requires 1 <= o < |text| && ScanOk(text, o, s) && s.state == AwaitingAttribute && text[o] == ' '
    ensures ScanOk(text, o + 1, s)
    ensures ScanAttributes(text, o, s) == ScanAttributes(text, o + 1, s)
  {
    ScanStepRules(text, o, s);
    AfterNext(text, o, s);
  }

  /** Any other character while waiting for an attribute starts its name. */
  lemma StartName(text: string, o: nat, s: Scan)
    requires 1 <= o < |text| && ScanOk(text, o, s) && s.state == AwaitingAttribute
    requires text[o] != '>' && text[o] != ' ' && text[o] != '/'
    ensures ScanOk(text, o + 1, s.(start := o, state := InAttributeName))
    ensures ScanAttributes(text, o, s) == ScanAttributes(text, o + 1, s.(start := o, state := InAttributeName))
  {
    ScanStepRules(text, o, s);
    AfterNext(text, o, s);
  }

  /** Any character but `>`, space or `=` extends the attribute name. */
  lemma ExtendName(text: string, o: nat, s: Scan)
    requires 1 <= o < |text| && ScanOk(text, o, s) && s.state == InAttributeName
    requires text[o] != '>' && text[o] != ' ' && text[o] != '='
    ensures ScanOk(text, o + 1, s)
    ensures ScanAttributes(text, o, s) == ScanAttributes(text, o + 1, s)
  {
    ScanStepRules(text, o, s);
    AfterNext(text, o, s);
  }

  /** `=` ends the attribute name and records it. */
  lemma EndName(text: string, o: nat, s: Scan)
    requires 1 <= o < |text| && ScanOk(text, o, s) && s.state == InAttributeName && text[o] == '='
    ensures ScanOk(text, o + 1, s.(name := text[s.start..o], state := InAttributeEquals))
    ensures ScanAttributes(text, o, s)
         == ScanAttributes(text, o + 1, s.(name := text[s.start..o], state := InAttributeEquals))
  {
    ScanStepRules(text, o, s);
    AfterNext(text, o, s);
  }

  /** A quote after `=` opens the value. */
  lemma OpenValue(text: string, o: nat, s: Scan)
    requires 1 <= o < |text| && ScanOk(text, o, s) && s.state == InAttributeEquals && IsQuote(text[o])
    ensures ScanOk(text, o + 1, s.(start := o + 1, quote := text[o], state := InAttributeValue))
    ensures ScanAttributes(text, o, s)
         == ScanAttributes(text, o + 1, s.(start := o + 1, quote := text[o], state := InAttributeValue))
  {
    ScanStepRules(text, o, s);
    AfterNext(text, o, s);
  }

  /** Any character of a value but its own quote is skipped. */
  lemma SkipValueChar(text: string, o: nat, s: Scan)
    requires 1 <= o < |text| && ScanOk(text, o, s) && s.state == InAttributeValue && text[o] != s.quote
    ensures ScanOk(text, o + 1, s)
    ensures ScanAttributes(text, o, s) == ScanAttributes(text, o + 1, s)
  {
    ScanStepRules(text, o, s);
    AfterNext(text, o, s);
  }

  /** The closing quote assigns the value typed since the opening one. */
  lemma CloseValue(text: string, o: nat, s: Scan)
    requires 1 <= o < |text| && ScanOk(text, o, s) && s.state == InAttributeValue && text[o] == s.quote
    ensures var s' := s.(stores := s.stores + [Attribute(s.name, Some(text[s.start..o]))], state := AwaitingAttribute);
      ScanOk(text, o + 1, s') && ScanAttributes(text, o, s) == ScanAttributes(text, o + 1, s')
  {
    ScanStepRules(text, o, s);
    AfterNext(text, o, s);
  }

  /** The characters of a name that `=` has not yet completed only extend it. */
  lemma {:induction false} ScanThroughName(text: string, o: nat, e: nat, s: Scan)
    requires 1 <= o <= e <= |text| && s.state == InAttributeName && ScanOk(text, o, s)
    requires forall j :: o <= j < e ==> text[j] != ' ' && text[j] != '=' && text[j] != '>'
    ensures ScanOk(text, e, s) && ScanAttributes(text, o, s) == ScanAttributes(text, e, s)
    decreases e - o
  {
    if o < e {
      ExtendName(text, o, s);
      ScanThroughName(text, o + 1, e, s);
    }
  }

  /** The characters of a value up to its closing quote are only skipped. */
  lemma {:induction false} ScanThroughValue(text: string, o: nat, e: nat, s: Scan)
    requires 1 <= o <= e <= |text| && s.state == InAttributeValue && ScanOk(text, o, s)
    requires forall j :: o <= j < e ==> text[j] != s.quote
    ensures ScanOk(text, e, s) && ScanAttributes(text, o, s) == ScanAttributes(text, e, s)
    decreases e - o
  {
    if o < e {
      SkipValueChar(text, o, s);
      ScanThroughValue(text, o + 1, e, s);
    }
  }

  /** A space and then a name character, read while waiting for an attribute,
      start a name at that character. */
  lemma NameStarted(text: string, o: nat, s: Scan)
    requires 1 <= o && o + 2 <= |text| && s.state == AwaitingAttribute && ScanOk(text, o, s)
    requires text[o] == ' ' && text[o + 1] != ' ' && text[o + 1] != '>' && text[o + 1] != '/'
    ensures ScanOk(text, o + 2, s.(start := o + 1, state := InAttributeName))
    ensures ScanAttributes(text, o, s) == ScanAttributes(text, o + 2, s.(start := o + 1, state := InAttributeName))
  {
    SkipSpace(text, o, s);
    StartName(text, o + 1, s);
    assert o + 1 + 1 == o + 2;
  }

  /** ` x` read while waiting for an attribute leaves the loop inside the
      name `x`. */
  lemma NameTyped(text: string, o: nat, s: Scan, x: string)
    requires 1 <= o && s.state == AwaitingAttribute && ScanOk(text, o, s)
    requires NameOk(x) && '=' !in x
    requires o + |x| + 1 <= |text|
    requires text[o] == ' ' && text[o + 1..o + 1 + |x|] == x
    ensures ScanOk(text, o + 1 + |x|, s.(start := o + 1, state := InAttributeName))
    ensures ScanAttributes(text, o, s) == ScanAttributes(text, o + 1 + |x|, s.(start := o + 1, state := InAttributeName))
  {
    assert text[o + 1] == x[0];
    NameStarted(text, o, s);
    assert forall j :: o + 2 <= j < o + 1 + |x| ==> text[j] != ' ' && text[j] != '=' && text[j] != '>' by {
      forall j | o + 2 <= j < o + 1 + |x| ensures text[j] != ' ' && text[j] != '=' && text[j] != '>' {
        assert text[j] == text[o + 1..o + 1 + |x|][j - o - 1] == x[j - o - 1];
      }
    }
    ScanThroughName(text, o + 2, o + 1 + |x|, s.(start := o + 1, state := InAttributeName));
  }

  /** ` x=` read while waiting for an attribute completes the name `x`. */
  lemma NameCompleted(text: string, o: nat, s: Scan, x: string)
    requires 1 <= o && s.state == AwaitingAttribute && ScanOk(text, o, s)
    requires NameOk(x) && '=' !in x
    requires o + |x| + 2 <= |text|
    requires text[o] == ' ' && text[o + 1..o + 1 + |x|] == x && text[o + 1 + |x|] == '='
    ensures var s' := s.(start := o + 1, name := x, state := InAttributeEquals);
      && ScanOk(text, o + 2 + |x|, s')
      && ScanAttributes(text, o, s) == ScanAttributes(text, o + 2 + |x|, s')
  {
    NameTyped(text, o, s, x);
    var s1 := s.(start := o + 1, state := InAttributeName);
    EndName(text, o + 1 + |x|, s1);
    assert s1.(name := text[s1.start..o + 1 + |x|], state := InAttributeEquals)
        == s.(start := o + 1, name := x, state := InAttributeEquals);
  }

  /** ` x="` (or ` x='`) read while waiting for an attribute completes the
      name `x` and opens its value just past the quote. */
  lemma NameOpened(text: string, o: nat, s: Scan, x: string, q: char)
    requires 1 <= o && s.state == AwaitingAttribute && ScanOk(text, o, s)
    requires NameOk(x) && '=' !in x && IsQuote(q)
    requires o + |x| + 3 <= |text|
    requires text[o] == ' ' && text[o + 1..o + 1 + |x|] == x && text[o + 1 + |x|] == '=' && text[o + 2 + |x|] == q
    ensures var s' := s.(state := InAttributeValue, name := x, start := o + 3 + |x|, quote := q);
      && ScanOk(text, o + 3 + |x|, s')
      && ScanAttributes(text, o, s) == ScanAttributes(text, o + 3 + |x|, s')
  {
    NameCompleted(text, o, s, x);
    var s2 := s.(start := o + 1, name := x, state := InAttributeEquals);
    OpenValue(text, o + 2 + |x|, s2);
    assert s2.(start := o + 3 + |x|, quote := text[o + 2 + |x|], state := InAttributeValue)
        == s.(state := InAttributeValue, name := x, start := o + 3 + |x|, quote := q);
  }

  /** A value `v` and its closing quote: the loop goes back to waiting for an
      attribute, with `v` stored under the name. */
  lemma ValueClosed(text: string, o: nat, s: Scan, v: string, e: nat, s': Scan)
    requires 1 <= o && s.state == InAttributeValue && ScanOk(text, o, s) && s.start == o
    requires s.quote !in v && o + |v| < |text|
    requires text[o..o + |v|] == v && text[o + |v|] == s.quote
    requires e == o + |v| + 1 && s' == s.(state := AwaitingAttribute, stores := s.stores + [Attribute(s.name, Some(v))])
    ensures ScanOk(text, e, s') && ScanAttributes(text, o, s) == ScanAttributes(text, e, s')
  {
    assert forall j :: o <= j < o + |v| ==> text[j] == v[j - o];
    ScanThroughValue(text, o, o + |v|, s);
    CloseValue(text, o + |v|, s);
  }

  /** A complete ` x="v"` (or ` x='v'`) read while waiting for an attribute:
      the loop carries on after the closing quote with `v` stored under `x`,
      whatever follows. */
  lemma PairStored(text: string, o: nat, s: Scan, x: string, q: char, v: string)
    requires 1 <= o && s.state == AwaitingAttribute && ScanOk(text, o, s)
    requires NameOk(x) && '=' !in x && IsQuote(q) && q !in v
    requires o + |x| + |v| + 4 <= |text|
    requires text[o] == ' ' && text[o + 1..o + 1 + |x|] == x && text[o + 1 + |x|] == '='
    requires text[o + 2 + |x|] == q && text[o + 3 + |x|..o + 3 + |x| + |v|] == v && text[o + 3 + |x| + |v|] == q
    ensures var s' := s.(state := AwaitingAttribute, name := x, start := o + 3 + |x|, quote := q,
                         stores := s.stores + [Attribute(x, Some(v))]);
      && ScanOk(text, o + 4 + |x| + |v|, s')
      && ScanAttributes(text, o, s) == ScanAttributes(text, o + 4 + |x| + |v|, s')
  {
    var s3 := s.(state := InAttributeValue, name := x, start := o + 3 + |x|, quote := q);
    NameOpened(text, o, s, x, q);
    ValueClosed(text, o + 3 + |x|, s3, v, o + 4 + |x| + |v|,
                s.(state := AwaitingAttribute, name := x, start := o + 3 + |x|, quote := q,
                   stores := s.stores + [Attribute(x, Some(v))]));
  }

  /** `>` while waiting for an attribute ends the tag, self-closing after `/`. */
  lemma CloseTag(text: string, o: nat, s: Scan)
    requires 1 <= o < |text| && ScanOk(text, o, s) && s.state == AwaitingAttribute && text[o] == '>'
    ensures ScanAttributes(text, o, s) == (o + 1, s.(state := InText, selfClosing := text[o - 1] == '/'))
  {
    ScanStepRules(text, o, s);
  }

  /** The attribute loop over ` x="v">`: `v` is stored under `x` and the tag
      is closed, not self-closing. */
  lemma OneAttributeScan(text: string, k: nat, x: string, q: char, v: string)
    requires 1 <= k && NameOk(x) && '=' !in x && IsQuote(q) && q !in v
    requires |text| == k + |x| + |v| + 5
    requires text[k] == ' ' && text[k + 1..k + 1 + |x|] == x && text[k + 1 + |x|] == '='
    requires text[k + 2 + |x|] == q && text[k + 3 + |x|..k + 3 + |x| + |v|] == v && text[k + 3 + |x| + |v|] == q
    requires text[k + 4 + |x| + |v|] == '>'
    ensures ScanAttributes(text, k, InitialScan)
         == (|text|, Scan(InText, x, k + 3 + |x|, q, [Attribute(x, Some(v))], false))
  {
    PairStored(text, k, InitialScan, x, q, v);
    assert [] + [Attribute(x, Some(v))] == [Attribute(x, Some(v))];
    assert text[k + 3 + |x| + |v|] != '/';
    CloseTag(text, k + 4 + |x| + |v|, Scan(AwaitingAttribute, x, k + 3 + |x|, q, [Attribute(x, Some(v))], false));
  }

  /** `<a x="v">`: one attribute, stored with its value, and the tag consumed. */
  lemma OneAttributeTag(name: string, x: string, q: char, v: string)
    requires ' ' !in name && '>' !in name && (|name| > 0 ==> name[0] != '?' && name[0] != '/')
    requires NameOk(x) && '=' !in x && IsQuote(q) && q !in v
    ensures var text := "<" + name + " " + x + "=" + [q] + v + [q] + ">";
      ReadStartTag(text, 0) == Read(Element(name, [Attribute(x, Some(v))], None, false), |text|, InText)
  {
    var text := "<" + name + " " + x + "=" + [q] + v + [q] + ">";
    var k := 1 + |name|;
    assert text[1..k] == name;
    assert text[k] == ' ';
    assert forall j :: 1 <= j < k ==> text[j] == name[j - 1];
    assert IndexOfAny(text, 1, {' ', '>'}) == k;
    assert text[k + 1..k + 1 + |x|] == x;
    assert text[k + 3 + |x|..k + 3 + |x| + |v|] == v;
    OneAttributeScan(text, k, x, q, v);
    assert Assign([Attribute(x, Some(v))]) == [Attribute(x, Some(v))];
  }

  /** Storing under a scannable name keeps every key scannable. */
  lemma NamesOfPut(attrs: seq<Attribute>, name: string, value: Option<string>)
    requires KeysOk(attrs) && NameOk(name)
    ensures KeysOk(Put(attrs, name, value))
  {
    var r := Put(attrs, name, value);
    PutNames(attrs, name, value);
    forall i | 0 <= i < |r| ensures NameOk(r[i].name) {
      assert Names(r)[i] == r[i].name;
      if ContainsKey(attrs, name) {
        assert Names(attrs)[i] == attrs[i].name;
      } else if i < |attrs| {
        assert (Names(attrs) + [name])[i] == attrs[i].name;
      } else {
        assert (Names(attrs) + [name])[i] == name;
      }
    }
  }

  /** The attribute loop as entered just after the tag name, on its space. */
  const InitialScan := Scan(AwaitingAttribute, "", 0, '\0', [], false)

  /** How a start tag leaves the reader: the tag is closed by the `>` just before
      the new offset, or the text is consumed; `CurrentAttribute` is set exactly
      in the three attribute states, and names, after `=`, a key stored as
      `null` and, inside a value, a key whose partial value ends the text right
      after its opening quote. */
  predicate TagEnd(text: string, r: Read)
    requires r.node.Element?
  {
    && 0 < r.offset <= |text|
    && r.state in {InText, InStartElement, AwaitingAttribute, InAttributeName, InAttributeEquals, InAttributeValue}
    && (r.state != InText ==> r.offset == |text|)
    && (r.state == InText ==> text[r.offset - 1] == '>')
    && (r.node.selfClosing ==> r.state == InText && 1 < r.offset && text[r.offset - 2] == '/')
    && KeysOk(r.node.attributes)
    && (r.node.currentAttribute.Some? <==> r.state in {InAttributeName, InAttributeEquals, InAttributeValue})
    && (r.state == InAttributeName ==>
          && NameOk(r.node.currentAttribute.value)
          && |r.node.currentAttribute.value| <= |text|
          && text[|text| - |r.node.currentAttribute.value|..] == r.node.currentAttribute.value)
    && (r.state == InAttributeEquals ==>
          Find(r.node.attributes, r.node.currentAttribute.value) == Some(None))
    && (r.state == InAttributeValue ==>
          var v := Find(r.node.attributes, r.node.currentAttribute.value);
          && v.Some? && v.value.Some?
          && |v.value.value| < |text|
          && text[|text| - |v.value.value|..] == v.value.value
          && IsQuote(text[|text| - |v.value.value| - 1]))
  }

  /** A slice taken between two scan positions holds none of the skipped characters. */
  lemma SliceAvoids(text: string, i: nat, j: nat, cs: set<char>)
    requires i <= j <= |text|
    requires forall k :: i <= k < j ==> text[k] !in cs
    ensures forall c :: c in text[i..j] ==> c !in cs
  {
    forall c | c in text[i..j] ensures c !in cs {
      var k :| 0 <= k < j - i && text[i..j][k] == c;
      assert text[i + k] == c;
    }
  }

  /** How a start tag's name ends: at the first space or `>`, before a `/`
      that directly precedes that `>`, or at the end of the text, where the
      caret is still in the tag. A tag closed by `>` or `/>` right after the
      name carries no attributes, is self-closing exactly after the `/`, and is
      consumed up to its `>`. */
  predicate NameEnds(text: string, offset: nat, r: Read)
    requires offset + 1 <= |text|
  {
    && r.node.Element?
    && var e := offset + 1 + |r.node.name|;
    && e <= |text| && text[offset + 1..e] == r.node.name
    && ' ' !in r.node.name && '>' !in r.node.name
    && (e == |text| || text[e] == ' ' || text[e] == '>' || (text[e] == '/' && e + 1 < |text| && text[e + 1] == '>'))
    && (e < |text| && text[e] == '>' ==> text[e - 1] != '/')
    && (e == |text| ==> r == Read(Element(r.node.name, [], None, false), |text|, InStartElement))
    && (e < |text| && text[e] != ' ' ==>
          && r.state == InText && r.node.attributes == [] && r.node.currentAttribute.None?
          && (r.node.selfClosing <==> text[e] == '/')
          && r.offset == (if text[e] == '/' then e + 2 else e + 1))
  }

  /** `<` followed by a name: the name ends as `NameEnds` says; after a space
      the attribute loop runs from that space. */
  function ReadStartTag(text: string, offset: nat): (r: Read)
    requires offset + 1 < |text| && text[offset] == '<'
    requires text[offset + 1] != '?' && text[offset + 1] != '/'
    ensures r.node.Element?
    ensures offset + 1 < r.offset
    ensures r.node.Element? && TagEnd(text, r)
    ensures NameEnds(text, offset, r)
    ensures var k := IndexOfAny(text, offset + 1, {' ', '>'});
      k < |text| && text[k] == ' ' ==> r == AttributeStartTag(text, offset, k)
  {
    var k := IndexOfAny(text, offset + 1, {' ', '>'});
    if k == |text| then OpenStartTag(text, offset)
    else if text[k] == '>' then ClosedStartTag(text, offset, k)
    else AttributeStartTag(text, offset, k)
  }

  /** A start tag with neither a space nor `>` after the `<`: all the rest of
      the text is the name, and the caret is still in it. */
  function OpenStartTag(text: string, offset: nat): (r: Read)
    requires offset + 1 < |text| && text[offset] == '<'
    requires forall j :: offset + 1 <= j < |text| ==> text[j] != ' ' && text[j] != '>'
    ensures r.node.Element? && offset + 1 + |r.node.name| == |text|
    ensures NameEnds(text, offset, r) && TagEnd(text, r)
  {
    SliceAvoids(text, offset + 1, |text|, {' ', '>'});
    Read(Element(text[offset + 1..], [], None, false), |text|, InStartElement)
  }

  /** A start tag whose name is followed by a space at `k`: the attribute loop
      runs from that space, and its stores fill the attribute bag. */
  function AttributeStartTag(text: string, offset: nat, k: nat): (r: Read)
    requires offset + 1 <= k < |text| && text[offset] == '<' && text[k] == ' '
    requires forall j :: offset + 1 <= j < k ==> text[j] != ' ' && text[j] != '>'
    ensures r.node.Element? && offset + 1 + |r.node.name| == k
    ensures NameEnds(text, offset, r) && TagEnd(text, r) && k < r.offset
    ensures var scan := ScanAttributes(text, k, InitialScan);
      r == FinishStartTag(text, text[offset + 1..k], scan.0, scan.1)
  {
    SliceAvoids(text, offset + 1, k, {' ', '>'});
    assert |text[offset + 1..k]| == k - offset - 1;
    var scan := ScanAttributes(text, k, InitialScan);
    FinishStartTag(text, text[offset + 1..k], scan.0, scan.1)
  }

  /** A start tag whose first space or `>` is the `>` at `k`. */
  function ClosedStartTag(text: string, offset: nat, k: nat): (r: Read)
    requires offset + 1 <= k < |text| && text[offset] == '<' && text[offset + 1] != '/' && text[k] == '>'
    requires forall j :: offset + 1 <= j < k ==> text[j] != ' ' && text[j] != '>'
    ensures r.node.Element? && offset + 1 + |r.node.name| < |text| && r.offset == k + 1
    ensures NameEnds(text, offset, r) && TagEnd(text, r)
  {
    var nameStart := offset + 1;
    var selfClosing := text[k - 1] == '/';
    var nameEnd := if selfClosing then k - 1 else k;
    SliceAvoids(text, nameStart, nameEnd, {' ', '>'});
    assert |text[nameStart..nameEnd]| == nameEnd - nameStart;
    Read(Element(text[nameStart..nameEnd], [], None, selfClosing), k + 1, InText)
  }

  /** Fills the attribute bag from the loop's stores and records the
      attribute left open at the end of the text. */
  function FinishStartTag(text: string, name: string, o: nat, s: Scan): (r: Read)
    requires 0 < o <= |text|
    requires s.state != InText ==> o == |text| && ScanOk(text, o, s)
    requires s.state == InText ==> text[o - 1] == '>' && Scannable(s.stores)
    requires s.selfClosing ==> s.state == InText && 1 < o && text[o - 2] == '/'
    ensures r.node.Element? && r.node.name == name && r.offset == o && r.state == s.state
    ensures TagEnd(text, r)
  {
    AssignedKeysOk(s.stores);
    var attrs := Assign(s.stores);
    if s.state == InAttributeValue then EndInValue(text, name, s, attrs)
    else if s.state == InAttributeEquals then EndInEquals(text, name, s, attrs)
    else if s.state == InAttributeName then EndInName(text, name, s, attrs)
    else Read(Element(name, attrs, None, s.selfClosing), o, s.state)
  }

  /** The finished tag's bag is the one the stores fill; only a value or `=`
      left open at the end of the text adds its own entry, under the current
      name. */
  lemma FinishedBag(text: string, name: string, o: nat, s: Scan)
    requires 0 < o <= |text|
    requires s.state != InText ==> o == |text| && ScanOk(text, o, s)
    requires s.state == InText ==> text[o - 1] == '>' && Scannable(s.stores)
    requires s.selfClosing ==> s.state == InText && 1 < o && text[o - 2] == '/'
    ensures var r := FinishStartTag(text, name, o, s);
            forall n :: n != s.name ==> Find(r.node.attributes, n) == Find(Assign(s.stores), n)
    ensures var r := FinishStartTag(text, name, o, s);
            !s.state.InAttributeValue? && !s.state.InAttributeEquals? ==> r.node.attributes == Assign(s.stores)
  {
  }

  /** Text ended inside a value: the partial value is stored and is current. */
  function EndInValue(text: string, name: string, s: Scan, attrs: seq<Attribute>): (r: Read)
    requires 0 < |text| && s.state == InAttributeValue && ScanOk(text, |text|, s) && KeysOk(attrs)
    ensures r.node.Element? && r.node.name == name && r.offset == |text| && r.state == s.state
    ensures TagEnd(text, r)
    ensures r.node.currentAttribute == Some(s.name) && !r.node.selfClosing
    ensures Find(r.node.attributes, s.name) == Some(Some(text[s.start..]))
    ensures forall n :: n != s.name ==> Find(r.node.attributes, n) == Find(attrs, n)
  {
    var value := text[s.start..];
    assert |value| == |text| - s.start;
    assert text[|text| - |value|..] == value;
    assert IsQuote(text[|text| - |value| - 1]);
    NamesOfPut(attrs, s.name, Some(value));
    var stored := Put(attrs, s.name, Some(value));
    assert Find(stored, s.name) == Some(Some(value));
    Read(Element(name, stored, Some(s.name), s.selfClosing), |text|, s.state)
  }

  /** Text ended just after `=`: the attribute is stored as `null` and is current. */
  function EndInEquals(text: string, name: string, s: Scan, attrs: seq<Attribute>): (r: Read)
    requires 0 < |text| && s.state == InAttributeEquals && ScanOk(text, |text|, s) && KeysOk(attrs)
    ensures r.node.Element? && r.node.name == name && r.offset == |text| && r.state == s.state
    ensures TagEnd(text, r)
    ensures r.node.currentAttribute == Some(s.name) && !r.node.selfClosing
    ensures Find(r.node.attributes, s.name) == Some(None)
    ensures forall n :: n != s.name ==> Find(r.node.attributes, n) == Find(attrs, n)
  {
    NamesOfPut(attrs, s.name, None);
    Read(Element(name, Put(attrs, s.name, None), Some(s.name), s.selfClosing), |text|, s.state)
  }

  /** Text ended inside a name: the typed name is current but nothing is stored. */
  function EndInName(text: string, name: string, s: Scan, attrs: seq<Attribute>): (r: Read)
    requires 0 < |text| && s.state == InAttributeName && ScanOk(text, |text|, s) && KeysOk(attrs)
    ensures r.node.Element? && r.node.name == name && r.offset == |text| && r.state == s.state
    ensures r.node.attributes == attrs
    ensures TagEnd(text, r)
    ensures r.node.currentAttribute == Some(text[s.start..]) && !r.node.selfClosing
  {
    var current := text[s.start..];
    assert text[|text| - |current|..] == current;
    Read(Element(name, attrs, Some(current), s.selfClosing), |text|, s.state)
  }

  // ---------------------------------------------------------------------------
  // Text and the step function

  /** Anything not starting with `<` is text: the non-empty run up to the next
      `<`, taken verbatim. The state is left as it was. */
  function ReadText(text: string, offset: nat, state: ReaderState): (r: Read)
    requires offset < |text| && text[offset] != '<'
    ensures r.node.Text? && r.state == state
    ensures offset < r.offset <= |text|
    ensures r.node.text == text[offset..r.offset]
    ensures '<' !in r.node.text
    ensures r.offset == |text| || text[r.offset] == '<'
  {
    var e := IndexOfAny(text, offset, {'<'});
    var t := text[offset..e];
    assert '<' !in t by {
      forall j | 0 <= j < |t| ensures t[j] != '<' { assert t[j] == text[offset + j]; }
    }
    Read(Text(t), e, state)
  }

  /** What the replay may rely on about the last node read and the state the
      reader was left in: the typed fragment it will replace lies within the
      text, and an attribute state names a live attribute of an element. */
  predicate Settled(text: string, node: Node, state: ReaderState) {
    && |text| > 0
    && (node.Element? ==> |node.name| <= |text|)
    && (node.Text? ==> |node.text| <= |text|)
    && (state in {InAttributeName, InAttributeEquals, InAttributeValue} ==> node.Element?)
    && (node.Element? ==>
          (node.currentAttribute.Some? <==> state in {InAttributeName, InAttributeEquals, InAttributeValue}))
    && (state == InAttributeName ==> |node.currentAttribute.value| <= |text|)
    && (state == InAttributeEquals ==> Find(node.attributes, node.currentAttribute.value) == Some(None))
    && (state == InAttributeValue ==>
          var v := Find(node.attributes, node.currentAttribute.value);
          && v.Some? && v.value.Some?
          && |v.value.value| < |text|
          && IsQuote(text[|text| - |v.value.value| - 1]))
  }

  /** Inside a value: the value typed so far, which follows its opening quote. */
  function TypedValue(text: string, node: Node): (v: string)
    requires Settled(text, node, InAttributeValue)
    ensures Find(node.attributes, node.currentAttribute.value) == Some(Some(v))
    ensures |v| < |text| && IsQuote(text[|text| - |v| - 1])
  {
    Find(node.attributes, node.currentAttribute.value).value.value
  }

  /** `PartialXmlReader.TryRead`: nothing once the offset reaches the end of the
      text; otherwise one node, consuming at least one character and never
      passing the end. A lone `<` at the end is a start tag with an empty name;
      any other `<` is read as `ReadMarkup` says, anything else as text. */
  function TryRead(text: string, offset: nat, state: ReaderState): (r: Option<Read>)
    requires offset <= |text|
    ensures r.None? <==> offset == |text|
    ensures r.Some? ==> offset < r.value.offset <= |text|
    ensures r.Some? ==> Settled(text, r.value.node, r.value.state) || r.value.node.Text?
    ensures r.Some? && r.value.node.Text? ==>
              r.value.state == state && r.value.node.text == text[offset..r.value.offset]
              && |r.value.node.text| > 0 && '<' !in r.value.node.text
    ensures r.Some? && !r.value.node.Text? ==>
              text[offset] == '<' && (r.value.state != InText ==> r.value.offset == |text|)
    ensures offset + 1 == |text| && text[offset] == '<' ==>
              r == Some(Read(Element("", [], None, false), |text|, InStartElement))
    ensures offset < |text| && text[offset] != '<' ==> r == Some(ReadText(text, offset, state))
    ensures offset < |text| && text[offset] == '<' ==> r == Some(ReadMarkup(text, offset))
  {
    if offset == |text| then None
    else if text[offset] == '<' then Some(ReadMarkup(text, offset))
    else Some(ReadText(text, offset, state))
  }

  /** `<`: the reader the next character selects. */
  function ReadMarkup(text: string, offset: nat): (r: Read)
    requires offset < |text| && text[offset] == '<'
    ensures offset < r.offset <= |text| && !r.node.Text?
    ensures Settled(text, r.node, r.state)
    ensures r.state != InText ==> r.offset == |text|
    ensures offset + 1 == |text| ==> r == Read(Element("", [], None, false), |text|, InStartElement)
    ensures offset + 1 < |text| && text[offset + 1] == '?' ==> r == ReadProcessingInstruction(text, offset)
    ensures offset + 1 < |text| && text[offset + 1] == '/' ==> r == ReadEndTag(text, offset)
    ensures offset + 1 < |text| && text[offset + 1] != '?' && text[offset + 1] != '/' ==> r == ReadStartTag(text, offset)
  {
    if offset + 1 == |text| then Read(Element("", [], None, false), |text|, InStartElement)
    else if text[offset + 1] == '?' then ReadProcessingInstruction(text, offset)
    else if text[offset + 1] == '/' then ReadEndTag(text, offset)
    else ReadStartTag(text, offset)
  }
}

=== FILE: replay.dfy ===
/** The replay loop of `Autocomplete.GetSuggestions` (in
    MarkMpn.XmlSchemaAutoComplete/Autocomplete.cs): every token the lenient
    reader yields is matched against the schema, maintaining a stack of open
    elements and a validity flag. A token is identified by the offset at which
    it starts, which stands for the reference identity `node == firstElement`. */
module Replay {
  import opened Wrappers
  import opened Strings
  import opened Nodes
  import opened Reader
  import opened Schema
  import opened Matching

  /** The replay state: the open elements (innermost last), the start offset of
      the first element token, and whether the document still matches. */
  datatype Replay = Replay(stack: seq<ElementState>, first: Option<nat>, valid: bool)

  const Initial := Replay([], None, true)

  /** The effect of one token: carry on, or give up with no suggestions. */
  datatype Applied = Continue(replay: Replay) | Abort

  /** A token: the node and the offset at which it starts. */
  datatype Token = Token(node: Node, start: nat)

  function Top(stack: seq<ElementState>): ElementState
    requires |stack| > 0
  {
    stack[|stack| - 1]
  }

  function Pop(stack: seq<ElementState>): seq<ElementState>
    requires |stack| > 0
  {
    stack[..|stack| - 1]
  }

  /** What the replay keeps true of an open element: its declaration resolves;
      if its type has sequence content, the counters keep `CountsInv` and the
      sequence has not repeated past its `maxOccurs`; if its type has choice
      content, the repeat count is still zero (nothing increments it). */
  predicate StateOk(s: Schema, st: ElementState) {
    && DeclOk(s, st.decl)
    && match s.types[st.decl.typeId]
       case ComplexType(_, SequenceContent(items, max), _, _, _, _) => CountsInv(items, st) && max.Allows(st.repeat)
       case ComplexType(_, ChoiceContent(_), _, _, _, _) => st.repeat == 0
       case _ => true
  }

  predicate StackOk(s: Schema, stack: seq<ElementState>) {
    forall i :: 0 <= i < |stack| ==> StateOk(s, stack[i])
  }

  /** The first global element named exactly `name`. */
  function FindGlobal(globals: seq<ElementDecl>, name: string): (r: Option<ElementDecl>)
    ensures r.Some? ==> r.value in globals && r.value.name == name
    ensures r.Some? ==> exists k :: 0 <= k < |globals| && globals[k] == r.value
                           && forall j :: 0 <= j < k ==> globals[j].name != name
    ensures r.None? <==> forall j :: 0 <= j < |globals| ==> globals[j].name != name
  {
    if |globals| == 0 then None
    else if globals[0].name == name then Some(globals[0])
    else
      var r := FindGlobal(globals[1..], name);
      if r.Some? then
        var k :| 0 <= k < |globals[1..]| && globals[1..][k] == r.value
                 && forall j :: 0 <= j < k ==> globals[1..][j].name != name;
        assert globals[k + 1] == r.value;
        r
      else r
  }

  /** The first element of the document opens the root if a
      global element has its name; otherwise the replay becomes invalid. A
      self-closing root stays open. */
  function OpenRoot(s: Schema, rep: Replay, name: string, attributes: seq<Attribute>): (r: Replay)
    requires WellFormed(s) && |rep.stack| == 0
    ensures r.first == rep.first
    ensures FindGlobal(s.globals, name).Some? ==>
              r.valid == rep.valid && |r.stack| == 1
              && r.stack[0] == NewState(FindGlobal(s.globals, name).value, name, attributes)
    ensures FindGlobal(s.globals, name).None? ==> !r.valid && r.stack == []
    ensures StackOk(s, r.stack)
  {
    match FindGlobal(s.globals, name)
    case Some(d) =>
      rep.(stack := [NewState(d, name, attributes)])
    case None => rep.(valid := false)
  }

  /** An end tag closes the innermost element when the names
      agree. A mismatch while the end tag is still being typed only marks the
      replay invalid; a mismatch of a finished end tag, or an end tag with
      nothing open, gives up. */
  function CloseElement(rep: Replay, name: string, state: ReaderState): (r: Applied)
    ensures r.Abort? <==> |rep.stack| == 0 || (Top(rep.stack).decl.name != name && state != InEndElement)
    ensures r.Continue? && Top(rep.stack).decl.name == name ==>
              r.replay == rep.(stack := Pop(rep.stack))
    ensures r.Continue? && Top(rep.stack).decl.name != name ==>
              r.replay == rep.(valid := false)
  {
    if |rep.stack| == 0 then Abort
    else if Top(rep.stack).decl.name != name then
      if state == InEndElement then Continue(rep.(valid := false)) else Abort
    else Continue(rep.(stack := Pop(rep.stack)))
  }

  /** Whether a content model is one the replay can match children against. */
  predicate Matchable(s: Schema, st: ElementState)
    requires DeclOk(s, st.decl)
  {
    var t := s.types[st.decl.typeId];
    t.ComplexType? && !t.content.OtherContent?
  }

  lemma StackOkAppend(s: Schema, stack: seq<ElementState>, more: seq<ElementState>)
    requires StackOk(s, stack) && StackOk(s, more)
    ensures StackOk(s, stack + more)
  {
    assert forall i :: 0 <= i < |stack + more| ==>
             (stack + more)[i] == if i < |stack| then stack[i] else more[i - |stack|];
  }

  lemma NewStateOk(s: Schema, d: ElementDecl, name: string, attributes: seq<Attribute>)
    requires WellFormed(s) && DeclOk(s, d)
    ensures StateOk(s, NewState(d, name, attributes))
  {
    var t := s.types[d.typeId];
    assert TypeOk(s, t);
    if t.ComplexType? && t.content.SequenceContent? {
      RestartKeepsCounts(s, t.content.items, NewState(d, name, attributes).(repeat := 0));
      assert Restart(NewState(d, name, attributes).(repeat := 0)).(repeat := 0) == NewState(d, name, attributes);
    }
  }

  lemma PushedOk(s: Schema, child: Option<ElementDecl>, name: string, attributes: seq<Attribute>)
    requires WellFormed(s) && (child.Some? ==> DeclOk(s, child.value))
    ensures StackOk(s, if child.Some? then [NewState(child.value, name, attributes)] else [])
  {
    if child.Some? {
      NewStateOk(s, child.value, name, attributes);
    }
  }

  /** The parent's state after the child `name` is matched against its
      sequence or choice, the declaration pushed for the child, and whether the
      replay stays valid (before the self-closing pop). */
  datatype ChildMatch = ChildMatch(parent: ElementState, child: Option<ElementDecl>, valid: bool)

  function MatchChild(s: Schema, st: ElementState, name: string, typing: bool): (r: ChildMatch)
    requires WellFormed(s) && StateOk(s, st) && Matchable(s, st)
    ensures StateOk(s, r.parent)
    ensures r.parent.decl == st.decl && r.parent.shadow == st.shadow
    ensures r.child.Some? ==> r.child.value.name == name && DeclOk(s, r.child.value)
    ensures r.child.None? && !typing ==> !r.valid
    ensures r.child.None? && typing ==> r.parent == st
  {
    var t := s.types[st.decl.typeId];
    assert TypeOk(s, t);
    match t.content
    case SequenceContent(items, max) =>
      var m := MatchSequence(s, items, max, st, name, typing);
      FoundInSequence(s, items, max, st, name, typing);
      ChildMatch(m.state, m.found, !m.invalid)
    case ChoiceContent(c) =>
      var found := MatchChoice(c.items, name);
      assert found.Some? ==> DeclOk(s, found.value);
      ChildMatch(st, found, found.Some?)
  }

  /** The declaration a sequence match yields is one of its particles' own. */
  lemma FoundInSequence(s: Schema, items: seq<Particle>, max: Bound, st: ElementState, name: string, typing: bool)
    requires ParticlesOk(s, items) && CountsInv(items, st)
    ensures RepeatLoop(s, items, max, st, name, typing).found.Some? ==>
              DeclOk(s, RepeatLoop(s, items, max, st, name, typing).found.value)
    decreases Budget(max, st)
  {
    if max.Below(st.repeat) {
      var pass := ScanPass(items, st.counts, name, st.next);
      if pass.found.Some? {
        var k := pass.found.value.0;
        assert ParticleOk(s, items[k]);
        match items[k]
        case ElementParticle(e) =>
        case ChoiceParticle(c) =>
          assert ChoiceOk(s, c);
        case OtherParticle(_, _) =>
      } else if !typing && !(max.Unbounded? && st.next == 0) {
        RestartKeepsCounts(s, items, st);
        FoundInSequence(s, items, max, Restart(st), name, typing);
      }
    }
  }

  /** A start tag below the root. It gives up when nothing is open
      or the innermost element cannot have element children; otherwise the child
      is matched, pushed when found, and popped again at once when the tag is
      self-closing and the replay is still valid (whatever is then on top). */
  function OpenChild(s: Schema, rep: Replay, name: string, attributes: seq<Attribute>, selfClosing: bool, state: ReaderState): (r: Applied)
    requires WellFormed(s) && StackOk(s, rep.stack)
    ensures r.Abort? <==> |rep.stack| == 0 || !Matchable(s, Top(rep.stack))
    ensures r.Continue? ==> StackOk(s, r.replay.stack) && r.replay.first == rep.first
    ensures r.Continue? ==> |r.replay.stack| > 0 ==> Pop(rep.stack) <= r.replay.stack
    ensures r.Continue? && r.replay.valid && state != InStartElement ==>
              |r.replay.stack| == |rep.stack| + (if selfClosing then 0 else 1)
    ensures r.Continue? && r.replay.valid && state != InStartElement && !selfClosing ==>
              Top(r.replay.stack).decl.name == name && Top(r.replay.stack).shadow == ShadowElement(name, attributes)
              && Top(r.replay.stack).counts == map[] && Top(r.replay.stack).next == 0
    ensures r.Continue? && state == InStartElement && !selfClosing ==>
              |rep.stack| <= |r.replay.stack| <= |rep.stack| + 1
  {
    if |rep.stack| == 0 then Abort
    else
      var st := Top(rep.stack);
      assert StateOk(s, st);
      if !Matchable(s, st) then Abort
      else
        var m := MatchChild(s, st, name, state == InStartElement);
        var pushed := if m.child.Some? then [NewState(m.child.value, name, attributes)] else [];
        PushedOk(s, m.child, name, attributes);
        var stack := Pop(rep.stack) + [m.parent] + pushed;
        StackOkAppend(s, Pop(rep.stack), [m.parent]);
        StackOkAppend(s, Pop(rep.stack) + [m.parent], pushed);
        assert Pop(rep.stack) <= stack;
        if m.valid && selfClosing then
          assert Pop(rep.stack) <= Pop(stack);
          Continue(Replay(Pop(stack), rep.first, m.valid))
        else Continue(Replay(stack, rep.first, m.valid))
  }

  /** One iteration of the `while` loop for a token that starts
      at `start`, given the reader's state after it. Processing instructions and
      white-space text change nothing; any other token after the replay became
      invalid gives up. */
  function Apply(s: Schema, token: Token, state: ReaderState, rep: Replay): (r: Applied)
    requires WellFormed(s) && StackOk(s, rep.stack)
    ensures token.node.ProcessingInstruction? || (token.node.Text? && AllWhiteSpace(token.node.text)) ==>
              r == Continue(rep)
    ensures !rep.valid && !token.node.ProcessingInstruction? && !(token.node.Text? && AllWhiteSpace(token.node.text)) ==>
              r.Abort?
    ensures r.Continue? ==> StackOk(s, r.replay.stack)
    ensures r.Continue? && token.node.Element? ==>
              r.replay.first == if rep.first.None? then Some(token.start) else rep.first
    ensures r.Continue? && !token.node.Element? ==> r.replay.first == rep.first
    ensures token.node.Text? && !AllWhiteSpace(token.node.text) && rep.valid ==> r == Continue(rep)
    ensures rep.valid && token.node.Element? && rep.first.None? && |rep.stack| == 0 ==>
              r.Continue? && r.replay.stack == OpenRoot(s, rep, token.node.name, token.node.attributes).stack
  {
    var node := token.node;
    if node.ProcessingInstruction? then Continue(rep)
    else if node.Text? && AllWhiteSpace(node.text) then Continue(rep)
    else if !rep.valid then Abort
    else
      var first := if rep.first.None? && node.Element? then Some(token.start) else rep.first;
      var rep1 := rep.(first := first);
      if |rep.stack| == 0 && node.Element? && first == Some(token.start) then
        Continue(OpenRoot(s, rep1, node.name, node.attributes))
      else
        match node
        case EndElement(name) => CloseElement(rep1, name, state)
        case Element(name, attributes, _, selfClosing) => OpenChild(s, rep1, name, attributes, selfClosing, state)
        case _ => Continue(rep1)
  }

  /** The end of the replay: given up, or the final replay state with the last
      token read (white space and processing instructions included) and the
      reader's final state. */
  datatype Run = Aborted | Finished(replay: Replay, last: Option<Token>, state: ReaderState)

  /** What the completion step may rely on about the last token. */
  predicate LastOk(text: string, last: Option<Token>, state: ReaderState) {
    last.Some? ==>
      && last.value.start < |text|
      && (last.value.node.Text? ==> |last.value.node.text| <= |text|)
      && (!last.value.node.Text? ==> Settled(text, last.value.node, state))
  }

  /** Reads and replays tokens from `offset` until the text is exhausted. */
  function Fold(s: Schema, text: string, offset: nat, state: ReaderState, rep: Replay, last: Option<Token>): (r: Run)
    requires WellFormed(s) && StackOk(s, rep.stack) && offset <= |text|
    requires LastOk(text, last, state)
    requires offset == 0 <==> last.None?
    requires last.Some? && last.value.node.Element? ==> rep.first.Some?
    ensures r.Finished? ==> StackOk(s, r.replay.stack) && LastOk(text, r.last, r.state)
    ensures r.Finished? ==> (r.last.None? <==> |text| == 0)
    ensures r.Finished? && r.last.Some? && r.last.value.node.Element? ==> r.replay.first.Some?
    ensures r.Finished? && rep.first.Some? ==> r.replay.first == rep.first
    decreases |text| - offset
  {
    match TryRead(text, offset, state)
    case None => Finished(rep, last, state)
    case Some(read) =>
      var token := Token(read.node, offset);
      match Apply(s, token, read.state, rep)
      case Abort => Aborted
      case Continue(rep') =>
        assert read.node.Text? ==> |read.node.text| <= |text|;
        Fold(s, text, read.offset, read.state, rep', Some(token))
  }

  /** The whole replay of `text` from the reader's initial state. */
  function ReplayText(s: Schema, text: string): (r: Run)
    requires WellFormed(s)
    ensures r.Finished? ==> StackOk(s, r.replay.stack) && LastOk(text, r.last, r.state)
    ensures r.Finished? ==> (r.last.None? <==> |text| == 0)
  {
    Fold(s, text, 0, BOF, Initial, None)
  }
}

=== FILE: scenarios.dfy ===
/** Whole calls of `Autocomplete.GetSuggestions` on families of inputs: the
    reader, the replay and the completion step composed, as a user of the
    editor control sees them. */
module Scenarios {
  import opened Wrappers
  import opened Strings
  import opened Nodes
  import opened Reader
  import opened Schema
  import opened Suggestions
  import opened Matching
  import opened Replay
  import opened Completion

  /** A start-tag name the reader takes whole: no space or `>` ends it early,
      and it does not turn the tag into a processing instruction or end tag. */
  predicate PlainName(p: string) {
    && ' ' !in p && '>' !in p
    && (|p| > 0 ==> p[0] != '?' && p[0] != '/')
  }

  /** A replay that finishes with a last token hands over to the completion step. */
  lemma CompletesAfter(cfg: Config, text: string, rep: Replay, last: Token, state: ReaderState)
    requires WellFormed(cfg.schema)
    requires ReplayText(cfg.schema, text) == Finished(rep, Some(last), state)
    ensures StackOk(cfg.schema, rep.stack) && LastOk(text, Some(last), state)
    ensures GetSuggestions(cfg, text) == Complete(cfg, text, rep, last, state)
  {
  }

  /** The reader takes `<p` as one unfinished start tag named `p`. */
  lemma {:induction false} ReadOpenTag(p: string)
    requires PlainName(p)
    ensures TryRead("<" + p, 0, BOF) == Some(Read(Element(p, [], None, false), |p| + 1, InStartElement))
  {
    var text := "<" + p;
    if |p| > 0 {
      assert text[1] == p[0];
      assert forall j :: 1 <= j < |text| ==> text[j] == p[j - 1];
      assert text[1..] == p;
    } else {
      assert |text| == 1 && text[0] == '<';
    }
  }

  /** Typing `<` and the start of a name at the top of the document offers
      exactly the global elements with that prefix, in schema order, and
      replaces the typed name, whether or not a global has that name yet. */
  lemma {:induction false} RootNameCompletion(cfg: Config, p: string)
    requires WellFormed(cfg.schema) && PlainName(p)
    ensures var r := GetSuggestions(cfg, "<" + p);
            var root := RootSuggestions(cfg.schema, p);
            && (r.Failure? <==> root.Failure?)
            && (r.Success? ==> r.value == Completion(root.value, |p|))
  {
    var text := "<" + p;
    ReadOpenTag(p);
    var node := Element(p, [], None, false);
    var rep := OpenRoot(cfg.schema, Initial.(first := Some(0)), p, []);
    assert Apply(cfg.schema, Token(node, 0), InStartElement, Initial) == Continue(rep);
    assert Fold(cfg.schema, text, |text|, InStartElement, rep, Some(Token(node, 0)))
        == Finished(rep, Some(Token(node, 0)), InStartElement);
    assert ReplayText(cfg.schema, text) == Finished(rep, Some(Token(node, 0)), InStartElement);
    assert rep.first == Some(0);
  }

  /** `<p ` with no global element named `p`: the root is not found, so the
      replay finishes invalid with nothing open, waiting for an attribute. */
  lemma {:induction false} UnknownRootAwaitingAttribute(s: Schema, p: string)
    requires WellFormed(s) && PlainName(p) && FindGlobal(s.globals, p).None?
    ensures ReplayText(s, "<" + p + " ")
         == Finished(Replay([], Some(0), false), Some(Token(Element(p, [], None, false), 0)), AwaitingAttribute)
  {
    var text := "<" + p + " ";
    var a := |p| + 1;
    assert text[a] == ' ';
    assert forall j :: 1 <= j < a ==> text[j] == p[j - 1];
    assert IndexOfAny(text, 1, {' ', '>'}) == a;
    assert ScanStep(text, a, InitialScan) == Next(InitialScan);
    assert ScanAttributes(text, a, InitialScan) == (|text|, InitialScan);
    assert text[1..a] == p;
    var node := Element(p, [], None, false);
    assert TryRead(text, 0, BOF) == Some(Read(node, |text|, AwaitingAttribute));
    var rep := Replay([], Some(0), false);
    assert Apply(s, Token(node, 0), AwaitingAttribute, Initial) == Continue(rep);
    assert Fold(s, text, |text|, AwaitingAttribute, rep, Some(Token(node, 0)))
        == Finished(rep, Some(Token(node, 0)), AwaitingAttribute);
  }

  /** The source as written on `<p `: the attribute step peeks an empty stack
      and reads `IsNillable` of the missing element. */
  lemma UnknownRootAttributesAsWritten(cfg: Config, p: string)
    requires WellFormed(cfg.schema) && PlainName(p) && FindGlobal(cfg.schema.globals, p).None?
    ensures var run := ReplayText(cfg.schema, "<" + p + " ");
            && run.Finished? && run.state == AwaitingAttribute && run.replay.stack == []
            && AttributeCandidatesAsWritten(cfg, run.replay.stack, run.replay.first == Some(0)) == Failure(NullReference)
  {
    UnknownRootAwaitingAttribute(cfg.schema, p);
  }

  /** With the missing element guarded, `<p ` for an unknown `p` offers at most
      `xmlns:xsi`: exactly when `UsesXsi` is set and the schema has a complex
      type. */
  lemma UnknownRootAttributes(cfg: Config, p: string)
    requires WellFormed(cfg.schema) && PlainName(p) && FindGlobal(cfg.schema.globals, p).None?
    ensures var r := GetSuggestions(cfg, "<" + p + " ");
            && r.Success? && r.value.length == 0
            && (forall sg :: sg in r.value.suggestions ==> sg == XmlnsXsi)
            && (XmlnsXsi in r.value.suggestions <==> cfg.usesXsi && AnyComplexType(cfg.schema))
  {
    UnknownRootAwaitingAttribute(cfg.schema, p);
    var text := "<" + p + " ";
    var node := Element(p, [], None, false);
    var rep := Replay([], Some(0), false);
    assert IsWhiteSpace(text[|text| - 1]);
    var specials := Specials(cfg, None, true);
    assert Complete(cfg, text, rep, Token(node, 0), AwaitingAttribute)
        == Success(Completion(AttributeNames(specials, "", []), 0));
    assert AttributeNames(specials, "", []) == specials by {
      assert forall sg :: sg in specials ==> sg.AttributeSuggestion? && StartsWith(sg.name, "") && !ContainsKey([], sg.name);
      assert forall sg :: sg in AttributeNames(specials, "", []) <==> sg in specials;
      assert |specials| <= 1;
    }
  }

  /** ` xsi:type="` is written at offset `a` and ends the text. */
  predicate TypeAttributeAt(text: string, a: nat) {
    && 1 <= a && |text| == a + 11
    && text[a] == ' ' && text[a + 1] == 'x' && text[a + 2] == 's' && text[a + 3] == 'i'
    && text[a + 4] == ':' && text[a + 5] == 't' && text[a + 6] == 'y' && text[a + 7] == 'p'
    && text[a + 8] == 'e' && text[a + 9] == '=' && text[a + 10] == '"'
  }

  /** The attribute name as started at `a + 1`. */
  function TypeName(a: nat): Scan {
    InitialScan.(start := a + 1, state := InAttributeName)
  }

  /** The loop over ` xsi:` enters the attribute name. */
  lemma ScanTypeHead(text: string, a: nat)
    requires TypeAttributeAt(text, a)
    ensures ScanOk(text, a + 5, TypeName(a))
    ensures ScanAttributes(text, a, InitialScan) == ScanAttributes(text, a + 5, TypeName(a))
  {
    SkipSpace(text, a, InitialScan);
    StartName(text, a + 1, InitialScan);
    ExtendName(text, a + 2, TypeName(a));
    ExtendName(text, a + 3, TypeName(a));
    ExtendName(text, a + 4, TypeName(a));
  }

  /** The loop over `type` stays in the attribute name. */
  lemma ScanTypeRest(text: string, a: nat)
    requires TypeAttributeAt(text, a) && ScanOk(text, a + 5, TypeName(a))
    ensures ScanOk(text, a + 9, TypeName(a))
    ensures ScanAttributes(text, a + 5, TypeName(a)) == ScanAttributes(text, a + 9, TypeName(a))
  {
    ExtendName(text, a + 5, TypeName(a));
    ExtendName(text, a + 6, TypeName(a));
    ExtendName(text, a + 7, TypeName(a));
    ExtendName(text, a + 8, TypeName(a));
  }

  /** The loop over `="` stores the name `xsi:type` and opens the value. */
  lemma ScanTypeValue(text: string, a: nat)
    requires TypeAttributeAt(text, a) && ScanOk(text, a + 9, TypeName(a))
    ensures ScanAttributes(text, a + 9, TypeName(a))
         == (|text|, Scan(InAttributeValue, "xsi:type", |text|, '"', [], false))
  {
    var inEquals := TypeName(a).(name := "xsi:type", state := InAttributeEquals);
    assert text[a + 1..a + 9] == "xsi:type";
    EndName(text, a + 9, TypeName(a));
    OpenValue(text, a + 10, inEquals);
  }

  /** The attribute loop over ` xsi:type="` at offset `a`: the name is
      stored and the value is left open, empty, just after its quote. */
  lemma ScanTypeAttribute(text: string, a: nat)
    requires TypeAttributeAt(text, a)
    ensures ScanAttributes(text, a, InitialScan)
         == (|text|, Scan(InAttributeValue, "xsi:type", |text|, '"', [], false))
  {
    ScanTypeHead(text, a);
    ScanTypeRest(text, a);
    ScanTypeValue(text, a);
  }

  /** Where ` xsi:type="` sits in `<p xsi:type="`. */
  lemma TypeAttributeAfter(p: string)
    ensures TypeAttributeAt("<" + p + " xsi:type=\"", |p| + 1)
  {
    var text := "<" + p + " xsi:type=\"";
    var suffix := " xsi:type=\"";
    assert forall j :: 0 <= j < |suffix| ==> text[|p| + 1 + j] == suffix[j];
  }

  /** The reader takes `<p xsi:type="` as one start tag named `p`, inside the
      empty value of `xsi:type`. */
  lemma ReadTypeAttributeTag(p: string)
    requires PlainName(p)
    ensures TryRead("<" + p + " xsi:type=\"", 0, BOF)
         == Some(Read(Element(p, [Attribute("xsi:type", Some(""))], Some("xsi:type"), false), |p| + 12, InAttributeValue))
  {
    var text := "<" + p + " xsi:type=\"";
    var a := |p| + 1;
    TypeAttributeAfter(p);
    assert forall j :: 1 <= j < a ==> text[j] == p[j - 1];
    assert IndexOfAny(text, 1, {' ', '>'}) == a;
    ScanTypeAttribute(text, a);
    assert text[1..a] == p;
    assert text[|text|..] == "";
  }

  /** `<p xsi:type="` with no global element named `p`: the replay finishes
      invalid with nothing open, inside the empty value of `xsi:type`. */
  lemma {:induction false} UnknownRootTypeValue(s: Schema, p: string)
    requires WellFormed(s) && PlainName(p) && FindGlobal(s.globals, p).None?
    ensures var run := ReplayText(s, "<" + p + " xsi:type=\"");
            && run.Finished? && run.state == InAttributeValue && run.replay.stack == []
            && run.last == Some(Token(Element(p, [Attribute("xsi:type", Some(""))], Some("xsi:type"), false), 0))
  {
    var text := "<" + p + " xsi:type=\"";
    ReadTypeAttributeTag(p);
    var node := Element(p, [Attribute("xsi:type", Some(""))], Some("xsi:type"), false);
    var rep := Replay([], Some(0), false);
    assert Apply(s, Token(node, 0), InAttributeValue, Initial) == Continue(rep);
    assert Fold(s, text, |text|, InAttributeValue, rep, Some(Token(node, 0)))
        == Finished(rep, Some(Token(node, 0)), InAttributeValue);
  }

  /** The source as written on `<p xsi:type="`: listing the derived types
      compares each complex type's base with the type of the missing element. */
  lemma UnknownRootTypeValuesAsWritten(s: Schema, p: string)
    requires WellFormed(s) && PlainName(p) && FindGlobal(s.globals, p).None? && AnyComplexType(s)
    ensures var run := ReplayText(s, "<" + p + " xsi:type=\"");
            && run.Finished? && run.replay.stack == []
            && TypeValuesAsWritten(s, run.replay.stack) == Failure(NullReference)
  {
    UnknownRootTypeValue(s, p);
  }

  /** With the missing element guarded, `<p xsi:type="` for an unknown `p`
      offers nothing and fails nothing. */
  lemma UnknownRootTypeValues(cfg: Config, p: string)
    requires WellFormed(cfg.schema) && PlainName(p) && FindGlobal(cfg.schema.globals, p).None?
    ensures GetSuggestions(cfg, "<" + p + " xsi:type=\"") == Success(Completion([], 0))
  {
    UnknownRootTypeValue(cfg.schema, p);
  }

  /** The state the replay opens for the root `d`, typed `name`. */
  function RootOpened(s: Schema, d: ElementDecl, name: string): (st: ElementState)
    requires WellFormed(s) && DeclOk(s, d)
    ensures StateOk(s, st) && st.decl == d && st.counts == map[] && st.next == 0 && st.repeat == 0
  {
    NewStateOk(s, d, name, []);
    NewState(d, name, [])
  }

  /** `<r>` closed by `>` with no attributes and no self-closing slash. */
  lemma ReadRootTag(text: string, r: string)
    requires PlainName(r) && |r| > 0 && r[|r| - 1] != '/'
    requires |text| > |r| + 1 && text[..|r| + 2] == "<" + r + ">"
    ensures TryRead(text, 0, BOF) == Some(Read(Element(r, [], None, false), |r| + 2, InText))
  {
    assert forall j :: 1 <= j < |r| + 1 ==> text[j] == r[j - 1];
    assert text[|r| + 1] == '>' && text[|r|] == r[|r| - 1];
    assert IndexOfAny(text, 1, {' ', '>'}) == |r| + 1;
    assert text[1..|r| + 1] == r;
  }

  /** The replay of `<r><`: the root is open, untouched by the child tag whose
      name is not typed yet, and the reader is in that tag's name. */
  lemma {:induction false} ReplayRootThenOpen(s: Schema, r: string, d: ElementDecl)
    requires WellFormed(s) && PlainName(r) && |r| > 0 && r[|r| - 1] != '/'
    requires FindGlobal(s.globals, r) == Some(d) && DeclOk(s, d)
    requires Matchable(s, RootOpened(s, d, r))
    ensures var st := RootOpened(s, d, r);
            ReplayText(s, "<" + r + "><")
              == Finished(Replay([st], Some(0), MatchChild(s, st, "", true).valid),
                          Some(Token(Element("", [], None, false), |r| + 2)), InStartElement)
  {
    var text := "<" + r + "><";
    assert text[..|r| + 2] == "<" + r + ">";
    ReadRootTag(text, r);
    var root := Element(r, [], None, false);
    var st := RootOpened(s, d, r);
    var rep1 := Replay([st], Some(0), true);
    assert Apply(s, Token(root, 0), InText, Initial) == Continue(rep1);
    var child := Element("", [], None, false);
    assert TryRead(text, |r| + 2, InText) == Some(Read(child, |text|, InStartElement));
    var m := MatchChild(s, st, "", true);
    assert m.child.None? && m.parent == st;
    var rep2 := Replay([st], Some(0), m.valid);
    assert Apply(s, Token(child, |r| + 2), InStartElement, rep1) == Continue(rep2);
    assert Fold(s, text, |text|, InStartElement, rep2, Some(Token(child, |r| + 2)))
        == Finished(rep2, Some(Token(child, |r| + 2)), InStartElement);
    assert Fold(s, text, |r| + 2, InText, rep1, Some(Token(root, 0)))
        == Finished(rep2, Some(Token(child, |r| + 2)), InStartElement);
  }

  /** With the caret in a start tag's name, completion lists element names. */
  lemma InStartTag(cfg: Config, text: string, rep: Replay, last: Token)
    requires WellFormed(cfg.schema) && StackOk(cfg.schema, rep.stack)
    requires last.node.Element? && LastOk(text, Some(last), InStartElement)
    ensures Complete(cfg, text, rep, last, InStartElement)
         == StartTagCompletion(cfg, rep, rep.first == Some(last.start), last.node.name)
  {
    assert ElementCompletion(cfg, text, rep, last, InStartElement)
        == StartTagCompletion(cfg, rep, rep.first == Some(last.start), last.node.name);
  }

  /** Completing an empty child tag name below the one open element `st`
      lists what `st` offers. */
  lemma EmptyChildName(cfg: Config, text: string, rep: Replay, last: Token, st: ElementState)
    requires WellFormed(cfg.schema) && StateOk(cfg.schema, st) && rep.stack == [st]
    requires last.node == Element("", [], None, false) && LastOk(text, Some(last), InStartElement)
    requires rep.first != Some(last.start)
    ensures var offered := ChildSuggestions(cfg.schema, st, "");
            Complete(cfg, text, rep, last, InStartElement)
              == if offered.Failure? then Failure(offered.error) else Success(Completion(offered.value, 0))
  {
    InStartTag(cfg, text, rep, last);
  }

  /** Opening a tag right after the root `<r>`, with no name typed yet, lists
      the root's possible children (and its end tag, when it may close),
      replacing nothing. The source's tests expect `<MyDoc><` to offer the
      children of `MyDoc`. */
  lemma ChildListAfterRoot(cfg: Config, r: string, d: ElementDecl)
    requires WellFormed(cfg.schema) && PlainName(r) && |r| > 0 && r[|r| - 1] != '/'
    requires FindGlobal(cfg.schema.globals, r) == Some(d) && DeclOk(cfg.schema, d)
    requires Matchable(cfg.schema, RootOpened(cfg.schema, d, r))
    ensures var offered := ChildSuggestions(cfg.schema, RootOpened(cfg.schema, d, r), "");
            GetSuggestions(cfg, "<" + r + "><")
              == if offered.Failure? then Failure(offered.error) else Success(Completion(offered.value, 0))
  {
    var st := RootOpened(cfg.schema, d, r);
    ReplayRootThenOpen(cfg.schema, r, d);
    ChildListAfterOpen(cfg, "<" + r + "><", Replay([st], Some(0), MatchChild(cfg.schema, st, "", true).valid), |r| + 2, st);
  }

  /** Any text whose replay leaves one element open and the caret in an empty
      child tag name below it completes with that element's offer. */
  lemma ChildListAfterOpen(cfg: Config, text: string, rep: Replay, k: nat, st: ElementState)
    requires WellFormed(cfg.schema) && StateOk(cfg.schema, st) && rep.stack == [st] && rep.first == Some(0) && k != 0
    requires ReplayText(cfg.schema, text) == Finished(rep, Some(Token(Element("", [], None, false), k)), InStartElement)
    ensures var offered := ChildSuggestions(cfg.schema, st, "");
            GetSuggestions(cfg, text)
              == if offered.Failure? then Failure(offered.error) else Success(Completion(offered.value, 0))
  {
    var last := Token(Element("", [], None, false), k);
    CompletesAfter(cfg, text, rep, last, InStartElement);
    EmptyChildName(cfg, text, rep, last, st);
  }
}

=== FILE: schema.dfy ===
/** The compiled schema the autocomplete engine reads: an immutable value standing
    for the parts of `XmlSchemaSet` that MarkMpn.XmlSchemaAutoComplete/Autocomplete.cs
    consults. Types are referred to by identity (`TypeId`) so that recursive
    schemas and the `BaseXmlSchemaType == type` comparisons can be expressed. */
module Schema {
  import opened Wrappers

  type TypeId = nat

  /** `<h1>` / `<p>` and other markup of a documentation item. */
  datatype Markup = MarkupElement(tag: string, innerText: string) | MarkupOther

  datatype AnnotationItem = Documentation(markup: seq<Markup>) | AppInfo

  /** An `xs:annotation`; absent annotations are `None`. */
  datatype Annotation = Annotation(items: seq<AnnotationItem>)

  /** An element declaration: global, or a particle of a content model.
      An unbounded `maxOccurs` is a `nat` larger than any count reached. */
  datatype ElementDecl = ElementDecl(
    name: string,
    typeId: TypeId,
    nillable: bool,
    minOccurs: nat,
    maxOccurs: nat,
    annotation: Option<Annotation>)

  /** An alternative of a choice: an element, or any other particle. */
  datatype ChoiceItem = Alternative(element: ElementDecl) | OtherAlternative

  datatype ChoiceGroup = ChoiceGroup(items: seq<ChoiceItem>, minOccurs: nat, maxOccurs: nat)

  /** An item of a sequence: an element, a nested choice, or any other particle
      (a nested sequence, a wildcard, ...), which never matches a name. */
  datatype Particle =
    | ElementParticle(element: ElementDecl)
    | ChoiceParticle(choice: ChoiceGroup)
    | OtherParticle(min: nat, max: nat)
  {
    function MinOccurs(): nat {
      match this
      case ElementParticle(e) => e.minOccurs
      case ChoiceParticle(c) => c.minOccurs
      case OtherParticle(min, _) => min
    }

    function MaxOccurs(): nat {
      match this
      case ElementParticle(e) => e.maxOccurs
      case ChoiceParticle(c) => c.maxOccurs
      case OtherParticle(_, max) => max
    }
  }

  /** A sequence's own `maxOccurs`: a number, or `unbounded`, which the source
      reads as `decimal.MaxValue` and which no repeat count ever reaches. */
  datatype Bound = Bounded(n: nat) | Unbounded
  {
    /** A repeat count `k` may still make another pass. */
    predicate Below(k: nat) {
      Unbounded? || k < n
    }

    /** A repeat count `k` has not gone past the bound. */
    predicate Allows(k: nat) {
      Unbounded? || k <= n
    }

    /** A repeat count `k` equals the bound. */
    predicate Reached(k: nat) {
      Bounded? && k == n
    }
  }

  /** `ContentTypeParticle` of a complex type: a sequence (with its own
      `maxOccurs`), a choice, or anything else (the empty particle, `xs:all`, ...). */
  datatype ContentModel =
    | SequenceContent(items: seq<Particle>, maxOccurs: Bound)
    | ChoiceContent(choice: ChoiceGroup)
    | OtherContent

  datatype Facet = EnumerationFacet(value: string, annotation: Option<Annotation>) | OtherFacet

  /** A simple type: whether its type code is boolean, and the facets of its
      restriction when its content is one. */
  datatype SimpleType = SimpleType(
    name: string,
    isBoolean: bool,
    restriction: Option<seq<Facet>>,
    annotation: Option<Annotation>)

  datatype AttributeDecl = AttributeDecl(name: string, attributeType: SimpleType, annotation: Option<Annotation>)

  datatype SchemaType =
    | ComplexType(
        name: string,
        content: ContentModel,
        emptyContent: bool,
        attributeUses: seq<AttributeDecl>,
        baseType: Option<TypeId>,
        annotation: Option<Annotation>)
    | SimpleTypeDef(simple: SimpleType)
  {
    function Annotation(): Option<Annotation> {
      match this
      case ComplexType(_, _, _, _, _, a) => a
      case SimpleTypeDef(s) => s.annotation
    }

    function Name(): string {
      match this
      case ComplexType(n, _, _, _, _, _) => n
      case SimpleTypeDef(s) => s.name
    }
  }

  /** The schema set: the global elements in enumeration order, every type by
      identity, and the global named types in enumeration order. */
  datatype Schema = Schema(globals: seq<ElementDecl>, types: map<TypeId, SchemaType>, namedTypes: seq<TypeId>)

  // ---------------------------------------------------------------------------
  // What a compiled schema guarantees

  predicate OccursOk(min: nat, max: nat) {
    1 <= max && min <= max
  }

  /** A declared element has a name (an NCName is never empty), a type, and
      sensible bounds. */
  predicate DeclOk(s: Schema, d: ElementDecl) {
    |d.name| > 0 && d.typeId in s.types && OccursOk(d.minOccurs, d.maxOccurs)
  }

  predicate ChoiceOk(s: Schema, c: ChoiceGroup) {
    && OccursOk(c.minOccurs, c.maxOccurs)
    && forall i :: 0 <= i < |c.items| && c.items[i].Alternative? ==> DeclOk(s, c.items[i].element)
  }

  predicate ParticleOk(s: Schema, p: Particle) {
    match p
    case ElementParticle(e) => DeclOk(s, e)
    case ChoiceParticle(c) => ChoiceOk(s, c)
    case OtherParticle(min, max) => OccursOk(min, max)
  }

  predicate ContentOk(s: Schema, c: ContentModel) {
    match c
    case SequenceContent(items, _) => forall i :: 0 <= i < |items| ==> ParticleOk(s, items[i])
    case ChoiceContent(choice) => ChoiceOk(s, choice)
    case OtherContent => true
  }

  /** Attribute uses are keyed by name. */
  predicate AttributesOk(attrs: seq<AttributeDecl>) {
    forall i, j :: 0 <= i < j < |attrs| ==> attrs[i].name != attrs[j].name
  }

  predicate TypeOk(s: Schema, t: SchemaType) {
    match t
    case ComplexType(_, content, _, attrs, base, _) =>
      ContentOk(s, content) && AttributesOk(attrs) && (base.Some? ==> base.value in s.types)
    case SimpleTypeDef(_) => true
  }

  /** A compiled schema: every element is named, every type reference
      resolves, every particle has `1 <= maxOccurs` and `minOccurs <= maxOccurs`,
      attribute uses are keyed by name. */
  predicate WellFormed(s: Schema) {
    && (forall d :: d in s.globals ==> DeclOk(s, d))
    && (forall id :: id in s.types ==> TypeOk(s, s.types[id]))
    && (forall i :: 0 <= i < |s.namedTypes| ==> s.namedTypes[i] in s.types)
  }

  /** The type of a declared element. */
  function TypeOf(s: Schema, d: ElementDecl): SchemaType
    requires d.typeId in s.types
  {
    s.types[d.typeId]
  }

  /** The global named complex types derived from `id`, in enumeration order
      (the `xsi:type` candidates). */
  function DerivedTypes(s: Schema, id: TypeId): (r: seq<TypeId>)
    requires WellFormed(s)
    ensures forall t :: t in r <==> t in s.namedTypes && s.types[t].ComplexType? && s.types[t].baseType == Some(id)
    ensures forall t :: t in r ==> t in s.types
  {
    DerivedFrom(s, s.namedTypes, id)
  }

  function DerivedFrom(s: Schema, ids: seq<TypeId>, id: TypeId): (r: seq<TypeId>)
    requires forall i :: 0 <= i < |ids| ==> ids[i] in s.types
    ensures forall t :: t in r <==> t in ids && s.types[t].ComplexType? && s.types[t].baseType == Some(id)
    ensures |r| <= |ids|
  {
    if |ids| == 0 then []
    else
      var rest := DerivedFrom(s, ids[1..], id);
      assert forall t :: t in ids <==> t == ids[0] || t in ids[1..];
      var t := s.types[ids[0]];
      if t.ComplexType? && t.baseType == Some(id) then [ids[0]] + rest else rest
  }

  /** Whether any global named complex type exists at all. */
  predicate AnyComplexType(s: Schema)
    requires WellFormed(s)
  {
    exists i :: 0 <= i < |s.namedTypes| && s.types[s.namedTypes[i]].ComplexType?
  }
}

=== FILE: strings.dfy ===
/** The handful of .NET string operations the autocomplete core relies on,
    stated ordinally: `StartsWith` is an ordinal prefix test and white space is
    exactly the set of characters `Char.IsWhiteSpace` accepts. */
module Strings {

  /** Ordinal `s.StartsWith(prefix)`. */
  predicate StartsWith(s: string, prefix: string) {
    prefix <= s
  }

  /** `Char.IsWhiteSpace`: the Unicode space, line and paragraph separators plus
      the control characters U+0009 to U+000D and U+0085. */
  predicate IsWhiteSpace(c: char) {
    || ('\U{0009}' <= c <= '\U{000D}')
    || c == '\U{0020}'
    || c == '\U{0085}'
    || c == '\U{00A0}'
    || c == '\U{1680}'
    || ('\U{2000}' <= c <= '\U{200A}')
    || c == '\U{2028}'
    || c == '\U{2029}'
    || c == '\U{202F}'
    || c == '\U{205F}'
    || c == '\U{3000}'
  }

  /** `String.IsNullOrWhiteSpace` for a non-null string. */
  predicate AllWhiteSpace(s: string) {
    forall i :: 0 <= i < |s| ==> IsWhiteSpace(s[i])
  }

  /** The first index at or after `from` holding a character of `cs`, or `|text|`
      when there is none: the scanning loops of the tokenizer. */
  function IndexOfAny(text: string, from: nat, cs: set<char>): (k: nat)
    requires from <= |text|
    ensures from <= k <= |text|
    ensures k < |text| ==> text[k] in cs
    ensures forall j :: from <= j < k ==> text[j] !in cs
    decreases |text| - from
  {
    if from == |text| then from
    else if text[from] in cs then from
    else IndexOfAny(text, from + 1, cs)
  }

  /** The number of white-space characters `s` starts with. */
  function LeadingSpace(s: string): (k: nat)
    ensures k <= |s|
    ensures forall j :: 0 <= j < k ==> IsWhiteSpace(s[j])
    ensures k < |s| ==> !IsWhiteSpace(s[k])
  {
    if |s| > 0 && IsWhiteSpace(s[0]) then
      var k := LeadingSpace(s[1..]);
      assert forall j :: 1 <= j < k + 1 ==> s[j] == s[1..][j - 1];
      k + 1
    else 0
  }

  /** The number of white-space characters `s` ends with. */
  function TrailingSpace(s: string): (k: nat)
    ensures k <= |s|
    ensures forall j :: |s| - k <= j < |s| ==> IsWhiteSpace(s[j])
    ensures k < |s| ==> !IsWhiteSpace(s[|s| - k - 1])
  {
    if |s| > 0 && IsWhiteSpace(s[|s| - 1]) then
      var k := TrailingSpace(s[..|s| - 1]);
      assert forall j :: |s| - 1 - k <= j < |s| - 1 ==> s[j] == s[..|s| - 1][j];
      k + 1
    else 0
  }

  /** `s.Trim()`: the slice of `s` between its leading and its trailing white
      space, which neither starts nor ends with white space. All of `s` is
      white space exactly when the result is empty. */
  function Trim(s: string): (r: string)
    ensures var i := LeadingSpace(s);
            && i + |r| <= |s| && r == s[i..i + |r|]
            && (forall j :: 0 <= j < i ==> IsWhiteSpace(s[j]))
            && (forall j :: i + |r| <= j < |s| ==> IsWhiteSpace(s[j]))
    ensures |r| > 0 ==> !IsWhiteSpace(r[0]) && !IsWhiteSpace(r[|r| - 1])
    ensures |r| == 0 <==> AllWhiteSpace(s)
  {
    var i := LeadingSpace(s);
    var t := s[i..];
    var k := TrailingSpace(t);
    assert forall j :: i + |t| - k <= j < |s| ==> s[j] == t[j - i];
    assert |t| - k > 0 ==> t[0] == s[i];
    assert t[..|t| - k] == s[i..i + (|t| - k)];
    t[..|t| - k]
  }
}

=== FILE: suggestions.dfy ===
/** The five suggestion kinds of MarkMpn.XmlSchemaAutoComplete/AutocompleteSuggestion.cs
    as one tagged union, with the shared annotation lookup that fills their
    title and description. */
module Suggestions {
  import opened Wrappers
  import opened Schema

  /** The exceptions the core can raise: `SingleOrDefault` over more than one
      documentation item, and a dereference of a missing stack top. */
  datatype Failure = AmbiguousDocumentation | NullReference

  /** The fields every suggestion shares. */
  datatype Doc = Doc(title: Option<string>, description: Option<string>, displayName: Option<string>)

  const NoDoc := Doc(None, None, None)

  datatype Suggestion =
    | ElementSuggestion(doc: Doc, name: string, selfClosing: bool, hasAttributes: bool)
    | EndElementSuggestion(doc: Doc, name: string, includeSlash: bool)
    | AttributeSuggestion(doc: Doc, name: string)
    | AttributeValueSuggestion(doc: Doc, value: string, includeQuotes: bool, quoteChar: char)
    | ValueSuggestion(doc: Doc, value: string)

  /** The schema objects a suggestion can be built from. Only elements and
      attributes fall back to their type's annotation; facets and types carry
      their own. */
  datatype Annotated =
    | AnnotatedElement(element: ElementDecl)
    | AnnotatedAttribute(attribute: AttributeDecl)
    | AnnotatedOther(annotation: Option<Annotation>)

  /** The annotation the lookup reads: the object's own, or, for an element or
      attribute without one, that of its schema type. */
  function EffectiveAnnotation(s: Schema, a: Annotated): (r: Option<Annotation>)
    requires a.AnnotatedElement? ==> a.element.typeId in s.types
    ensures a.AnnotatedElement? ==>
              r == if a.element.annotation.Some? then a.element.annotation else s.types[a.element.typeId].Annotation()
    ensures a.AnnotatedAttribute? ==>
              r == if a.attribute.annotation.Some? then a.attribute.annotation else a.attribute.attributeType.annotation
    ensures a.AnnotatedOther? ==> r == a.annotation
  {
    match a
    case AnnotatedElement(d) =>
      if d.annotation.None? then s.types[d.typeId].Annotation() else d.annotation
    case AnnotatedAttribute(at) =>
      if at.annotation.None? then at.attributeType.annotation else at.annotation
    case AnnotatedOther(ann) => ann
  }

  /** The documentation items of an annotation, in order. */
  function Documentations(items: seq<AnnotationItem>): (r: seq<seq<Markup>>)
    ensures |r| <= |items|
    ensures forall m :: m in r <==> Documentation(m) in items
  {
    if |items| == 0 then []
    else
      var rest := Documentations(items[1..]);
      assert forall x :: x in items <==> x == items[0] || x in items[1..];
      match items[0]
      case Documentation(m) => [m] + rest
      case AppInfo => rest
  }

  /** The inner text of the first markup element with the given tag. */
  function FirstInnerText(markup: seq<Markup>, tag: string): (r: Option<string>)
    ensures r.None? <==> forall j :: 0 <= j < |markup| ==> !(markup[j].MarkupElement? && markup[j].tag == tag)
    ensures r.Some? ==>
              exists k ::
                && 0 <= k < |markup|
                && markup[k] == MarkupElement(tag, r.value)
                && forall j :: 0 <= j < k ==> !(markup[j].MarkupElement? && markup[j].tag == tag)
  {
    if |markup| == 0 then None
    else if markup[0].MarkupElement? && markup[0].tag == tag then Some(markup[0].innerText)
    else
      var r := FirstInnerText(markup[1..], tag);
      if r.Some? then
        var k :| 0 <= k < |markup[1..]| && markup[1..][k] == MarkupElement(tag, r.value)
                 && forall j :: 0 <= j < k ==> !(markup[1..][j].MarkupElement? && markup[1..][j].tag == tag);
        assert markup[k + 1] == MarkupElement(tag, r.value);
        r
      else r
  }

  /** The documentation lookup: with no annotation or no documentation item the
      fields stay unset; with one item, `Title` is the first `h1` and
      `Description` the first `p` in it; more than one item is an error. */
  function DocOf(ann: Option<Annotation>): (r: Result<Doc, Failure>)
    ensures r.Failure? <==> ann.Some? && |Documentations(ann.value.items)| > 1
    ensures r.Failure? ==> r.error == AmbiguousDocumentation
    ensures r.Success? ==> r.value.displayName.None?
    ensures r.Success? && (r.value.title.Some? || r.value.description.Some?) ==>
              ann.Some? && |Documentations(ann.value.items)| == 1
    ensures r.Success? && r.value.title.Some? ==>
              MarkupElement("h1", r.value.title.value) in Documentations(ann.value.items)[0]
    ensures r.Success? && r.value.description.Some? ==>
              MarkupElement("p", r.value.description.value) in Documentations(ann.value.items)[0]
    ensures ann.None? || |Documentations(ann.value.items)| == 0 ==> r == Success(NoDoc)
    ensures ann.Some? && |Documentations(ann.value.items)| == 1 ==>
              var docs := Documentations(ann.value.items);
              r == Success(Doc(FirstInnerText(docs[0], "h1"), FirstInnerText(docs[0], "p"), None))
  {
    match ann
    case None => Success(NoDoc)
    case Some(a) =>
      var docs := Documentations(a.items);
      if |docs| == 0 then Success(NoDoc)
      else if |docs| == 1 then
        Success(Doc(FirstInnerText(docs[0], "h1"), FirstInnerText(docs[0], "p"), None))
      else Failure(AmbiguousDocumentation)
  }

  /** The first element with a tag wins over any later one. */
  lemma {:induction false} FirstInnerTextAfter(pre: seq<Markup>, tag: string, text: string, post: seq<Markup>)
    requires forall j :: 0 <= j < |pre| ==> !(pre[j].MarkupElement? && pre[j].tag == tag)
    ensures FirstInnerText(pre + [MarkupElement(tag, text)] + post, tag) == Some(text)
  {
    if |pre| > 0 {
      FirstInnerTextAfter(pre[1..], tag, text, post);
      assert (pre + [MarkupElement(tag, text)] + post)[1..] == pre[1..] + [MarkupElement(tag, text)] + post;
    }
  }

  /** A single documentation item whose first `h1` holds `title` gives that
      title, whatever other `h1` elements follow it. */
  lemma DocTakesFirstHeading(ann: Option<Annotation>, pre: seq<Markup>, title: string, post: seq<Markup>)
    requires ann.Some? && Documentations(ann.value.items) == [pre + [MarkupElement("h1", title)] + post]
    requires forall j :: 0 <= j < |pre| ==> !(pre[j].MarkupElement? && pre[j].tag == "h1")
    ensures DocOf(ann).Success? && DocOf(ann).value.title == Some(title)
  {
    FirstInnerTextAfter(pre, "h1", title, post);
  }

  /** The base constructor: the documentation of the object, falling back to its type. */
  function Lookup(s: Schema, a: Annotated): Result<Doc, Failure>
    requires a.AnnotatedElement? ==> a.element.typeId in s.types
  {
    DocOf(EffectiveAnnotation(s, a))
  }

  // ---------------------------------------------------------------------------
  // The constructors

  /** `AutocompleteElementSuggestion(element)`: the element's name; for a complex
      type, self-closing iff its content is empty and with attributes iff it has
      attribute uses; for a simple type both flags are false. */
  function ElementSuggestionOf(s: Schema, d: ElementDecl): (r: Result<Suggestion, Failure>)
    requires d.typeId in s.types
    ensures r.Failure? <==> Lookup(s, AnnotatedElement(d)).Failure?
    ensures r.Success? ==>
              var t := s.types[d.typeId];
              && r.value.ElementSuggestion?
              && r.value.name == d.name
              && r.value.doc == Lookup(s, AnnotatedElement(d)).value
              && (r.value.selfClosing <==> t.ComplexType? && t.emptyContent)
              && (r.value.hasAttributes <==> t.ComplexType? && |t.attributeUses| > 0)
  {
    var doc :- Lookup(s, AnnotatedElement(d));
    var t := s.types[d.typeId];
    if t.ComplexType? then Success(ElementSuggestion(doc, d.name, t.emptyContent, |t.attributeUses| > 0))
    else Success(ElementSuggestion(doc, d.name, false, false))
  }

  /** `AutocompleteEndElementSuggestion(element)`: the element's name, without
      the slash unless the caller asks for it. */
  function EndElementSuggestionOf(s: Schema, d: ElementDecl): (r: Result<Suggestion, Failure>)
    requires d.typeId in s.types
    ensures r.Failure? <==> Lookup(s, AnnotatedElement(d)).Failure?
    ensures r.Success? ==> r.value.EndElementSuggestion? && r.value.name == d.name && !r.value.includeSlash
    ensures r.Success? ==> r.value.doc == Lookup(s, AnnotatedElement(d)).value
  {
    var doc :- Lookup(s, AnnotatedElement(d));
    Success(EndElementSuggestion(doc, d.name, false))
  }

  /** `AutocompleteAttributeSuggestion(attribute)`. */
  function AttributeSuggestionOf(s: Schema, a: AttributeDecl): (r: Result<Suggestion, Failure>)
    ensures r.Failure? <==> Lookup(s, AnnotatedAttribute(a)).Failure?
    ensures r.Success? ==> r.value.AttributeSuggestion? && r.value.name == a.name
    ensures r.Success? ==> r.value.doc == Lookup(s, AnnotatedAttribute(a)).value
  {
    var doc :- Lookup(s, AnnotatedAttribute(a));
    Success(AttributeSuggestion(doc, a.name))
  }

  /** `AutocompleteAttributeValueSuggestion(facet)`: the facet's value. */
  function AttributeValueOfFacet(s: Schema, value: string, ann: Option<Annotation>): (r: Result<Suggestion, Failure>)
    ensures r.Failure? <==> DocOf(ann).Failure?
    ensures r.Success? ==> r.value.AttributeValueSuggestion? && r.value.value == value && !r.value.includeQuotes
    ensures r.Success? ==> r.value.doc == DocOf(ann).value
  {
    var doc :- Lookup(s, AnnotatedOther(ann));
    Success(AttributeValueSuggestion(doc, value, false, '\0'))
  }

  /** `AutocompleteAttributeValueSuggestion(type)`: the type's name. */
  function AttributeValueOfType(s: Schema, t: SchemaType): (r: Result<Suggestion, Failure>)
    ensures r.Failure? <==> DocOf(t.Annotation()).Failure?
    ensures r.Success? ==> r.value.AttributeValueSuggestion? && r.value.value == t.Name() && !r.value.includeQuotes
    ensures r.Success? ==> r.value.doc == DocOf(t.Annotation()).value
  {
    var doc :- Lookup(s, AnnotatedOther(t.Annotation()));
    Success(AttributeValueSuggestion(doc, t.Name(), false, '\0'))
  }

  /** `AutocompleteValueSuggestion(facet)`: the facet's value. */
  function ValueOfFacet(s: Schema, value: string, ann: Option<Annotation>): (r: Result<Suggestion, Failure>)
    ensures r.Failure? <==> DocOf(ann).Failure?
    ensures r.Success? ==> r.value.ValueSuggestion? && r.value.value == value
    ensures r.Success? ==> r.value.doc == DocOf(ann).value
  {
    var doc :- Lookup(s, AnnotatedOther(ann));
    Success(ValueSuggestion(doc, value))
  }
}

=== FILE: wrappers.dfy ===
/** Option and Result, the failure-compatible wrappers the rest of the model uses
    in place of the source's nulls and exceptions. */
module Wrappers {

  /** A value that may be absent; `None` stands for the source's `null`. */
  datatype Option<+T> = None | Some(value: T) {

    predicate IsFailure() {
      None?
    }

    function PropagateFailure<U>(): Option<U>
      requires None?
    {
      None
    }

    function Extract(): T
      requires Some?
    {
      value
    }

    /** The wrapped value, or `default` when absent (the source's `?? default`). */
    function GetOr(default: T): T {
      match this
      case Some(v) => v
      case None => default
    }
  }

  /** The outcome of a computation that may throw: `Failure` carries the exception kind. */
  datatype Result<+R, +E> = Success(value: R) | Failure(error: E) {

    predicate IsFailure() {
      Failure?
    }

    function PropagateFailure<U>(): Result<U, E>
      requires Failure?
    {
      Failure(error)
    }

    function Extract(): R
      requires Success?
    {
      value
    }
  }
}
